=== FILE: README.md ===
# Advent of Code solutions, modelled in Dafny

This project models the core logic of several Advent of Code solutions written in Rust:

- **Day 20.** A network of pulse modules: broadcaster, flip-flop and conjunction.
  - The model covers the modules' state updates and the depth-first pulse cascade.
  - It covers the machine parser that registers each conjunction's inputs.
  - It covers both solvers: the high-times-low tally over 1000 button presses, and the search for the press that sends a low pulse to `rx`.
  - It also covers the earlier module drafts in `day20a/src/types.rs`.
- **Day 19.**
  - Part one covers the workflow rules, the chain of workflow lookups per part, and the sum of the accepted parts.
  - Part two covers the rating ranges and their four-dimensional boxes, the way a box splits at a rule, the branch rounds, and the count of accepted combinations.
- **Day 5.** The almanac's seed ranges are remapped through each table of intervals, and the solver takes the minimum location.
  - The pipeline takes the overlap test as a parameter. `Inclusive` is the test the code performs, which also fires for some ranges that share no value with the entry. `HalfOpen` is the evidently intended test, which fires only on a shared value. The two differ exactly where the code's test fires on a range that shares no value with the entry: a range touching the entry at an end, or an empty range lying within it.
  - The loops `FindDestinationRange` and `FilterImages` follow the code's test. The two tests are proved to agree whenever no entry merely touches a range.
- **Day 2.** The cube game: which games the bag allows, and the power of each game's fewest cubes.
- **Day 1.** The calibration value: the first and the last word of a table that occur in a line.
- **Day 3.** The three-line window that hands each line to a handler together with its neighbours.

Each source module has its own Dafny module:

- `PulseModules`, `Propagation`, `PulseCount`, `PulseRx`, `MachineParser`, `PanicFreedom` and `DraftModules` cover day 20.
- `Workflows`, `PartRating` and `PartRanges` cover day 19.
- `Almanac` covers day 5, `CubeGame` day 2, `Calibration` day 1 and `Window` day 3.
- `Wrappers` holds `Option` and a sum over optional numbers.

`Outcome`, `Verdict` and `Search` model the ways the source can stop:

- a panic (an `unwrap`, an `expect` or a `panic!`);
- a missing workflow or reference;
- a loop that never ends, which is modelled by a `fuel` bound that runs out.

`Propagation.Cascade` is the reference semantics of one round of pulses. It is the full trace of pulses sent, in the order the source's recursion sends them. Both day 20 solvers are proved to compute a function of that trace: the tally of its levels, or whether it holds a low pulse to `rx`.

## Model

| member | source | states |
|---|---|---|
| PulseModules.NewBroadcaster | day20b/src/types.rs:27-33 | a broadcaster with exactly the given destinations |
| PulseModules.NewFlipFlop | day20b/src/types.rs:35-43 | a flip-flop that starts off, with no input seen, and the given destinations |
| PulseModules.NewConjunction | day20b/src/types.rs:45-52 | a conjunction with no inputs registered yet and the given destinations |
| PulseModules.UpdateState | day20b/src/types.rs:60-108 | a delivered pulse never changes a module's kind or destinations, nor the set of inputs a conjunction knows |
| PulseModules.UpdateStateSpec | day20b/src/types.rs:60-108 | the update is rejected exactly when a conjunction hears from an unregistered sender; a broadcaster always sends low; a flip-flop ignores high and toggles on low, then sends its new state; a conjunction records the sender's level, leaves the other inputs alone, and sends low exactly when every recorded input is high |
| PulseModules.RegisterInput | day20b/src/types.rs:114-116 | only a conjunction changes; it gains the input, remembered as low, and the inputs it had keep their levels |
| PulseModules.RegisterInputIdempotent | day20b/src/types.rs:114-116 | registering the same input twice is the same as registering it once |
| PulseModules.FlipFlopTwoLows | day20b/src/types.rs:79-89 | two low pulses turn a fresh flip-flop on and then off again, sending high and then low |
| PulseModules.ConjunctionLowNeedsHighInput | day20b/src/types.rs:104-108 | a conjunction can send low only after it receives a high pulse |
| Propagation.UpdateAll | day20a/src/main.rs:38-41 | updating the receivers of a pulse keeps the network's names, and every module that answers is in the network |
| Propagation.UpdateAllSpec | day20a/src/main.rs:38-41 | the update of all receivers fails exactly when one of them rejects the sender; otherwise the modules that answer are exactly the existing receivers that produce an output, in send order |
| Propagation.UpdateAllKeepsWiring | day20a/src/main.rs:38-41 | updating the receivers never changes any module's kind, destinations or set of known inputs |
| Propagation.Sent | day20a/src/main.rs:37 | one pulse of the given level from the sender to each destination, in order |
| Propagation.Cascade | day20a/src/main.rs:36-50 | a finished cascade keeps the network's names |
| Propagation.CascadeEach | day20a/src/main.rs:43-48 | the cascades of all the answering modules, run one after another, keep the network's names |
| Propagation.CascadeFuelMonotone | day20a/src/main.rs:36-50 | a cascade that finishes with some fuel gives the same trace and network with any larger fuel |
| Propagation.CascadeKeepsWiring | day20a/src/main.rs:36-50 | a finished cascade changes module states only, never the wiring |
| Propagation.CascadeTraceShape | day20a/src/main.rs:36-50 | the trace opens with the pulses sent to the given destinations; every later pulse travels along an edge of the network |
| Propagation.CascadeEachTraceShape | day20a/src/main.rs:43-48 | every pulse sent by the answering modules' cascades travels along an edge of the network |
| PulseCount.TallyOfSent | day20a/src/main.rs:37 | the pulses sent to n destinations count n at their level and none at the other |
| PulseCount.ForwardSignals | day20a/src/main.rs:36-50 | a finished count keeps the network's names and counts at least the pulses sent directly |
| PulseCount.ForwardEach | day20a/src/main.rs:43-49 | the count only grows as the answering modules forward their outputs |
| PulseCount.ForwardSignalsCountsTrace | day20a/src/main.rs:36-50 | the counting solver finishes, panics or runs out of fuel exactly when the cascade does; when it finishes, it leaves the same network and its tally is the number of high and of low pulses in the trace |
| PulseCount.ForwardEachCountsTrace | day20a/src/main.rs:43-49 | the same agreement for the answering modules' cascades, on top of a running count |
| PulseCount.BothCountedTally | day20a/src/main.rs:43-49 | when the first answering module's cascade and the rest both finish, the running count grows by the tally of the joined trace |
| PulseCount.CascadeEachJoins | day20a/src/main.rs:43-48 | the trace of all answering modules is the first module's cascade followed by the cascades of the rest, on the network the first left behind |
| PulseCount.PressCountsButton | day20a/src/main.rs:28-37 | a finished press counts exactly one low pulse for the button, added to the tally of the answering modules' cascades |
| PulseCount.Press | day20a/src/main.rs:28 | a finished press keeps the network's names and counts at least the button's low pulse |
| PulseCount.Presses | day20a/src/main.rs:26-31 | k finished presses count at least k low pulses |
| PulseCount.Run | day20a/src/main.rs:23-34 | an answer exists exactly when all 1000 presses on the one persisting network finish; it is total high times total low, with at least 1000 lows |
| PulseCount.PressesStopAfterFailure | day20a/src/main.rs:27-31 | once a press fails, no later number of presses finishes |
| PulseRx.AnyLowToRxAppend | day20b/src/main.rs:47-52 | a joined trace holds a low pulse to `rx` exactly when one of its parts does |
| PulseRx.AnyLowToRxSent | day20b/src/main.rs:41 | the pulses sent directly reach `rx` low exactly when `rx` is a destination and the level is low |
| PulseRx.ForwardSignals | day20b/src/main.rs:40-57 | a finished search keeps the network's names and reports true whenever `rx` is sent a low pulse directly |
| PulseRx.ForwardEach | day20b/src/main.rs:47-52 | a flag that is already raised stays raised |
| PulseRx.ForwardSignalsDetectsTrace | day20b/src/main.rs:40-57 | the search finishes, panics or runs out of fuel exactly when the cascade does; when it finishes, it leaves the same network and is true exactly when the trace holds a low pulse to `rx` |
| PulseRx.ForwardEachDetectsTrace | day20b/src/main.rs:47-52 | the same agreement for the answering modules' cascades, on top of a raised or lowered flag |
| PulseRx.BothDetectedFlag | day20b/src/main.rs:47-52 | when both parts finish, the flag is the old flag or a low pulse to `rx` in the joined trace |
| PulseRx.SameRunAsTally | day20b/src/main.rs:40-57 | the `rx` search and the pulse tally run the same cascade: they stop the same way and leave the same network |
| PulseRx.NetAfter | day20b/src/main.rs:28-33 | the network after k presses keeps the names of the network it started from |
| PulseRx.Press | day20b/src/main.rs:29 | a finished press keeps the network's names |
| PulseRx.FiresIffTraceReachesRx | day20b/src/main.rs:29 | press k fires exactly when its cascade finishes with a low pulse to `rx` in its trace |
| PulseRx.NetAfterStops | day20b/src/main.rs:28-34 | once a press fails, no later network exists |
| PulseRx.Run | day20b/src/main.rs:23-38 | the answer is the first press that fires, and no earlier press fires; no answer means no press below the limit fires |
| MachineParser.LowerAll | day20a/src/parser.rs:79 | lower-casing keeps the length and maps every character on its own |
| MachineParser.TypeFromTags | day20a/src/parser.rs:77-86 | each module type's tag parses back to that type |
| MachineParser.TypeFromIgnoresCase | day20a/src/parser.rs:79 | a tag's type does not depend on the case of its letters |
| MachineParser.TypeFrom | day20a/src/parser.rs:77-86 | a parsed type has the lower-cased tag as its tag, and there is none exactly when no type has that tag |
| MachineParser.CreateModule | day20a/src/parser.rs:40-46 | the new module has the parsed type and destinations and starts fresh: a flip-flop off, a conjunction with no inputs |
| MachineParser.BuildModules | day20a/src/parser.rs:18-22 | the network holds exactly the parsed names |
| MachineParser.BuildModulesLastWins | day20a/src/parser.rs:18-22 | a name's module is built from the last line that names it |
| MachineParser.BuildModulesFresh | day20a/src/parser.rs:18-22 | every conjunction of the built network starts with no inputs |
| MachineParser.RegisterSource | day20a/src/parser.rs:28-38 | registering sources keeps the network's names |
| MachineParser.RegisterSourceLayout | day20a/src/parser.rs:28-38 | registering sources never changes any module's kind or destinations |
| MachineParser.RegisterSourceSpec | day20a/src/parser.rs:28-38 | conjunction c learns input s exactly when the depth-first walk, which never revisits a module on its current path, reaches c straight from s; every input learned starts low, and the inputs c already had keep their levels unless relearned |
| MachineParser.RegisterAllSpec | day20a/src/parser.rs:33-35 | the same for a walk into each destination in turn |
| MachineParser.RegisterAll | day20a/src/parser.rs:33-35 | registering a module into each destination keeps the names of the network |
| MachineParser.VisitedStep | day20a/src/parser.rs:30-35 | one step of the walk: a module is reached from its source, or through one of its own destinations |
| MachineParser.NotVisitedBlocked | day20a/src/parser.rs:29-30 | the walk stops at a missing module or one already on its path |
| MachineParser.ParseMachine | day20a/src/parser.rs:17-26 | the parsed machine holds exactly the parsed names |
| MachineParser.ParseMachineInputs | day20a/src/parser.rs:17-38 | a conjunction knows input s exactly when the walk from the broadcaster reaches it straight from s, and it remembers that input as low |
| MachineParser.CycleExampleMissesInput | day20a/src/parser.rs:28-38 | a three-module machine in which b feeds conjunction c, yet the parsed c never learns b |
| MachineParser.OnlyFedByItselfNeverLearned | day20a/src/parser.rs:28-38 | a module fed only by conjunction c is never learned as one of c's inputs |
| MachineParser.RegisterEdgesSpec | day20a/src/parser.rs:28-38 | registering every edge of the listed modules teaches conjunction c exactly the listed modules that feed into it |
| MachineParser.ParseMachineFixed | day20a/src/parser.rs:17-26 | the parser with every edge registered holds exactly the parsed names |
| MachineParser.ParseMachineFixedInputs | day20a/src/parser.rs:17-38 | with every edge registered, each conjunction knows exactly the modules that feed into it, all remembered as low, and the wiring is the built one |
| PanicFreedom.CascadeNeverPanics | day20b/src/types.rs:105-108 | when every conjunction knows all its predecessors and the first receivers accept the sender, the cascade never hits the `unwrap` on an unknown sender |
| PanicFreedom.CascadeEachNeverPanics | day20a/src/main.rs:43-48 | the same for the answering modules' cascades |
| PanicFreedom.PressNeverPanics | day20a/src/main.rs:28-30 | a press on such a network never panics and keeps the wiring |
| PanicFreedom.PressesNeverPanic | day20a/src/main.rs:26-31 | any number of presses on such a network never panics and keeps the wiring |
| PanicFreedom.ParseMachineFixedKnows | day20a/src/parser.rs:28-38 | with every edge registered, every conjunction knows each of its predecessors |
| PanicFreedom.ParseMachineFixedButton | day20a/src/parser.rs:17-26 | a broadcaster that is not a conjunction accepts the button |
| PanicFreedom.Solve | day20a/src/main.rs:23-34 | the tally solver on a machine with every edge registered fails only by running out of fuel; its answer is total high times total low |
| DraftModules.NewBroadcaster | day20a/src/types.rs:37-44 | a draft broadcaster with no pulses counted and no destinations |
| DraftModules.NewFlipFlop | day20a/src/types.rs:46-56 | a draft flip-flop with the given id, off, with no input seen, nothing counted and no destinations |
| DraftModules.NewConjunction | day20a/src/types.rs:58-67 | a draft conjunction with the given id, no stored inputs, nothing counted and no destinations |
| DraftModules.UpdateState | day20a/src/types.rs:70-133 | an update keeps the draft's kind, id and destinations and counts one more pulse |
| DraftModules.UpdateStateSpec | day20a/src/types.rs:70-133 | a broadcaster only counts; a flip-flop records the level and toggles on low; a conjunction overwrites a stored sender's level and never adds a new sender |
| DraftModules.Reset | day20a/src/types.rs:87-89 | reset zeroes the count and changes nothing else |
| DraftModules.AddDestination | day20a/src/types.rs:91-93 | the destination is appended and nothing else changes |
| DraftModules.SignalOf | day20a/src/types.rs:74-142 | a broadcaster sends low from id 0; a flip-flop sends only after a low input; a conjunction always sends, high exactly when every stored input is high |
| DraftModules.UpdateEachCounts | day20a/src/types.rs:70-133 | updating with n pulses counts n more and keeps the draft's kind, id and destinations |
| DraftModules.FreshConjunctionAlwaysHigh | day20a/src/types.rs:130-141 | a fresh draft conjunction never stores an input, so it always sends high |
| DraftModules.FlipFlopTwoLows | day20a/src/types.rs:97-114 | two lows make a fresh draft flip-flop send high and then low, ending off with two pulses counted |
| DraftModules.FlipFlopHighSilences | day20a/src/types.rs:97-114 | after a high input a draft flip-flop sends nothing and keeps its state |
| Workflows.IsDone | day19a/src/types.rs:82-88 | a destination is done exactly when it accepts or rejects |
| PartRating.SumOfValues | day19a/src/types.rs:55-66 | a part's sum is the sum of its four ratings |
| PartRating.RuleEvaluate | day19a/src/types.rs:70-78 | a rule matches exactly when the rating of its category is strictly above or below its value, and then it names its destination |
| PartRating.Evaluate | day19a/src/types.rs:45-50 | a workflow sends a part to the destination of its first matching rule, and to its default when no rule matches |
| PartRating.FirstMatch | day19a/src/types.rs:45-51 | a workflow goes to the destination of its first matching rule, or to its default when no rule matches |
| PartRating.Resolve | day19a/src/main.rs:41-51 | accept and reject resolve at once; a reference to a missing workflow is the `expect` failure; resolving through a workflow takes fuel |
| PartRating.ResolveFuelMonotone | day19a/src/main.rs:43-45 | a resolution that ends with some fuel ends the same with more |
| PartRating.SelfReferenceNeverResolves | day19a/src/main.rs:43-45 | a workflow that leads only back to itself loops for ever |
| PartRating.ResolveDestination | day19a/src/main.rs:41-51 | the loop of lookups gives the verdict of the recursive resolution |
| PartRating.Verdicts | day19a/src/main.rs:35 | one verdict per part, in order |
| PartRating.AcceptedTotal | day19a/src/main.rs:34-38 | the total of the accepted parts is at most the total of all parts |
| PartRating.AcceptedTotalDefined | day19a/src/main.rs:34-38 | there is a total exactly when every part resolves |
| PartRating.AcceptedTotalExtremes | day19a/src/main.rs:36-38 | when every part is accepted the total is the sum of all parts, and when every part is rejected it is 0 |
| PartRating.Solution | day19a/src/main.rs:34-38 | the loop over the parts computes the accepted total of their verdicts |
| PartRanges.Split | day19b/src/types.rs:125-142 | the first part holds exactly the ratings of the range that meet the condition and the second exactly those that do not; the two sizes add up to the range's size |
| PartRanges.SplitExamples | day19b/src/types.rs:158-210 | the splits the source's tests expect, both conditions, with the value inside, above and below the range |
| PartRanges.WithAxis | day19b/src/types.rs:97-106 | replacing one category's range changes that category and no other |
| PartRanges.EntryPermutationExample | day19b/src/types.rs:212-222 | the box of the source's test holds 50 combinations |
| PartRanges.EntryPermutationByAxis | day19b/src/types.rs:77-81 | a box's size is the size of any one axis times the sizes of the other three |
| PartRanges.EntryPermutation | day19b/src/types.rs:77-81 | a box of valid ranges holds at least one combination |
| PartRanges.RuleSplit | day19b/src/types.rs:109-120 | both halves are valid boxes that differ from the original only in the rule's category |
| PartRanges.RuleSplitPoints | day19b/src/types.rs:109-120 | a part lies in the first half exactly when it lies in the box and the rule matches it, and in the second exactly when it lies in the box and the rule does not |
| PartRanges.RuleSplitSizes | day19b/src/types.rs:109-120 | the two halves' sizes add up to the box's size |
| PartRanges.SingleRatingSplit | day19b/src/types.rs:125-142 | splitting a one-rating range agrees with the part-one rule on that rating |
| PartRanges.BranchesFrom | day19b/src/types.rs:56-73 | every branch's box is valid |
| PartRanges.CreateBranches | day19b/src/types.rs:56-73 | every branch a workflow creates from a valid box is valid |
| PartRanges.LookupCount | day19b/src/types.rs:56-73 | a part has a branch exactly when some branch's box holds it |
| PartRanges.BranchesFromPoints | day19b/src/types.rs:56-73 | a part of the box lies in exactly one branch, whose destination is where part one's workflow sends it; a part outside lies in none |
| PartRanges.BranchesFromSizes | day19b/src/types.rs:56-73 | the branches' sizes add up to the box's size |
| PartRanges.Children | day19b/src/main.rs:46-55 | the next branches are valid, and there are none exactly when the destination names a missing workflow |
| PartRanges.Round | day19b/src/main.rs:45-56 | a round keeps every box valid |
| PartRanges.ResolveRounds | day19b/src/main.rs:43-57 | the rounds keep every box valid |
| PartRanges.StartBox | day19b/src/main.rs:35-40 | the starting box, 1 to 4000 on each axis, is valid |
| PartRanges.ResolveBranches | day19b/src/main.rs:33-60 | the branches found are valid boxes |
| PartRanges.RoundWithoutRefs | day19b/src/main.rs:43-57 | a round with no references left keeps just the accepted branches |
| PartRanges.ResolveRoundsAccepted | day19b/src/main.rs:43-59 | every branch at the end is accepted |
| PartRanges.RoundSizes | day19b/src/main.rs:45-56 | a round never grows the total size |
| PartRanges.ResolveRoundsSizes | day19b/src/main.rs:43-57 | the rounds never grow the total size |
| PartRanges.ResolveBranchesBound | day19b/src/main.rs:33-60 | the count is at most 4000 to the fourth |
| PartRanges.ChildrenPoints | day19b/src/main.rs:46-55 | a rejected branch drops its parts; an accepted branch keeps them accepted; a referenced workflow sends each part where part one's evaluation does |
| PartRanges.RoundPoints | day19b/src/main.rs:45-56 | a round moves each part one evaluation step forward and never duplicates it |
| PartRanges.ResolveRoundsPoints | day19b/src/main.rs:43-59 | a part ends in exactly one branch when part one's resolution accepts it, and in none otherwise |
| PartRanges.ResolveBranchesAgrees | day19b/src/main.rs:33-60 | part two counts a part exactly when it lies in the starting box and part one's resolution from the same destination accepts it |
| PartRanges.Solve | day19b/src/main.rs:17-31 | the answer exists exactly when the branches resolve; it is their total size, at most 4000 to the fourth |
| PartRanges.PermutationAsWritten | day19b/src/types.rs:144-146 | when the 16-bit subtraction and increment do not overflow, the count is the range's size |
| PartRanges.PermutationAsWrittenOverflows | day19b/src/types.rs:144-146 | the full 16-bit range overflows the increment |
| PartRanges.PermutationAsWrittenAgrees | day19b/src/types.rs:144-146 | every range that starts at 1 or above, such as those under the 1 to 4000 box, is counted correctly |
| PartRanges.PermutationCounts | day19b/src/types.rs:144-146 | a range's size is the number of ratings it holds |
| PartRanges.Permutation | day19b/src/types.rs:144-146 | a valid range holds between 1 and 65536 ratings, and its last rating is its start plus the count less one |
| Almanac.Image | day5a/src/lib.rs:86-97 | a range and a table entry overlap when neither starts past the other's upper end, upper ends included; the image starts where the overlap does, shifted by the entry's offset, and its length is the overlap's length |
| Almanac.ImageFixed | day5a/src/lib.rs:86-97 | the intended image is never empty and is no longer than the range or the entry |
| Almanac.ImageFixedSpec | day5a/src/lib.rs:86-97 | with a half-open overlap, an image exists exactly when the range and the entry share a value, and it holds exactly the shifted shared values |
| Almanac.ImageFixedAgrees | day5a/src/lib.rs:86-97 | wherever the half-open image exists the code's image is the same; where only the code's exists, it is empty |
| Almanac.ImageValues | day5a/src/lib.rs:86-97 | under either overlap test, an entry that shares a value with the range gives an image, and an image holds exactly the translations of the shared values |
| Almanac.ImagesValues | day5a/src/lib.rs:74-76 | under either test, a value lies in one of a range's images exactly when some entry translates a value of the range that it covers to it |
| Almanac.Images | day5a/src/lib.rs:74-76 | each image comes from one entry of the table, under the chosen test; there are none exactly when no entry answers |
| Almanac.FilterImages | day5a/src/lib.rs:74-76 | the loop collects the images of a range in table order, under the code's inclusive test |
| Almanac.Remap | day5a/src/lib.rs:73-81 | a range no entry answers passes through unchanged; otherwise it becomes the images and nothing else |
| Almanac.RemapValues | day5a/src/lib.rs:73-81 | a value comes out of one range's remapping exactly when the range passed through and holds it, or an entry translated a value of the range to it |
| Almanac.RemapAll | day5a/src/lib.rs:71-83 | every source range contributes at least one range to the list |
| Almanac.RemapAllValues | day5a/src/lib.rs:71-83 | a value lies in the remapped ranges exactly when some source range explains it: passed through, or translated by an entry covering it |
| Almanac.FindDestinationRange | day5a/src/lib.rs:71-83 | the loop remaps every source range through the table, in order, under the code's inclusive test |
| Almanac.ImagesAgree | day5a/src/lib.rs:74-76 | when no entry merely touches a range, the code's images and the intended ones are the same |
| Almanac.RemapAllAgree | day5a/src/lib.rs:71-83 | when no entry merely touches any source range, the code's remapping and the intended one are the same |
| Almanac.TouchedSpanLost | day5a/src/lib.rs:77-80 | a range that some entry touches but that shares no value with any entry loses every value under the code's test, and passes through whole under the intended one |
| Almanac.Through | day5a/src/lib.rs:63-65 | threading ranges through the maps never shortens the list |
| Almanac.FindLocation | day5a/src/lib.rs:60-69 | a seed range ends as at least one location |
| Almanac.MinOf | day5a/src/lib.rs:56 | the minimum is one of the values and no value is smaller |
| Almanac.AllLocations | day5a/src/lib.rs:54-55 | every seed contributes at least one location |
| Almanac.AllLocationsMembers | day5a/src/lib.rs:54-55 | a location is among all locations exactly when it is a location of some seed |
| Almanac.FindMinSolution | day5a/src/lib.rs:53-58 | there is a minimum exactly when there is a seed, which is the `expect` |
| Almanac.FindMinSolutionSpec | day5a/src/lib.rs:53-58 | the minimum is the location of some seed, and no seed has a smaller location |
| Almanac.FindMinSolutionOrder | day5a/src/lib.rs:53-58 | the minimum does not depend on the order of the seeds, which the parallel iterator does not fix |
| Almanac.UnitSeeds | day5a/src/main.rs:18-21 | every value becomes a seed range of length one, in order |
| Almanac.PairSeeds | day5b/src/main.rs:18-21 | the values pair up as start and length, in order; an odd count is the out-of-bounds index of the last chunk |
| Almanac.SolveUnit | day5a/src/main.rs:8-11 | part one has an answer exactly when there is a value; it is a location of one value's seed, and no value's seed has a smaller location |
| Almanac.SolvePairs | day5b/src/main.rs:8-11 | part two has an answer exactly when the count of values is even and at least two; it is a location of one of the paired seeds, and no paired seed has a smaller location |
| Almanac.TouchingSeedMisrouted | day5a/src/lib.rs:86-97 | as written, seed 100 touches the entry for 98 and 99 only at its upper end, yet it gets the empty image at 52, and 52 is the answer |
| Almanac.EmptySeedInsideEntry | day5a/src/lib.rs:86-97 | as written, the empty range at 5 inside the entry for 0 to 9 gets the empty image at 105, and 105 is the answer |
| Almanac.EmptySeedPassesThrough | day5a/src/lib.rs:86-97 | under the intended test the same range gets no image, passes through, and its answer is 5 |
| Almanac.TouchingSeedPassesThrough | day5a/src/lib.rs:86-97 | under the intended overlap the same seed shares no value with the entry, passes through, and its answer is 100 |
| Almanac.ImageFixedUnit | day5a/src/lib.rs:86-97 | a single seed is mapped exactly when the entry covers it, to its shifted value |
| Almanac.RemapUnit | day5a/src/lib.rs:73-81 | under the intended overlap, a single number no entry covers passes through unchanged; otherwise every result is a single number, the translation of it by an entry covering it |
| Almanac.ThroughUnits | day5a/src/lib.rs:60-69 | under the intended overlap, part one's single-number seeds stay single numbers through every map |
| CubeGame.AllWithin | day2a/src/main.rs:33-36 | all sets are within the bag exactly when each one is |
| CubeGame.CheckLine | day2a/src/main.rs:24-41 | a game is worth its id when every set fits the bag of 12 red, 13 green and 14 blue, and 0 when any set does not |
| CubeGame.CheckLineExamples | day2a/src/main.rs:27-36 | the limits are inclusive; a game with no sets is possible; one colour over the limit makes a game impossible |
| CubeGame.CheckLineOrder | day2a/src/main.rs:33-36 | a game's worth does not depend on the order of its sets |
| CubeGame.PossibleSum | day2a/src/main.rs:16-22 | the sum of the possible games' ids is at most the sum of all ids |
| CubeGame.PossibleSumAllPossible | day2a/src/main.rs:16-22 | when every game is possible the sum is the sum of all ids |
| CubeGame.MaxOf | day2b/src/main.rs:28-30 | the maximum exists exactly when the list is non-empty; it bounds every element and is one of them |
| CubeGame.MaxOfSameElements | day2b/src/main.rs:28-30 | two non-empty lists with the same elements have the same maximum |
| CubeGame.FewestCubes | day2b/src/main.rs:28-30 | the fewest cubes exist exactly when the game has a set, which is the `unwrap` |
| CubeGame.FewestCubesSpec | day2b/src/main.rs:28-30 | every set fits in the fewest cubes, and each colour's count is taken from some set |
| CubeGame.FewestCubesOrder | day2b/src/main.rs:28-30 | the fewest cubes do not depend on the order of the sets |
| CubeGame.Power | day2b/src/main.rs:24-33 | a power exists exactly when the game has a set |
| CubeGame.PowerOrder | day2b/src/main.rs:24-33 | the power does not depend on the order of the sets |
| CubeGame.PowerSingle | day2b/src/main.rs:24-33 | a one-set game's power is the product of that set's counts |
| CubeGame.Powers | day2b/src/main.rs:16-22 | one power per game, in order |
| CubeGame.PowerSumDefined | day2b/src/main.rs:16-22 | the sum of powers exists exactly when every game has a set |
| CubeGame.PowerSum | day2b/src/main.rs:16-22 | the sum exists exactly when every game has a power, which is when no `max().unwrap()` panics |
| CubeGame.Solution | day2a/src/main.rs:16-22 | the loop over the games computes the sum of the possible games' ids |
| Calibration.FindFrom | day1a/src/lib.rs:18-23 | the position found is an occurrence with no earlier one from the start point; none is found exactly when there is no occurrence |
| Calibration.Find | day1a/src/lib.rs:19 | the position found is an occurrence with no earlier one; none is found exactly when the word does not occur |
| Calibration.FindBelow | day1a/src/lib.rs:24-29 | the position found is an occurrence with no later one below the bound; none is found exactly when there is no occurrence |
| Calibration.RFind | day1a/src/lib.rs:25 | the position found is an occurrence with no later one; none is found exactly when the word does not occur |
| Calibration.FindRFind | day1a/src/lib.rs:18-29 | a word is found from the front exactly when it is found from the back, and never later |
| Calibration.FirstWord | day1a/src/lib.rs:18-23 | no word is picked exactly when none occurs; otherwise the word picked occurs earliest, and ties go to the first in the table |
| Calibration.LastWord | day1a/src/lib.rs:24-29 | no word is picked exactly when none occurs; otherwise the word picked occurs latest, and ties go to the last in the table |
| Calibration.Concat | day1a/src/lib.rs:30-31 | a single digit written after a number gives ten times the number plus the digit |
| Calibration.CreateNumber | day1a/src/lib.rs:17-32 | a line has a number exactly when some word of the table occurs in it |
| Calibration.CreateNumberDigits | day1a/src/lib.rs:17-32 | with single-digit values, the number is ten times the earliest word's value plus the latest word's value |
| Calibration.SingleWord | day1a/src/lib.rs:17-32 | a line with only one word of the table, worth digit d, gives 11 times d |
| Calibration.Numbers | day1a/src/lib.rs:8-15 | one number per line, in order |
| Calibration.GeneralSolutionDefined | day1a/src/lib.rs:8-15 | there is a sum exactly when a word of the table occurs in every line |
| Calibration.GeneralSolution | day1a/src/lib.rs:8-15 | there is a sum exactly when every line yields a number; a line without one is the panic of `create_number` |
| Window.Lines | day3a/src/lib.rs:17-18 | no line is invented, and a stream without read errors yields exactly its lines, in order; with Window.LinesSkipErrors, read errors are dropped |
| Window.Previous | day3a/src/lib.rs:17-27 | a line has a line before it exactly when it is not the first, and then it is its predecessor |
| Window.Next | day3a/src/lib.rs:17-28 | a line has a line after it exactly when it is not the last, and then it is its successor |
| Window.HandledExtend | day3a/src/lib.rs:17-27 | a line that arrives later changes nothing for the windows of the lines already handled |
| Window.GeneralSolution | day3a/src/lib.rs:8-30 | there is no sum exactly when there are no lines; otherwise each line is handled once, with its true neighbours |
| Window.SingleLine | day3a/src/lib.rs:28 | a single line is handled once, with no neighbours |
| Window.LinesSkipErrors | day3a/src/lib.rs:17-18 | a read error anywhere in the stream leaves the lines unchanged |

## Left out

- Parsing is not modelled: the `nom` parsers, the regexes, file reading, `tokio` and the `println!` output. The model starts from the parsed values: modules, workflows, parts, almanac tables, games and lines.
- Machine integers are unbounded in the model. The `u64` sums and products of days 1, 2, 5, 19 and 20 and the `usize` counters cannot overflow here. The one exception is day 19's 16-bit `Range::permutation`, which is modelled explicitly.
- Propagation.Cascade, PulseCount.ForwardSignals, PulseRx.ForwardSignals: the recursion carries a `fuel` bound. Running out of fuel stands for a cascade that never ends, which the source would run until its stack overflows.
- PartRating.Resolve, PartRanges.ResolveRounds: the loops carry a `fuel` bound. Running out of fuel stands for the source looping for ever on a cycle of workflows.
- PulseRx.Run: takes a press limit. The source's loop has no bound and never returns when no press fires; the model returns Exhausted at the limit.
- The `HashMap` of modules and workflows is a Dafny `map`, so a missing name is explicit.
- A lookup order is a `seq`, where the source iterates in `HashMap` order. This matters in `create_number` (day1a/src/lib.rs:18-29): when two words of the table are found at the same position, `min_by_key` and `max_by_key` break the tie by the map's iteration order. Calibration.FirstWord and LastWord break it by the order of the table's `seq` instead.
- `day20b/src/main.rs`'s `count` argument only feeds `println!` and is not modelled.
- `tg` is only printed and is not modelled.
- The `Rc<RefCell<…>>` sharing of modules is modelled as a network value that each update threads through.
- The walk in `register_source` is depth-first, following the code. A breadth-first description of it would register a different set of inputs.
- DraftModules: `send` on the draft modules in `day20a/src/types.rs` hands out handles to destination modules. The model keeps just the signal produced; the recursive sending through handles is not modelled.
- Almanac: an empty seed range (day5b accepts a length of 0) still yields its start as a location under both tests, under `HalfOpen` by passing through unchanged. What the puzzle means by an empty range is not settled by the code, so `HalfOpen` is not claimed to be the intended answer for one; Almanac.EmptySeedInsideEntry and Almanac.EmptySeedPassesThrough show how the two tests part on it.
- Almanac: the parts of a seed range that no table entry covers are dropped whenever some entry overlaps, because the code drops them; the model does the same.
- Almanac.FindMinSolution: `rayon`'s parallel `flat_map` and `min` are modelled as a sequential minimum. FindMinSolutionOrder shows that the order does not matter.
- Calibration: `str::find` and `str::rfind` work on bytes in the source. The model searches `seq<char>` and assumes one byte per character.
- Calibration: the table's values are natural numbers. A negative value would change how `format!` writes the number, and that case is not modelled.
- Calibration.Concat: ensures only the single-digit case. That is the case of the table in `day1a/src/main.rs`.
- Window: `handle_line` is a parameter. `day3a/src/main.rs` and `day3b/src/main.rs`, which supply it, are not part of this model.
- PanicFreedom: only the tally solver is proved free of panics, on the corrected parser. The `rx` search runs the same cascade, as PulseRx.SameRunAsTally shows.
- PartRanges: the `expect` on a missing workflow in `resolve_branches` is modelled as an absent result. Absence is reported, not a panic.

## Findings

| source | as written | input that shows it | evidently intended | confidence | as-written member | corrected member |
|---|---|---|---|---|---|---|
| day20a/src/parser.rs:28-38 | `register_source` stops at any module already on the current path, so an edge that closes a cycle back into a conjunction is never registered | modules `broadcaster -> a`, `%a -> c`, `&c -> b`, `%b -> c`: b feeds conjunction c, but the walk reaches b only through c, so c never learns b and later panics on b's pulse | every conjunction knows every module that feeds into it | medium, not executed | MachineParser.CycleExampleMissesInput | MachineParser.ParseMachineFixedInputs |
| day19b/src/types.rs:144-146 | `(self.end - self.start + 1) as u64` adds the 1 in `u16` before widening | `Range { start: 0, end: 65535 }`: `65535 + 1` overflows `u16` | the number of ratings in the range, 65536 | low, not executed; the 1 to 4000 box never reaches it | PartRanges.PermutationAsWrittenOverflows | PartRanges.PermutationCounts |
| day5a/src/lib.rs:86-97 | the overlap test includes both upper ends, so a range that only touches an entry counts as overlapping | seed 100 against the entry "50 98 2" (source 98, length 2): the image is an empty range at 52, seed 100's own location is lost, and the minimum is 52 instead of 100 | an overlap means a shared value, and a range no entry covers passes through unchanged | high, not executed | Almanac.TouchingSeedMisrouted | Almanac.ImageFixedSpec |

=== FILE: almanac.dfy ===
/**
 * The seed-to-location remapping (day5a/src/lib.rs, with the seed lists of
 * day5a/src/main.rs and day5b/src/main.rs). A span `(start, length)` of
 * numbers is sent through one map after another; each map entry translates
 * the part of a span that overlaps it, and the answer is the smallest start
 * of any span that comes out at the end.
 *
 * The pipeline takes the overlap test as a parameter: `Inclusive` is the test
 * the code performs, `HalfOpen` the one it evidently intends. They differ
 * exactly where the code's test fires on a span that shares no number with
 * the entry: a span touching the entry at an end, or an empty span lying
 * within it (`NoTouch` rules both out).
 */
module Almanac {
  import opened Wrappers

  /** One map line: numbers from `source` on are translated to `destination` on, `range` of them. */
  datatype Input = Input(source: nat, destination: nat, range: nat)

  /** The `(u64, u64)` pair: a first number and a length. */
  datatype Span = Span(start: nat, length: nat)

  function Max(a: nat, b: nat): nat { if a >= b then a else b }
  function Min(a: nat, b: nat): nat { if a <= b then a else b }

  /** `v` is one of the `length` numbers from `start` on. */
  predicate Within(v: int, start: int, length: int) {
    start <= v < start + length
  }

  /**
   * `Input::find_destination_range`: the overlap test compares the starts
   * with the other's `start + length` inclusively on both sides; on overlap,
   * the image starts where the later start is translated to and is as long
   * as the distance from the later start to the earlier end.
   */
  function Image(input: Input, s: Span): (r: Option<Span>)
    ensures r.Some? <==> s.start <= input.source + input.range && input.source <= s.start + s.length
    ensures r.Some? ==> r.value.start - input.destination == Max(s.start, input.source) - input.source
    ensures r.Some? ==> r.value.length <= s.length && r.value.length <= input.range
    ensures r.Some? ==> Max(s.start, input.source) + r.value.length == Min(s.start + s.length, input.source + input.range)
  {
    var sourceUpper := s.start + s.length;
    var selfUpper := input.source + input.range;
    if s.start <= selfUpper && input.source <= sourceUpper then
      var minSource := Max(s.start, input.source);
      var upperBound := Min(sourceUpper, selfUpper);
      Some(Span(input.destination + (minSource - input.source), upperBound - minSource))
    else None
  }

  /**
   * The overlap intended: the part of `s` that lies inside the entry, as a
   * half-open interval, translated; `None` when that part is empty.
   */
  function ImageFixed(input: Input, s: Span): (r: Option<Span>)
    ensures r.Some? ==> 1 <= r.value.length <= s.length && r.value.length <= input.range
  {
    var lo := Max(s.start, input.source);
    var hi := Min(s.start + s.length, input.source + input.range);
    if lo < hi then Some(Span(input.destination + (lo - input.source), hi - lo)) else None
  }

  /**
   * The numbers `start..start + length` and `source..source + range` (each
   * end excluded) have an image exactly when they share a number, and the
   * image holds exactly the shared numbers, translated.
   */
  lemma ImageFixedSpec(input: Input, s: Span)
    ensures ImageFixed(input, s).Some? <==> exists v :: Within(v, s.start, s.length) && Within(v, input.source, input.range)
    ensures ImageFixed(input, s).Some? ==> forall v ::
              (Within(v, s.start, s.length) && Within(v, input.source, input.range))
              <==> Within(v - input.source + input.destination, ImageFixed(input, s).value.start, ImageFixed(input, s).value.length)
  {
    var lo := Max(s.start, input.source);
    if ImageFixed(input, s).Some? {
      assert Within(lo, s.start, s.length) && Within(lo, input.source, input.range);
    }
  }

  /** Which overlap test the remapping performs. */
  datatype Overlap = Inclusive | HalfOpen

  /** The image of `s` under one entry, by the chosen test. */
  function ImageBy(o: Overlap, input: Input, s: Span): Option<Span> {
    match o
    case Inclusive => Image(input, s)
    case HalfOpen => ImageFixed(input, s)
  }

  /** The images of `s` under every entry of `table` that overlaps it, in map order (the `filter_map`). */
  function Images(o: Overlap, table: seq<Input>, s: Span): (r: seq<Span>)
    ensures |r| <= |table|
    ensures forall j | 0 <= j < |r| :: exists i | 0 <= i < |table| :: ImageBy(o, table[i], s) == Some(r[j])
    ensures r == [] <==> forall i | 0 <= i < |table| :: ImageBy(o, table[i], s).None?
  {
    if table == [] then []
    else
      var rest := Images(o, table[1..], s);
      assert forall i | 1 <= i < |table| :: table[1..][i - 1] == table[i];
      match ImageBy(o, table[0], s)
      case Some(d) => [d] + rest
      case None => rest
  }

  /** What one source becomes: its images, or the source itself when no entry overlaps it. */
  function Remap(o: Overlap, table: seq<Input>, s: Span): (r: seq<Span>)
    ensures |r| >= 1
    ensures (forall i | 0 <= i < |table| :: ImageBy(o, table[i], s).None?) ==> r == [s]
    ensures (exists i | 0 <= i < |table| :: ImageBy(o, table[i], s).Some?) ==> r == Images(o, table, s)
  {
    var images := Images(o, table, s);
    if images == [] then [s] else images
  }

  /** The free `find_destination_range`: every source remapped, the results concatenated in order. */
  function RemapAll(o: Overlap, sources: seq<Span>, table: seq<Input>): (r: seq<Span>)
    ensures |r| >= |sources|
  {
    if sources == [] then []
    else RemapAll(o, sources[..|sources| - 1], table) + Remap(o, table, sources[|sources| - 1])
  }

  /** The `for source in sources` loop of `find_destination_range`, pushing and appending. */
  method FindDestinationRange(sources: seq<Span>, table: seq<Input>) returns (destinations: seq<Span>)
    ensures destinations == RemapAll(Inclusive, sources, table)
  {
    destinations := [];
    var i := 0;
    while i < |sources|
      invariant 0 <= i <= |sources|
      invariant destinations == RemapAll(Inclusive, sources[..i], table)
    {
      var source := sources[i];
      var ranges := FilterImages(table, source);
      if ranges == [] {
        destinations := destinations + [source];
      }
      destinations := destinations + ranges;
      assert sources[..i + 1][..i] == sources[..i];
      i := i + 1;
    }
    assert sources[..i] == sources;
  }

  /** The inner `filter_map` over the entries, pushing each image found. */
  method FilterImages(table: seq<Input>, source: Span) returns (ranges: seq<Span>)
    ensures ranges == Images(Inclusive, table, source)
  {
    ranges := [];
    var k := 0;
    while k < |table|
      invariant 0 <= k <= |table|
      invariant ranges + Images(Inclusive, table[k..], source) == Images(Inclusive, table, source)
    {
      assert table[k..][1..] == table[k + 1..];
      var d := Image(table[k], source);
      if d.Some? {
        ranges := ranges + [d.value];
      }
      k := k + 1;
    }
  }

  /** The spans after every map in turn, starting from one seed span. */
  function Through(o: Overlap, spans: seq<Span>, maps: seq<seq<Input>>): (r: seq<Span>)
    ensures |r| >= |spans|
    decreases |maps|
  {
    if maps == [] then spans else Through(o, RemapAll(o, spans, maps[0]), maps[1..])
  }

  function Starts(spans: seq<Span>): (r: seq<nat>)
    ensures |r| == |spans|
    ensures forall i | 0 <= i < |spans| :: r[i] == spans[i].start
  {
    if spans == [] then [] else [spans[0].start] + Starts(spans[1..])
  }

  /** `find_location`: the start points after threading `seed` through every table; never empty. */
  function FindLocation(o: Overlap, seed: Span, maps: seq<seq<Input>>): (r: seq<nat>)
    ensures |r| >= 1
  {
    Starts(Through(o, [seed], maps))
  }

  /** The smallest number of a non-empty list. */
  function MinOf(xs: seq<nat>): (m: nat)
    requires |xs| >= 1
    ensures forall i | 0 <= i < |xs| :: m <= xs[i]
    ensures exists i | 0 <= i < |xs| :: m == xs[i]
  {
    if |xs| == 1 then xs[0]
    else
      var rest := MinOf(xs[1..]);
      assert forall i | 1 <= i < |xs| :: xs[1..][i - 1] == xs[i];
      if xs[0] <= rest then xs[0] else rest
  }

  /** All locations of all seeds, seed by seed (the `flat_map`). */
  function AllLocations(o: Overlap, seeds: seq<Span>, maps: seq<seq<Input>>): (r: seq<nat>)
    ensures |r| >= |seeds|
  {
    if seeds == [] then [] else FindLocation(o, seeds[0], maps) + AllLocations(o, seeds[1..], maps)
  }

  /** A location belongs to the list of all locations exactly when some seed yields it. */
  lemma {:induction false} AllLocationsMembers(o: Overlap, seeds: seq<Span>, maps: seq<seq<Input>>, x: nat)
    ensures x in AllLocations(o, seeds, maps) <==> exists i | 0 <= i < |seeds| :: x in FindLocation(o, seeds[i], maps)
  {
    if seeds != [] {
      AllLocationsMembers(o, seeds[1..], maps, x);
      var first, rest := FindLocation(o, seeds[0], maps), AllLocations(o, seeds[1..], maps);
      assert AllLocations(o, seeds, maps) == first + rest;
      if x in rest {
        var i :| 0 <= i < |seeds[1..]| && x in FindLocation(o, seeds[1..][i], maps);
        assert seeds[1..][i] == seeds[i + 1];
      }
      if exists i | 0 <= i < |seeds| :: x in FindLocation(o, seeds[i], maps) {
        var i :| 0 <= i < |seeds| && x in FindLocation(o, seeds[i], maps);
        if i > 0 {
          assert seeds[i] == seeds[1..][i - 1];
        }
      }
    }
  }

  /**
   * `find_min_solution`: the smallest location over all seeds; `None` for the
   * `expect` when there are no seeds (and only then).
   */
  function FindMinSolution(o: Overlap, seeds: seq<Span>, maps: seq<seq<Input>>): (r: Option<nat>)
    ensures r.Some? <==> |seeds| >= 1
  {
    var all := AllLocations(o, seeds, maps);
    if all == [] then None else Some(MinOf(all))
  }

  /**
   * The answer is a location of some seed, and no seed has a smaller
   * location.
   */
  lemma FindMinSolutionSpec(o: Overlap, seeds: seq<Span>, maps: seq<seq<Input>>)
    requires |seeds| >= 1
    ensures var m := FindMinSolution(o, seeds, maps).value;
            && (exists i | 0 <= i < |seeds| :: m in FindLocation(o, seeds[i], maps))
            && (forall i, x | 0 <= i < |seeds| && x in FindLocation(o, seeds[i], maps) :: m <= x)
  {
    var all := AllLocations(o, seeds, maps);
    var m := MinOf(all);
    AllLocationsMembers(o, seeds, maps, m);
    forall i, x | 0 <= i < |seeds| && x in FindLocation(o, seeds[i], maps)
      ensures m <= x
    {
      AllLocationsMembers(o, seeds, maps, x);
    }
  }

  /** The order of the seeds does not matter: any rearrangement gives the same minimum. */
  lemma FindMinSolutionOrder(o: Overlap, seeds: seq<Span>, other: seq<Span>, maps: seq<seq<Input>>)
    requires multiset(seeds) == multiset(other)
    ensures FindMinSolution(o, seeds, maps) == FindMinSolution(o, other, maps)
  {
    if |seeds| >= 1 {
      assert |other| == |multiset(other)| == |multiset(seeds)| == |seeds|;
      FindMinSolutionSpec(o, seeds, maps);
      FindMinSolutionSpec(o, other, maps);
      var a := FindMinSolution(o, seeds, maps).value;
      var b := FindMinSolution(o, other, maps).value;
      var i :| 0 <= i < |seeds| && a in FindLocation(o, seeds[i], maps);
      assert seeds[i] in multiset(other);
      var j :| 0 <= j < |other| && other[j] == seeds[i];
      var k :| 0 <= k < |other| && b in FindLocation(o, other[k], maps);
      assert other[k] in multiset(seeds);
      var l :| 0 <= l < |seeds| && seeds[l] == other[k];
      assert b <= a && a <= b;
    } else {
      assert |other| == |multiset(other)| == 0;
    }
  }

  /** day5a's `create_seeds`: every number becomes a span of length 1, in order. */
  function UnitSeeds(values: seq<nat>): (r: seq<Span>)
    ensures |r| == |values|
    ensures forall i | 0 <= i < |values| :: r[i] == Span(values[i], 1)
  {
    if values == [] then [] else [Span(values[0], 1)] + UnitSeeds(values[1..])
  }

  /**
   * day5b's `create_seeds`: consecutive numbers paired as `(start, length)`;
   * `None` for an odd count, where the last chunk has no `chunk[1]`.
   */
  function PairSeeds(values: seq<nat>): (r: Option<seq<Span>>)
    ensures r.Some? <==> |values| % 2 == 0
    ensures r.Some? ==> 2 * |r.value| == |values|
    ensures r.Some? ==> forall i | 0 <= i < |r.value| :: r.value[i] == Span(values[2 * i], values[2 * i + 1])
    decreases |values|
  {
    if values == [] then Some([])
    else if |values| == 1 then None
    else
      match PairSeeds(values[2..])
      case None => None
      case Some(rest) =>
        PairsShift(values, rest);
        Some([Span(values[0], values[1])] + rest)
  }

  /** Pairing the numbers after the first two, then putting the first pair in front, pairs all of them. */
  lemma PairsShift(values: seq<nat>, rest: seq<Span>)
    requires |values| >= 2 && 2 * |rest| == |values| - 2
    requires forall i | 0 <= i < |rest| :: rest[i] == Span(values[2..][2 * i], values[2..][2 * i + 1])
    ensures forall i | 0 <= i < |rest| + 1 ::
              ([Span(values[0], values[1])] + rest)[i] == Span(values[2 * i], values[2 * i + 1])
  {
    var all := [Span(values[0], values[1])] + rest;
    forall i | 0 <= i < |rest| + 1
      ensures all[i] == Span(values[2 * i], values[2 * i + 1])
    {
      if i > 0 {
        var k := i - 1;
        assert all[i] == rest[k];
        assert values[2..][2 * k] == values[2 * i];
        assert values[2..][2 * k + 1] == values[2 * i + 1];
      }
    }
  }

  /**
   * day5a's answer: the smallest location of any single seed number; `None`
   * exactly when there is no seed.
   */
  function SolveUnit(o: Overlap, values: seq<nat>, maps: seq<seq<Input>>): (r: Option<nat>)
    ensures r.Some? <==> |values| >= 1
    ensures r.Some? ==> exists i | 0 <= i < |values| :: r.value in FindLocation(o, Span(values[i], 1), maps)
    ensures r.Some? ==> forall i, x | 0 <= i < |values| && x in FindLocation(o, Span(values[i], 1), maps) :: r.value <= x
  {
    var seeds := UnitSeeds(values);
    if values == [] then None
    else
      FindMinSolutionSpec(o, seeds, maps);
      FindMinSolution(o, seeds, maps)
  }

  /** `m` is a location of one of the seeds, and no seed has a smaller location. */
  predicate LeastLocation(o: Overlap, seeds: seq<Span>, maps: seq<seq<Input>>, m: nat) {
    && (exists i | 0 <= i < |seeds| :: m in FindLocation(o, seeds[i], maps))
    && (forall i, x | 0 <= i < |seeds| && x in FindLocation(o, seeds[i], maps) :: m <= x)
  }

  /**
   * day5b's answer: the smallest location of any seed span; `None` when the
   * numbers do not pair up or there is no seed.
   */
  function SolvePairs(o: Overlap, values: seq<nat>, maps: seq<seq<Input>>): (r: Option<nat>)
    ensures r.Some? <==> |values| >= 2 && |values| % 2 == 0
    ensures r.Some? ==> LeastLocation(o, PairSeeds(values).value, maps, r.value)
  {
    match PairSeeds(values)
    case None => None
    case Some(seeds) =>
      if seeds == [] then None
      else
        FindMinSolutionSpec(o, seeds, maps);
        FindMinSolution(o, seeds, maps)
  }

  /** `w` lies in one of the spans. */
  predicate InSpans(w: int, spans: seq<Span>) {
    exists j | 0 <= j < |spans| :: Within(w, spans[j].start, spans[j].length)
  }

  /** The entry translates a number that it shares with `s` to `w`. */
  predicate Translates(input: Input, s: Span, w: int) {
    var v := w - input.destination + input.source;
    Within(v, s.start, s.length) && Within(v, input.source, input.range)
  }

  lemma InSpansAppend(a: seq<Span>, b: seq<Span>, w: int)
    ensures InSpans(w, a + b) <==> InSpans(w, a) || InSpans(w, b)
  {
    if InSpans(w, a + b) {
      var j :| 0 <= j < |a + b| && Within(w, (a + b)[j].start, (a + b)[j].length);
      if j >= |a| {
        assert (a + b)[j] == b[j - |a|];
      }
    }
    if InSpans(w, a) {
      var j :| 0 <= j < |a| && Within(w, a[j].start, a[j].length);
      assert (a + b)[j] == a[j];
    }
    if InSpans(w, b) {
      var j :| 0 <= j < |b| && Within(w, b[j].start, b[j].length);
      assert (a + b)[|a| + j] == b[j];
    }
  }

  /**
   * Under either test, an entry that shares a number with `s` gives an
   * image, and an image holds exactly the translations of the shared numbers.
   */
  lemma ImageValues(o: Overlap, input: Input, s: Span, w: int)
    ensures Translates(input, s, w) ==> ImageBy(o, input, s).Some?
    ensures ImageBy(o, input, s).Some? ==>
              (Within(w, ImageBy(o, input, s).value.start, ImageBy(o, input, s).value.length) <==> Translates(input, s, w))
  {
  }

  lemma InSpansSingle(s: Span, w: int)
    ensures InSpans(w, [s]) <==> Within(w, s.start, s.length)
  {
    if Within(w, s.start, s.length) {
      assert [s][0] == s;
    }
  }

  /** Some entry of a non-empty table translates to `w` when the first one does or one of the rest does. */
  lemma TranslatesSplit(table: seq<Input>, s: Span, w: int)
    requires table != []
    ensures (exists i | 0 <= i < |table| :: Translates(table[i], s, w)) <==>
            Translates(table[0], s, w) || exists i | 0 <= i < |table| - 1 :: Translates(table[1..][i], s, w)
  {
    if exists i | 0 <= i < |table| :: Translates(table[i], s, w) {
      var i :| 0 <= i < |table| && Translates(table[i], s, w);
      if i > 0 {
        assert table[1..][i - 1] == table[i];
      }
    }
    if exists i | 0 <= i < |table| - 1 :: Translates(table[1..][i], s, w) {
      var i :| 0 <= i < |table| - 1 && Translates(table[1..][i], s, w);
      assert table[1..][i] == table[i + 1];
    }
  }

  /** The images of a span hold exactly the translations of its numbers by the entries covering them. */
  lemma {:induction false} ImagesValues(o: Overlap, table: seq<Input>, s: Span, w: int)
    ensures InSpans(w, Images(o, table, s)) <==> exists i | 0 <= i < |table| :: Translates(table[i], s, w)
  {
    if table != [] {
      var rest := Images(o, table[1..], s);
      ImagesValues(o, table[1..], s, w);
      ImageValues(o, table[0], s, w);
      TranslatesSplit(table, s, w);
      match ImageBy(o, table[0], s)
      case Some(d) =>
        assert Images(o, table, s) == [d] + rest;
        InSpansAppend([d], rest, w);
        InSpansSingle(d, w);
      case None =>
        assert Images(o, table, s) == rest;
    }
  }

  /**
   * Where a number `w` after one remapping comes from: from `s` itself, passed
   * through because no entry answered, or from a number of `s` translated by
   * an entry covering it.
   */
  predicate Explains(o: Overlap, table: seq<Input>, s: Span, w: int) {
    || (Images(o, table, s) == [] && Within(w, s.start, s.length))
    || exists i | 0 <= i < |table| :: Translates(table[i], s, w)
  }

  lemma RemapValues(o: Overlap, table: seq<Input>, s: Span, w: int)
    ensures InSpans(w, Remap(o, table, s)) <==> Explains(o, table, s, w)
  {
    ImagesValues(o, table, s, w);
    if Images(o, table, s) == [] {
      assert Remap(o, table, s) == [s];
      InSpansSingle(s, w);
    }
  }

  /** Some span of a non-empty list satisfies `p` when one before the last does or the last does. */
  lemma ExistsSplit(spans: seq<Span>, front: seq<Span>, p: Span -> bool)
    requires spans != [] && front == spans[..|spans| - 1]
    ensures (exists k | 0 <= k < |spans| :: p(spans[k])) <==>
            (exists k | 0 <= k < |front| :: p(front[k])) || p(spans[|spans| - 1])
  {
    var n := |spans| - 1;
    if exists k | 0 <= k < |spans| :: p(spans[k]) {
      var k :| 0 <= k < |spans| && p(spans[k]);
      if k < n {
        assert front[k] == spans[k];
      }
    }
    if exists k | 0 <= k < n :: p(front[k]) {
      var k :| 0 <= k < n && p(front[k]);
      assert front[k] == spans[k];
    }
  }

  /**
   * After one table, a number lies in the remapped spans exactly when one
   * source span explains it.
   */
  lemma {:induction false} RemapAllValues(o: Overlap, sources: seq<Span>, table: seq<Input>, w: int)
    ensures InSpans(w, RemapAll(o, sources, table)) <==> exists k | 0 <= k < |sources| :: Explains(o, table, sources[k], w)
  {
    if sources != [] {
      var n := |sources| - 1;
      RemapAllValues(o, sources[..n], table, w);
      RemapValues(o, table, sources[n], w);
      InSpansAppend(RemapAll(o, sources[..n], table), Remap(o, table, sources[n]), w);
      ExistsSplit(sources, sources[..n], s => Explains(o, table, s, w));
    }
  }

  /** No entry merely touches `s`: whenever the code's test fires, the two share a number. */
  predicate NoTouch(table: seq<Input>, s: Span) {
    forall i | 0 <= i < |table| :: Image(table[i], s).Some? ==> ImageFixed(table[i], s).Some?
  }

  /**
   * The inclusive test adds only empty images, and only for entries that
   * merely touch a span; elsewhere it agrees with the intended one.
   */
  lemma ImageFixedAgrees(input: Input, s: Span)
    ensures ImageFixed(input, s).Some? ==> Image(input, s) == ImageFixed(input, s)
    ensures Image(input, s).Some? && ImageFixed(input, s).None? ==> Image(input, s).value.length == 0
  {
  }

  lemma {:induction false} ImagesAgree(table: seq<Input>, s: Span)
    requires NoTouch(table, s)
    ensures Images(Inclusive, table, s) == Images(HalfOpen, table, s)
  {
    if table != [] {
      ImageFixedAgrees(table[0], s);
      assert forall i | 0 <= i < |table[1..]| :: table[1..][i] == table[i + 1];
      ImagesAgree(table[1..], s);
    }
  }

  /** When no entry merely touches a source span, the code and the intended remapping agree. */
  lemma {:induction false} RemapAllAgree(sources: seq<Span>, table: seq<Input>)
    requires forall k | 0 <= k < |sources| :: NoTouch(table, sources[k])
    ensures RemapAll(Inclusive, sources, table) == RemapAll(HalfOpen, sources, table)
  {
    if sources != [] {
      var n := |sources| - 1;
      assert forall k | 0 <= k < n :: sources[..n][k] == sources[k];
      RemapAllAgree(sources[..n], table);
      ImagesAgree(table, sources[n]);
    }
  }

  /**
   * The defect in general: a span that some entry touches but that shares no
   * number with any entry is lost by the code, every number of it, where the
   * intended remapping passes it through whole.
   */
  lemma TouchedSpanLost(table: seq<Input>, s: Span, w: int)
    requires exists i | 0 <= i < |table| :: Image(table[i], s).Some?
    requires forall i | 0 <= i < |table| :: ImageFixed(table[i], s).None?
    ensures !InSpans(w, Remap(Inclusive, table, s))
    ensures Remap(HalfOpen, table, s) == [s]
  {
    RemapValues(Inclusive, table, s, w);
    forall i | 0 <= i < |table|
      ensures !Translates(table[i], s, w)
    {
      ImageValues(HalfOpen, table[i], s, w);
    }
  }

  /**
   * As written, a seed just past an entry (`source + range`) still overlaps
   * it: seed 100 against the entry for 98 and 99 gets the empty image 52, and
   * since `find_destination_range` keeps only the images once there is one,
   * 52 becomes the answer.
   */
  lemma TouchingSeedMisrouted()
    ensures Image(Input(98, 50, 2), Span(100, 1)) == Some(Span(52, 0))
    ensures FindLocation(Inclusive, Span(100, 1), [[Input(98, 50, 2)]]) == [52]
    ensures FindMinSolution(Inclusive, [Span(100, 1)], [[Input(98, 50, 2)]]) == Some(52)
  {
    var table := [Input(98, 50, 2)];
    assert Images(Inclusive, table, Span(100, 1)) == [Span(52, 0)];
    assert RemapAll(Inclusive, [Span(100, 1)], table) == [Span(52, 0)];
  }

  /**
   * The other way the tests part: the empty span at 5 lies within the entry
   * for 0 to 9, so the code translates it to the empty span at 105 ...
   */
  lemma EmptySeedInsideEntry()
    ensures Image(Input(0, 100, 10), Span(5, 0)) == Some(Span(105, 0))
    ensures FindMinSolution(Inclusive, [Span(5, 0)], [[Input(0, 100, 10)]]) == Some(105)
  {
    var table := [Input(0, 100, 10)];
    assert Images(Inclusive, table, Span(5, 0)) == [Span(105, 0)];
    assert RemapAll(Inclusive, [Span(5, 0)], table) == [Span(105, 0)];
  }

  /** ... where the intended test finds no shared number and passes it through as 5. */
  lemma EmptySeedPassesThrough()
    ensures ImageFixed(Input(0, 100, 10), Span(5, 0)).None?
    ensures FindMinSolution(HalfOpen, [Span(5, 0)], [[Input(0, 100, 10)]]) == Some(5)
  {
    var table := [Input(0, 100, 10)];
    assert Images(HalfOpen, table, Span(5, 0)) == [];
    assert RemapAll(HalfOpen, [Span(5, 0)], table) == [Span(5, 0)];
  }

  /** The intended remapping passes seed 100 through to location 100. */
  lemma TouchingSeedPassesThrough()
    ensures ImageFixed(Input(98, 50, 2), Span(100, 1)).None?
    ensures FindLocation(HalfOpen, Span(100, 1), [[Input(98, 50, 2)]]) == [100]
    ensures FindMinSolution(HalfOpen, [Span(100, 1)], [[Input(98, 50, 2)]]) == Some(100)
  {
    var table := [Input(98, 50, 2)];
    assert Images(HalfOpen, table, Span(100, 1)) == [];
    assert RemapAll(HalfOpen, [Span(100, 1)], table) == [Span(100, 1)];
  }

  /** A single number is translated exactly by the entries that contain it. */
  lemma ImageFixedUnit(input: Input, v: nat)
    ensures ImageFixed(input, Span(v, 1)).Some? <==> input.source <= v < input.source + input.range
    ensures ImageFixed(input, Span(v, 1)).Some? ==>
              ImageFixed(input, Span(v, 1)).value == Span(input.destination + (v - input.source), 1)
  {
  }

  /**
   * Under the intended remapping a single number passes through unchanged
   * when no entry covers it, and otherwise becomes single numbers, each the
   * translation of it by an entry that covers it.
   */
  lemma RemapUnit(table: seq<Input>, v: nat)
    ensures (forall i | 0 <= i < |table| :: !Within(v, table[i].source, table[i].range)) ==>
              Remap(HalfOpen, table, Span(v, 1)) == [Span(v, 1)]
    ensures forall j | 0 <= j < |Remap(HalfOpen, table, Span(v, 1))| ::
              || Remap(HalfOpen, table, Span(v, 1))[j] == Span(v, 1)
              || exists i | 0 <= i < |table| ::
                   && Within(v, table[i].source, table[i].range)
                   && Remap(HalfOpen, table, Span(v, 1))[j] == Span(table[i].destination + (v - table[i].source), 1)
  {
    forall i | 0 <= i < |table| {
      ImageFixedUnit(table[i], v);
    }
  }

  lemma RemapUnitLengths(table: seq<Input>, v: nat)
    ensures forall j | 0 <= j < |Remap(HalfOpen, table, Span(v, 1))| :: Remap(HalfOpen, table, Span(v, 1))[j].length == 1
  {
    forall i | 0 <= i < |table| {
      ImageFixedUnit(table[i], v);
    }
  }

  /** Under the intended remapping, spans of one number stay spans of one number through a table. */
  lemma {:induction false} RemapAllUnits(sources: seq<Span>, table: seq<Input>)
    requires forall i | 0 <= i < |sources| :: sources[i].length == 1
    ensures forall j | 0 <= j < |RemapAll(HalfOpen, sources, table)| :: RemapAll(HalfOpen, sources, table)[j].length == 1
  {
    if sources != [] {
      var n := |sources| - 1;
      RemapAllUnits(sources[..n], table);
      RemapUnitLengths(table, sources[n].start);
      assert sources[n] == Span(sources[n].start, 1);
      var front, back := RemapAll(HalfOpen, sources[..n], table), Remap(HalfOpen, table, sources[n]);
      assert RemapAll(HalfOpen, sources, table) == front + back;
    }
  }

  /** Under the intended remapping, part one's seeds stay single numbers through every map. */
  lemma {:induction false} ThroughUnits(spans: seq<Span>, maps: seq<seq<Input>>)
    requires forall i | 0 <= i < |spans| :: spans[i].length == 1
    ensures forall j | 0 <= j < |Through(HalfOpen, spans, maps)| :: Through(HalfOpen, spans, maps)[j].length == 1
    decreases |maps|
  {
    if maps != [] {
      RemapAllUnits(spans, maps[0]);
      ThroughUnits(RemapAll(HalfOpen, spans, maps[0]), maps[1..]);
    }
  }
}

=== FILE: calibration.dfy ===
/**
 * The calibration values (day1a/src/lib.rs): the value of the word of a table
 * that occurs first in a line, written in front of the value of the word that
 * occurs last, read back as a number.
 */
module Calibration {
  import opened Wrappers

  /** One entry of the word table: the text searched for and the value it stands for. */
  datatype Word = Word(text: string, value: nat)

  /** The table of `day1a/src/main.rs`: each digit character stands for itself. */
  const DigitTable: seq<Word> := [
    Word("0", 0), Word("1", 1), Word("2", 2), Word("3", 3), Word("4", 4),
    Word("5", 5), Word("6", 6), Word("7", 7), Word("8", 8), Word("9", 9)
  ]

  /** `w` occurs in `line` starting at position `i`. */
  predicate Occurs(line: string, w: string, i: int) {
    0 <= i && i + |w| <= |line| && line[i..i + |w|] == w
  }

  /** `w` occurs nowhere in `line`. */
  ghost predicate Absent(line: string, w: string) {
    forall j :: !Occurs(line, w, j)
  }

  /** The first occurrence at or after `i`. */
  function FindFrom(line: string, w: string, i: nat): (r: Option<nat>)
    ensures r.Some? ==> i <= r.value && Occurs(line, w, r.value)
    ensures r.Some? ==> forall j | i <= j < r.value :: !Occurs(line, w, j)
    ensures r.None? ==> forall j | i <= j :: !Occurs(line, w, j)
    decreases |line| - i
  {
    if i + |w| > |line| then None
    else if line[i..i + |w|] == w then Some(i)
    else FindFrom(line, w, i + 1)
  }

  /** `str::find`: where `w` first occurs in `line`. */
  function Find(line: string, w: string): (r: Option<nat>)
    ensures r.Some? ==> Occurs(line, w, r.value) && forall j | 0 <= j < r.value :: !Occurs(line, w, j)
    ensures r.None? ==> Absent(line, w)
  {
    FindFrom(line, w, 0)
  }

  /** The last occurrence before `k`. */
  function FindBelow(line: string, w: string, k: nat): (r: Option<nat>)
    ensures r.Some? ==> r.value < k && Occurs(line, w, r.value)
    ensures r.Some? ==> forall j | r.value < j < k :: !Occurs(line, w, j)
    ensures r.None? ==> forall j | j < k :: !Occurs(line, w, j)
  {
    if k == 0 then None
    else if Occurs(line, w, k - 1) then Some(k - 1)
    else FindBelow(line, w, k - 1)
  }

  /** `str::rfind`: where `w` last occurs in `line`. */
  function RFind(line: string, w: string): (r: Option<nat>)
    ensures r.Some? ==> Occurs(line, w, r.value) && forall j | j > r.value :: !Occurs(line, w, j)
    ensures r.None? ==> Absent(line, w)
  {
    FindBelow(line, w, |line| + 1)
  }

  /** A word is found from the front exactly when it is found from the back, and never later. */
  lemma FindRFind(line: string, w: string)
    ensures Find(line, w).Some? <==> RFind(line, w).Some?
    ensures Find(line, w).Some? ==> Find(line, w).value <= RFind(line, w).value
  {
    var f, r := Find(line, w), RFind(line, w);
    if f.Some? {
      assert f.value < |line| + 1;
    }
    if r.Some? {
      assert 0 <= r.value;
    }
  }

  /**
   * Word `k` is the one `min_by_key` picks over the words found: it occurs,
   * no found word occurs earlier, and every word before it in the table
   * occurs strictly later (ties go to the first).
   */
  predicate EarliestAt(line: string, words: seq<Word>, k: int) {
    && 0 <= k < |words|
    && Find(line, words[k].text).Some?
    && forall j | 0 <= j < |words| && Find(line, words[j].text).Some? ::
         && Find(line, words[k].text).value <= Find(line, words[j].text).value
         && (j < k ==> Find(line, words[k].text).value < Find(line, words[j].text).value)
  }

  /**
   * Word `k` is the one `max_by_key` picks over the words found: it occurs,
   * no found word occurs later, and every word after it in the table occurs
   * strictly earlier (ties go to the last).
   */
  predicate LatestAt(line: string, words: seq<Word>, k: int) {
    && 0 <= k < |words|
    && RFind(line, words[k].text).Some?
    && forall j | 0 <= j < |words| && RFind(line, words[j].text).Some? ::
         && RFind(line, words[j].text).value <= RFind(line, words[k].text).value
         && (k < j ==> RFind(line, words[j].text).value < RFind(line, words[k].text).value)
  }

  /** The `min_by_key` for `first`: the index of the earliest word; `None` when no word occurs. */
  function FirstWord(line: string, words: seq<Word>): (r: Option<nat>)
    ensures r.None? <==> forall j | 0 <= j < |words| :: Find(line, words[j].text).None?
    ensures r.Some? ==> EarliestAt(line, words, r.value)
  {
    if words == [] then None
    else
      var rest := FirstWord(line, words[1..]);
      var f := Find(line, words[0].text);
      assert forall j | 1 <= j < |words| :: words[1..][j - 1] == words[j];
      if f.Some? && (rest.None? || f.value <= Find(line, words[rest.value + 1].text).value) then Some(0)
      else if rest.None? then None
      else Some(rest.value + 1)
  }

  /** The `max_by_key` for `last`: the index of the latest word; `None` when no word occurs. */
  function LastWord(line: string, words: seq<Word>): (r: Option<nat>)
    ensures r.None? <==> forall j | 0 <= j < |words| :: RFind(line, words[j].text).None?
    ensures r.Some? ==> LatestAt(line, words, r.value)
  {
    if words == [] then None
    else
      var rest := LastWord(line, words[1..]);
      var f := RFind(line, words[0].text);
      assert forall j | 1 <= j < |words| :: words[1..][j - 1] == words[j];
      if f.Some? && (rest.None? || f.value > RFind(line, words[rest.value + 1].text).value) then Some(0)
      else if rest.None? then None
      else Some(rest.value + 1)
  }

  /** The number of decimal digits `format!` writes for `n`. */
  function DigitCount(n: nat): (d: nat)
    ensures d >= 1
  {
    if n < 10 then 1 else 1 + DigitCount(n / 10)
  }

  function Pow10(e: nat): (p: nat)
    ensures p >= 1
  {
    if e == 0 then 1 else 10 * Pow10(e - 1)
  }

  /** `format!("{}{}", a, b).parse()`: the digits of `a` followed by those of `b`. */
  function Concat(a: nat, b: nat): (r: nat)
    ensures b < 10 ==> r == 10 * a + b
  {
    a * Pow10(DigitCount(b)) + b
  }

  /**
   * `create_number`: `None` for the `expect` when no word of the table occurs
   * in the line. The second `expect` never fails: a word found from the front
   * is found from the back.
   */
  function CreateNumber(line: string, words: seq<Word>): (r: Option<nat>)
    ensures r.Some? <==> exists j | 0 <= j < |words| :: Find(line, words[j].text).Some?
  {
    var first := FirstWord(line, words);
    if first.None? then None
    else
      FindRFind(line, words[first.value].text);
      Some(Concat(words[first.value].value, words[LastWord(line, words).value].value))
  }

  /**
   * With single-digit values, the number is ten times the value of the
   * earliest word plus the value of the latest.
   */
  lemma CreateNumberDigits(line: string, words: seq<Word>)
    requires forall j | 0 <= j < |words| :: words[j].value < 10
    ensures CreateNumber(line, words).Some? ==>
              && FirstWord(line, words).Some? && LastWord(line, words).Some?
              && CreateNumber(line, words).value
                 == 10 * words[FirstWord(line, words).value].value + words[LastWord(line, words).value].value
  {
  }

  /** A line in which only one word of the table occurs, worth a digit `d`, gives `11 * d`. */
  lemma SingleWord(line: string, words: seq<Word>, k: nat)
    requires k < |words| && words[k].value < 10
    requires Find(line, words[k].text).Some?
    requires forall j | 0 <= j < |words| && j != k :: Find(line, words[j].text).None?
    ensures CreateNumber(line, words) == Some(11 * words[k].value)
  {
    FindRFind(line, words[k].text);
    forall j | 0 <= j < |words| && j != k
      ensures RFind(line, words[j].text).None?
    {
      FindRFind(line, words[j].text);
    }
  }

  /** The numbers of all lines, in order. */
  function Numbers(lines: seq<string>, words: seq<Word>): (ns: seq<Option<nat>>)
    ensures |ns| == |lines|
    ensures forall i | 0 <= i < |lines| :: ns[i] == CreateNumber(lines[i], words)
  {
    seq(|lines|, i requires 0 <= i < |lines| => CreateNumber(lines[i], words))
  }

  /** `general_solution`: the numbers of the lines summed; `None` when some line has no word of the table. */
  function GeneralSolution(lines: seq<string>, words: seq<Word>): (r: Option<nat>)
    ensures r.Some? <==> forall i | 0 <= i < |lines| :: CreateNumber(lines[i], words).Some?
  {
    OptionSumDefined(Numbers(lines, words));
    OptionSum(Numbers(lines, words))
  }

  /** There is an answer exactly when a word of the table occurs in every line. */
  lemma GeneralSolutionDefined(lines: seq<string>, words: seq<Word>)
    ensures GeneralSolution(lines, words).Some? <==>
              forall i | 0 <= i < |lines| :: exists j | 0 <= j < |words| :: Find(lines[i], words[j].text).Some?
  {
    OptionSumDefined(Numbers(lines, words));
  }
}

=== FILE: cube_game.dfy ===
/**
 * The cube game (day2a/src/main.rs and day2b/src/main.rs) over already parsed
 * games: a game is an id and the sets of cubes drawn, each set a count per
 * colour.
 */
module CubeGame {
  import opened Wrappers

  /** The `Set` of day2a/src/lib.rs. */
  datatype CubeSet = CubeSet(red: nat, green: nat, blue: nat)

  datatype Game = Game(id: nat, sets: seq<CubeSet>)

  /** The bag `check_line` compares against: 12 red, 13 green, 14 blue. */
  const Bag := CubeSet(12, 13, 14)

  /** A set could be drawn from the bag: no colour above the bag's count. */
  predicate Within(s: CubeSet, bag: CubeSet) {
    s.red <= bag.red && s.green <= bag.green && s.blue <= bag.blue
  }

  /** The `all` over the sets. */
  function AllWithin(sets: seq<CubeSet>, bag: CubeSet): (b: bool)
    ensures b <==> forall i | 0 <= i < |sets| :: Within(sets[i], bag)
  {
    if sets == [] then true
    else
      assert forall i | 1 <= i < |sets| :: sets[1..][i - 1] == sets[i];
      Within(sets[0], bag) && AllWithin(sets[1..], bag)
  }

  /** `check_line`: the game's id when every set fits in the bag, else 0. */
  function CheckLine(g: Game): (r: nat)
    ensures (forall i | 0 <= i < |g.sets| :: Within(g.sets[i], Bag)) ==> r == g.id
    ensures (exists i | 0 <= i < |g.sets| :: !Within(g.sets[i], Bag)) ==> r == 0
  {
    if AllWithin(g.sets, Bag) then g.id else 0
  }

  /** The limits are inclusive, a game without sets is possible, and one colour over is enough to fail. */
  lemma CheckLineExamples()
    ensures CheckLine(Game(5, [CubeSet(12, 13, 14)])) == 5
    ensures CheckLine(Game(7, [])) == 7
    ensures CheckLine(Game(5, [CubeSet(1, 1, 1), CubeSet(12, 14, 0)])) == 0
  {
    assert !Within(CubeSet(12, 14, 0), Bag);
  }

  /** Rearranging the sets of a game does not change its value. */
  lemma CheckLineOrder(g: Game, sets: seq<CubeSet>)
    requires multiset(g.sets) == multiset(sets)
    ensures CheckLine(g) == CheckLine(Game(g.id, sets))
  {
    if exists i | 0 <= i < |g.sets| :: !Within(g.sets[i], Bag) {
      var i :| 0 <= i < |g.sets| && !Within(g.sets[i], Bag);
      assert g.sets[i] in multiset(sets);
    } else if exists i | 0 <= i < |sets| :: !Within(sets[i], Bag) {
      var i :| 0 <= i < |sets| && !Within(sets[i], Bag);
      assert sets[i] in multiset(g.sets);
    }
  }

  /** The ids of all games, possible or not. */
  function IdSum(games: seq<Game>): nat {
    if games == [] then 0 else IdSum(games[..|games| - 1]) + games[|games| - 1].id
  }

  /** day2a's `solution`: `check_line` summed over the games, in order. */
  function PossibleSum(games: seq<Game>): (r: nat)
    ensures r <= IdSum(games)
  {
    if games == [] then 0 else PossibleSum(games[..|games| - 1]) + CheckLine(games[|games| - 1])
  }

  /** When every game is possible, the answer is the sum of all ids. */
  lemma {:induction false} PossibleSumAllPossible(games: seq<Game>)
    requires forall k | 0 <= k < |games| :: AllWithin(games[k].sets, Bag)
    ensures PossibleSum(games) == IdSum(games)
  {
    if games != [] {
      var n := |games| - 1;
      assert forall k | 0 <= k < n :: games[..n][k] == games[k];
      PossibleSumAllPossible(games[..n]);
    }
  }

  /** The largest number of a list; `None` for the `max().unwrap()` on no sets. */
  function MaxOf(xs: seq<nat>): (r: Option<nat>)
    ensures r.Some? <==> |xs| >= 1
    ensures r.Some? ==> forall i | 0 <= i < |xs| :: xs[i] <= r.value
    ensures r.Some? ==> exists i | 0 <= i < |xs| :: xs[i] == r.value
  {
    if xs == [] then None
    else
      var rest := MaxOf(xs[1..]);
      assert forall i | 1 <= i < |xs| :: xs[1..][i - 1] == xs[i];
      if rest.None? || rest.value <= xs[0] then Some(xs[0]) else rest
  }

  function Reds(sets: seq<CubeSet>): (r: seq<nat>)
    ensures |r| == |sets| && forall i | 0 <= i < |sets| :: r[i] == sets[i].red
  {
    seq(|sets|, i requires 0 <= i < |sets| => sets[i].red)
  }

  function Greens(sets: seq<CubeSet>): (r: seq<nat>)
    ensures |r| == |sets| && forall i | 0 <= i < |sets| :: r[i] == sets[i].green
  {
    seq(|sets|, i requires 0 <= i < |sets| => sets[i].green)
  }

  function Blues(sets: seq<CubeSet>): (r: seq<nat>)
    ensures |r| == |sets| && forall i | 0 <= i < |sets| :: r[i] == sets[i].blue
  {
    seq(|sets|, i requires 0 <= i < |sets| => sets[i].blue)
  }

  /** The largest number of a list is the one element no element exceeds. */
  lemma MaxOfUnique(xs: seq<nat>, a: nat, k: nat)
    requires k < |xs| && xs[k] == a
    requires forall i | 0 <= i < |xs| :: xs[i] <= a
    ensures MaxOf(xs) == Some(a)
  {
    var m := MaxOf(xs).value;
    assert xs[k] <= m;
    var i :| 0 <= i < |xs| && xs[i] == m;
  }

  /** Two non-empty lists with the same numbers in them have the same largest one. */
  lemma MaxOfSameElements(xs: seq<nat>, ys: seq<nat>)
    requires |xs| >= 1 && |ys| >= 1
    requires forall i | 0 <= i < |xs| :: xs[i] in ys
    requires forall j | 0 <= j < |ys| :: ys[j] in xs
    ensures MaxOf(xs) == MaxOf(ys)
  {
    var a := MaxOf(xs).value;
    var i :| 0 <= i < |xs| && xs[i] == a;
    assert xs[i] in ys;
    var k :| 0 <= k < |ys| && ys[k] == a;
    forall j | 0 <= j < |ys|
      ensures ys[j] <= a
    {
      assert ys[j] in xs;
      var l :| 0 <= l < |xs| && xs[l] == ys[j];
    }
    MaxOfUnique(ys, a, k);
  }

  /** The `min_set` of `calc_line`: per colour the largest count over the sets. */
  function FewestCubes(sets: seq<CubeSet>): (r: Option<CubeSet>)
    ensures r.Some? <==> |sets| >= 1
  {
    if sets == [] then None
    else Some(CubeSet(MaxOf(Reds(sets)).value, MaxOf(Greens(sets)).value, MaxOf(Blues(sets)).value))
  }

  /** Every set fits in the fewest cubes, and no colour of them could be smaller. */
  lemma FewestCubesSpec(sets: seq<CubeSet>)
    requires |sets| >= 1
    ensures forall i | 0 <= i < |sets| :: Within(sets[i], FewestCubes(sets).value)
    ensures exists i | 0 <= i < |sets| :: sets[i].red == FewestCubes(sets).value.red
    ensures exists i | 0 <= i < |sets| :: sets[i].green == FewestCubes(sets).value.green
    ensures exists i | 0 <= i < |sets| :: sets[i].blue == FewestCubes(sets).value.blue
  {
    var r, g, b := Reds(sets), Greens(sets), Blues(sets);
    var i :| 0 <= i < |r| && r[i] == MaxOf(r).value;
    var j :| 0 <= j < |g| && g[j] == MaxOf(g).value;
    var k :| 0 <= k < |b| && b[k] == MaxOf(b).value;
    assert sets[i].red == FewestCubes(sets).value.red;
    assert sets[j].green == FewestCubes(sets).value.green;
    assert sets[k].blue == FewestCubes(sets).value.blue;
  }

  /** The fewest cubes are determined by which sets there are, not by their order. */
  lemma FewestCubesOrder(sets: seq<CubeSet>, other: seq<CubeSet>)
    requires multiset(sets) == multiset(other)
    ensures FewestCubes(sets) == FewestCubes(other)
  {
    assert |sets| == |multiset(sets)| == |multiset(other)| == |other|;
    if sets == [] {
      return;
    }
    forall i | 0 <= i < |sets| ensures sets[i] in other {
      assert sets[i] in multiset(other);
    }
    forall j | 0 <= j < |other| ensures other[j] in sets {
      assert other[j] in multiset(sets);
    }
    ProjectionSame(sets, other);
    ProjectionSame(other, sets);
    MaxOfSameElements(Reds(sets), Reds(other));
    MaxOfSameElements(Greens(sets), Greens(other));
    MaxOfSameElements(Blues(sets), Blues(other));
  }

  /** Lists holding the same sets hold the same counts of each colour. */
  lemma ProjectionSame(sets: seq<CubeSet>, other: seq<CubeSet>)
    requires forall i | 0 <= i < |sets| :: sets[i] in other
    ensures forall i | 0 <= i < |sets| :: Reds(sets)[i] in Reds(other)
    ensures forall i | 0 <= i < |sets| :: Greens(sets)[i] in Greens(other)
    ensures forall i | 0 <= i < |sets| :: Blues(sets)[i] in Blues(other)
  {
    forall i | 0 <= i < |sets|
      ensures Reds(sets)[i] in Reds(other) && Greens(sets)[i] in Greens(other) && Blues(sets)[i] in Blues(other)
    {
      var j :| 0 <= j < |other| && other[j] == sets[i];
      assert Reds(other)[j] == Reds(sets)[i];
      assert Greens(other)[j] == Greens(sets)[i];
      assert Blues(other)[j] == Blues(sets)[i];
    }
  }

  /** The number of cubes a set of counts would make into a box: the product of the three counts. */
  function Volume(c: CubeSet): nat {
    var redGreen: nat := c.red * c.green;
    redGreen * c.blue
  }

  /** `calc_line`: the product of the fewest cubes per colour; `None` for a game without sets. */
  function Power(g: Game): (r: Option<nat>)
    ensures r.Some? <==> |g.sets| >= 1
  {
    match FewestCubes(g.sets)
    case None => None
    case Some(c) => Some(Volume(c))
  }

  /** Rearranging the sets of a game does not change its power. */
  lemma PowerOrder(g: Game, sets: seq<CubeSet>)
    requires multiset(g.sets) == multiset(sets)
    ensures Power(g) == Power(Game(g.id, sets))
  {
    FewestCubesOrder(g.sets, sets);
  }

  /** A single set is its own fewest cubes. */
  lemma PowerSingle(id: nat, s: CubeSet)
    ensures Power(Game(id, [s])) == Some(Volume(s))
  {
    FewestCubesSpec([s]);
    var c := FewestCubes([s]).value;
    assert Within(s, c);
  }

  /** The power of each game, in order. */
  function Powers(games: seq<Game>): (ps: seq<Option<nat>>)
    ensures |ps| == |games|
    ensures forall k | 0 <= k < |games| :: ps[k] == Power(games[k])
  {
    seq(|games|, k requires 0 <= k < |games| => Power(games[k]))
  }

  /** day2b's `solution`: `calc_line` summed over the games; `None` when some game has no sets. */
  function PowerSum(games: seq<Game>): (r: Option<nat>)
    ensures r.Some? <==> forall k | 0 <= k < |games| :: Power(games[k]).Some?
  {
    OptionSumDefined(Powers(games));
    OptionSum(Powers(games))
  }

  /** There is an answer exactly when every game has a set. */
  lemma PowerSumDefined(games: seq<Game>)
    ensures PowerSum(games).Some? <==> forall k | 0 <= k < |games| :: games[k].sets != []
  {
    OptionSumDefined(Powers(games));
  }

  /** The summing fold of day2a's `solution`, one game at a time. */
  method Solution(games: seq<Game>) returns (total: nat)
    ensures total == PossibleSum(games)
  {
    total := 0;
    var i := 0;
    while i < |games|
      invariant 0 <= i <= |games|
      invariant total == PossibleSum(games[..i])
    {
      assert games[..i + 1][..i] == games[..i];
      total := total + CheckLine(games[i]);
      i := i + 1;
    }
    assert games[..i] == games;
  }
}

=== FILE: draft_modules.dfy ===
/**
 * The earlier module design in day20a/src/types.rs, which the solvers do not
 * use: modules identified by a numeric id, holding their destinations
 * directly, counting the pulses they receive, and pushing pulses themselves
 * from `send_signal`. Only the per-module state machine is modelled here: what
 * `update_state`, `reset` and `add_destination` do to one module, and which
 * level and sender id its `send_signal` would deliver to each destination.
 */
module DraftModules {
  import opened Wrappers

  type Id = nat

  /** A destination: the shared handle of another module, kept as an opaque index. */
  type Handle = nat

  datatype Draft =
    | Broadcaster(count: nat, destinations: seq<Handle>)
    | FlipFlop(id: Id, count: nat, input: bool, on: bool, destinations: seq<Handle>)
    | Conjunction(id: Id, count: nat, states: map<Id, bool>, destinations: seq<Handle>)

  /** The level and sender id that `send_signal` passes to every destination's `update_state`. */
  datatype Signal = Signal(level: bool, sender: Id)

  /** `Broadcaster::new` */
  function NewBroadcaster(): (m: Draft)
    ensures m.Broadcaster? && m.count == 0 && m.destinations == []
  {
    Broadcaster(0, [])
  }

  /** `FlipFlop::from(id)`: off, last input low, nothing received yet. */
  function NewFlipFlop(id: Id): (m: Draft)
    ensures m.FlipFlop? && m.id == id && m.count == 0 && !m.input && !m.on && m.destinations == []
  {
    FlipFlop(id, 0, false, false, [])
  }

  /** `Conjunction::from(id)`: no sender known, and this design has no way to register one. */
  function NewConjunction(id: Id): (m: Draft)
    ensures m.Conjunction? && m.id == id && m.count == 0 && m.states == map[] && m.destinations == []
  {
    Conjunction(id, 0, map[], [])
  }

  /** Same kind, same id, same destinations: what none of the operations below changes except `add_destination`. */
  predicate SameIdentity(a: Draft, b: Draft) {
    && (a.Broadcaster? <==> b.Broadcaster?)
    && (a.FlipFlop? <==> b.FlipFlop?)
    && (a.Conjunction? <==> b.Conjunction?)
    && (!a.Broadcaster? ==> a.id == b.id)
    && a.destinations == b.destinations
  }

  /**
   * `update_state(input, sender)`: every kind counts the pulse; a flip-flop
   * toggles on a low pulse and records the level; a conjunction overwrites the
   * entry of a known sender and ignores an unknown one.
   */
  function UpdateState(m: Draft, input: bool, sender: Id): (r: Draft)
    ensures SameIdentity(r, m)
    ensures r.count == m.count + 1
  {
    match m
    case Broadcaster(count, dests) => Broadcaster(count + 1, dests)
    case FlipFlop(id, count, _, on, dests) =>
      FlipFlop(id, count + 1, input, if !input then !on else on, dests)
    case Conjunction(id, count, states, dests) =>
      Conjunction(id, count + 1, if sender in states then states[sender := input] else states, dests)
  }

  /** The state changes `update_state` makes besides the count. */
  lemma UpdateStateSpec(m: Draft, input: bool, sender: Id)
    ensures var r := UpdateState(m, input, sender);
      && (m.Broadcaster? ==> r == Broadcaster(m.count + 1, m.destinations))
      && (m.FlipFlop? ==> r.input == input && (r.on <==> (if input then m.on else !m.on)))
      && (m.Conjunction? ==>
            && r.states.Keys == m.states.Keys
            && (sender in m.states ==> r.states[sender] == input)
            && (forall k | k in m.states && k != sender :: r.states[k] == m.states[k]))
      && (m.Conjunction? && sender !in m.states ==> r.states == m.states)
  {
  }

  /** `reset`: the count goes back to 0 and nothing else changes. */
  function Reset(m: Draft): (r: Draft)
    ensures r.count == 0
    ensures r.(count := m.count) == m
  {
    m.(count := 0)
  }

  /** `add_destination(d)`: `d` is appended after the existing destinations. */
  function AddDestination(m: Draft, d: Handle): (r: Draft)
    ensures r.destinations == m.destinations + [d]
    ensures r.(destinations := m.destinations) == m
  {
    m.(destinations := m.destinations + [d])
  }

  /** Every stored level of a conjunction is high; vacuously so when it stores none. */
  predicate AllStored(states: map<Id, bool>) {
    forall k | k in states :: states[k]
  }

  /**
   * What `send_signal` would deliver: a broadcaster sends low as id 0; a
   * flip-flop sends its `on` bit with its own id, but only when its last input
   * was low; a conjunction always sends the AND of its stored levels (not
   * its negation) with its own id.
   */
  function SignalOf(m: Draft): (s: Option<Signal>)
    ensures m.Broadcaster? ==> s == Some(Signal(false, 0))
    ensures m.FlipFlop? ==> (s.Some? <==> !m.input)
    ensures s.Some? && !m.Broadcaster? ==> s.value.sender == m.id
    ensures m.Conjunction? ==> s.Some? && (s.value.level <==> AllStored(m.states))
  {
    match m
    case Broadcaster(_, _) => Some(Signal(false, 0))
    case FlipFlop(id, _, input, on, _) => if !input then Some(Signal(on, id)) else None
    case Conjunction(id, _, states, _) => Some(Signal(AllStored(states), id))
  }

  /** Delivering a sequence of pulses `(level, sender)` one after the other. */
  function UpdateEach(m: Draft, pulses: seq<Signal>): Draft
    decreases |pulses|
  {
    if pulses == [] then m
    else UpdateEach(UpdateState(m, pulses[0].level, pulses[0].sender), pulses[1..])
  }

  /** The count is the number of pulses received since the last reset. */
  lemma {:induction false} UpdateEachCounts(m: Draft, pulses: seq<Signal>)
    ensures UpdateEach(m, pulses).count == m.count + |pulses|
    ensures SameIdentity(UpdateEach(m, pulses), m)
    decreases |pulses|
  {
    if pulses != [] {
      UpdateEachCounts(UpdateState(m, pulses[0].level, pulses[0].sender), pulses[1..]);
    }
  }

  /**
   * A conjunction built by `Conjunction::from` never learns a sender: its
   * states stay empty whatever it receives, so it always sends high.
   */
  lemma {:induction false} FreshConjunctionAlwaysHigh(id: Id, pulses: seq<Signal>)
    ensures var m := UpdateEach(NewConjunction(id), pulses);
            m.Conjunction? && m.states == map[] && SignalOf(m) == Some(Signal(true, id))
  {
    FreshConjunctionStaysEmpty(NewConjunction(id), pulses);
    UpdateEachCounts(NewConjunction(id), pulses);
  }

  lemma {:induction false} FreshConjunctionStaysEmpty(m: Draft, pulses: seq<Signal>)
    requires m.Conjunction? && m.states == map[]
    ensures UpdateEach(m, pulses).Conjunction? && UpdateEach(m, pulses).states == map[]
    decreases |pulses|
  {
    if pulses != [] {
      FreshConjunctionStaysEmpty(UpdateState(m, pulses[0].level, pulses[0].sender), pulses[1..]);
    }
  }

  /**
   * From off, two low pulses make a flip-flop send high and then low, and
   * leave it off again with the count raised by two.
   */
  lemma FlipFlopTwoLows(id: Id, s1: Id, s2: Id)
    ensures var a := UpdateState(NewFlipFlop(id), false, s1);
            var b := UpdateState(a, false, s2);
            && SignalOf(a) == Some(Signal(true, id))
            && SignalOf(b) == Some(Signal(false, id))
            && !b.on && b.count == 2
  {
  }

  /** A high pulse silences a flip-flop: after it, `send_signal` sends nothing. */
  lemma FlipFlopHighSilences(m: Draft, sender: Id)
    requires m.FlipFlop?
    ensures var r := UpdateState(m, true, sender);
            SignalOf(r) == None && r.on == m.on
  {
  }
}

=== FILE: machine_parser.dfy ===
/**
 * Building the module network from already-parsed declarations
 * (day20a/src/parser.rs): `ParsedType::from`, `create_module`, the collection
 * into a map, and the back-registration walk `register_source` that tells
 * every conjunction which senders it will hear from.
 */
module MachineParser {
  import opened Wrappers
  import opened PulseModules

  datatype ParsedType = BroadcasterType | FlipFlopType | ConjunctionType

  /** One declaration line: the module's name, its kind and its destinations. */
  datatype ParsedItem = ParsedItem(name: Name, parsedType: ParsedType, destinations: seq<Name>)

  /** ASCII lower-casing of one character. */
  function Lower(ch: char): char {
    if 'A' <= ch <= 'Z' then (ch as int - 'A' as int + 'a' as int) as char else ch
  }

  function LowerAll(s: string): (r: string)
    ensures |r| == |s|
    ensures forall i | 0 <= i < |s| :: r[i] == Lower(s[i])
  {
    if s == [] then [] else [Lower(s[0])] + LowerAll(s[1..])
  }

  /**
   * `ParsedType::from`: the lower-cased tag names a kind; any other tag is
   * the `unimplemented!` panic, here `None`.
   */
  function TypeFrom(tag: string): (r: Option<ParsedType>)
    ensures r.Some? ==> TagOf(r.value) == LowerAll(tag)
    ensures r.None? <==> forall t: ParsedType :: TagOf(t) != LowerAll(tag)
  {
    var t := LowerAll(tag);
    if t == "broadcaster" then Some(BroadcasterType)
    else if t == "%" then Some(FlipFlopType)
    else if t == "&" then Some(ConjunctionType)
    else None
  }

  /** The tag the parser hands over for each kind. */
  function TagOf(t: ParsedType): string {
    match t
    case BroadcasterType => "broadcaster"
    case FlipFlopType => "%"
    case ConjunctionType => "&"
  }

  /** A string without upper-case ASCII letters is its own lower-casing. */
  lemma LowerAllKeeps(s: string)
    requires forall i | 0 <= i < |s| :: !('A' <= s[i] <= 'Z')
    ensures LowerAll(s) == s
  {
  }

  /** Every kind's tag is recognised as that kind. */
  lemma {:induction false} TypeFromTags(t: ParsedType)
    ensures TypeFrom(TagOf(t)) == Some(t)
  {
    LowerAllKeeps(TagOf(t));
  }

  /** The kind does not depend on letter case: a tag and its lower-casing name the same kind. */
  lemma {:induction false} TypeFromIgnoresCase(tag: string)
    ensures TypeFrom(tag) == TypeFrom(LowerAll(tag))
  {
    forall i | 0 <= i < |tag|
      ensures !('A' <= LowerAll(tag)[i] <= 'Z')
    {
    }
    LowerAllKeeps(LowerAll(tag));
  }

  /** `create_module`: a fresh module of the parsed kind with the parsed destinations. */
  function CreateModule(item: ParsedItem): (m: Module)
    ensures m.destinations == item.destinations
    ensures m.Broadcaster? <==> item.parsedType == BroadcasterType
    ensures m.FlipFlop? <==> item.parsedType == FlipFlopType
    ensures m.Conjunction? <==> item.parsedType == ConjunctionType
    ensures m.FlipFlop? ==> !m.on && !m.input
    ensures m.Conjunction? ==> m.states == map[]
  {
    match item.parsedType
    case BroadcasterType => NewBroadcaster(item.destinations)
    case FlipFlopType => NewFlipFlop(item.destinations)
    case ConjunctionType => NewConjunction(item.destinations)
  }

  /** The `collect` into a `HashMap`: items are inserted in order, so a later declaration of a name replaces an earlier one. */
  function BuildModules(items: seq<ParsedItem>): (net: Network)
    ensures net.Keys == set i | 0 <= i < |items| :: items[i].name
  {
    if items == [] then map[]
    else
      var last := items[|items| - 1];
      BuildModules(items[..|items| - 1])[last.name := CreateModule(last)]
  }

  /** Every module of the map is built from the last declaration of its name. */
  lemma {:induction false} BuildModulesLastWins(items: seq<ParsedItem>, i: nat)
    requires i < |items|
    requires forall j | i < j < |items| :: items[j].name != items[i].name
    ensures BuildModules(items)[items[i].name] == CreateModule(items[i])
  {
    if i < |items| - 1 {
      var prefix := items[..|items| - 1];
      assert prefix[i] == items[i];
      BuildModulesLastWins(prefix, i);
    }
  }

  /** Every conjunction of a freshly built map has no recorded inputs yet. */
  lemma {:induction false} BuildModulesFresh(items: seq<ParsedItem>, n: Name)
    requires n in BuildModules(items)
    ensures BuildModules(items)[n].Conjunction? ==> BuildModules(items)[n].states == map[]
  {
    var last := items[|items| - 1];
    if last.name != n {
      BuildModulesFresh(items[..|items| - 1], n);
    }
  }

  /** Same names, kinds and destination lists: registration changes only what conjunctions remember. */
  predicate SameLayout(a: Network, b: Network) {
    && a.Keys == b.Keys
    && forall n | n in a :: SameKind(a[n], b[n]) && a[n].destinations == b[n].destinations
  }

  lemma CardinalityShrinks(keys: set<Name>, path: set<Name>, name: Name)
    requires name in keys && name !in path
    ensures |keys - (path + {name})| < |keys - path|
  {
    assert keys - (path + {name}) == (keys - path) - {name};
  }

  /**
   * `register_source(name, source, modules)` while the modules of `path` have
   * their `for` loops running (their `RefCell` is borrowed, so
   * `try_borrow_mut` fails on them): a name without a module or on the path is
   * skipped; otherwise `source` is registered on it and the walk continues into
   * each of its destinations with `name` as the source.
   */
  function RegisterSource(name: Name, source: Name, net: Network, path: set<Name>): (r: Network)
    decreases |net.Keys - path|, 0
    ensures r.Keys == net.Keys
  {
    if name !in net || name in path then net
    else
      var net1 := net[name := RegisterInput(net[name], source)];
      assert net1.Keys == net.Keys;
      CardinalityShrinks(net.Keys, path, name);
      RegisterAll(net[name].destinations, name, net1, path + {name})
  }

  /** The `for dest in destinations` loop of `register_source`. */
  function RegisterAll(dests: seq<Name>, source: Name, net: Network, path: set<Name>): (r: Network)
    decreases |net.Keys - path|, 1, |dests|
    ensures r.Keys == net.Keys
  {
    if dests == [] then net
    else
      var net2 := RegisterSource(dests[0], source, net, path);
      RegisterAll(dests[1..], source, net2, path)
  }

  lemma {:induction false} RegisterSourceLayout(name: Name, source: Name, net: Network, path: set<Name>)
    ensures SameLayout(net, RegisterSource(name, source, net, path))
    decreases |net.Keys - path|, 0
  {
    if name in net && name !in path {
      var net1 := net[name := RegisterInput(net[name], source)];
      assert net1.Keys == net.Keys;
      CardinalityShrinks(net.Keys, path, name);
      RegisterAllLayout(net[name].destinations, name, net1, path + {name});
    }
  }

  lemma {:induction false} RegisterAllLayout(dests: seq<Name>, source: Name, net: Network, path: set<Name>)
    ensures SameLayout(net, RegisterAll(dests, source, net, path))
    decreases |net.Keys - path|, 1, |dests|
  {
    if dests != [] {
      var net2 := RegisterSource(dests[0], source, net, path);
      RegisterSourceLayout(dests[0], source, net, path);
      RegisterAllLayout(dests[1..], source, net2, path);
    }
  }

  /**
   * `q` is a walk the registration can take from `name`: it starts there,
   * passes only through modules, none of them on `path`, none twice, and
   * follows destination edges.
   */
  predicate Walk(net: Network, name: Name, path: set<Name>, q: seq<Name>) {
    && |q| >= 1
    && q[0] == name
    && (forall i | 0 <= i < |q| :: q[i] in net && q[i] !in path)
    && (forall i, j | 0 <= i < j < |q| :: q[i] != q[j])
    && (forall i | 0 <= i < |q| - 1 :: q[i + 1] in net[q[i]].destinations)
  }

  /** The sender registered at the end of a walk: the module before the last, or `source` for a one-step walk. */
  function Before(q: seq<Name>, source: Name): Name
    requires |q| >= 1
  {
    if |q| == 1 then source else q[|q| - 2]
  }

  /** Starting `register_source(name, source)` off `path` registers `s` on `c` along some walk. */
  ghost predicate Visited(net: Network, name: Name, source: Name, path: set<Name>, c: Name, s: Name) {
    exists q | Walk(net, name, path, q) :: q[|q| - 1] == c && Before(q, source) == s
  }

  /** Some destination of `dests` starts a walk registering `s` on `c`. */
  ghost predicate VisitedAny(net: Network, dests: seq<Name>, source: Name, path: set<Name>, c: Name, s: Name) {
    exists i | 0 <= i < |dests| :: Visited(net, dests[i], source, path, c, s)
  }

  lemma WalkLayout(a: Network, b: Network, name: Name, path: set<Name>, q: seq<Name>)
    requires SameLayout(a, b)
    requires Walk(a, name, path, q)
    ensures Walk(b, name, path, q)
  {
    forall i | 0 <= i < |q| - 1
      ensures q[i + 1] in b[q[i]].destinations
    {
      assert q[i] in a;
    }
  }

  lemma SameLayoutSymmetric(a: Network, b: Network)
    requires SameLayout(a, b)
    ensures SameLayout(b, a)
  {
  }

  /** Which walks exist depends only on the layout, not on what conjunctions remember. */
  lemma VisitedLayout(a: Network, b: Network, name: Name, source: Name, path: set<Name>, c: Name, s: Name)
    requires SameLayout(a, b)
    ensures Visited(a, name, source, path, c, s) <==> Visited(b, name, source, path, c, s)
  {
    if Visited(a, name, source, path, c, s) {
      var q :| Walk(a, name, path, q) && q[|q| - 1] == c && Before(q, source) == s;
      WalkLayout(a, b, name, path, q);
    }
    if Visited(b, name, source, path, c, s) {
      var q :| Walk(b, name, path, q) && q[|q| - 1] == c && Before(q, source) == s;
      SameLayoutSymmetric(a, b);
      WalkLayout(b, a, name, path, q);
    }
  }

  lemma VisitedAnyLayout(a: Network, b: Network, dests: seq<Name>, source: Name, path: set<Name>, c: Name, s: Name)
    requires SameLayout(a, b)
    ensures VisitedAny(a, dests, source, path, c, s) <==> VisitedAny(b, dests, source, path, c, s)
  {
    forall i | 0 <= i < |dests|
      ensures Visited(a, dests[i], source, path, c, s) <==> Visited(b, dests[i], source, path, c, s)
    {
      VisitedLayout(a, b, dests[i], source, path, c, s);
    }
  }

  /** A walk from `name` is `name` alone or `name` followed by a walk from one of its destinations that avoids `name`. */
  lemma VisitedStep(net: Network, name: Name, source: Name, path: set<Name>, c: Name, s: Name)
    requires name in net && name !in path
    ensures Visited(net, name, source, path, c, s)
            <==> (c == name && s == source) || VisitedAny(net, net[name].destinations, name, path + {name}, c, s)
  {
    if Visited(net, name, source, path, c, s) {
      var q :| Walk(net, name, path, q) && q[|q| - 1] == c && Before(q, source) == s;
      if |q| > 1 {
        WalkTail(net, name, source, path, q);
      }
    }
    if c == name && s == source {
      assert Walk(net, name, path, [name]);
    }
    if VisitedAny(net, net[name].destinations, name, path + {name}, c, s) {
      WalkCons(net, name, source, path, c, s);
    }
  }

  lemma WalkTail(net: Network, name: Name, source: Name, path: set<Name>, q: seq<Name>)
    requires Walk(net, name, path, q) && |q| > 1
    ensures VisitedAny(net, net[name].destinations, name, path + {name}, q[|q| - 1], Before(q, source))
  {
    var dests := net[name].destinations;
    var rest := q[1..];
    assert Walk(net, q[1], path + {name}, rest) by {
      forall i | 0 <= i < |rest|
        ensures rest[i] != name
      {
        assert q[0] != q[i + 1];
      }
    }
    assert rest[|rest| - 1] == q[|q| - 1] && Before(rest, name) == Before(q, source);
    var k :| 0 <= k < |dests| && dests[k] == q[1];
    assert Visited(net, dests[k], name, path + {name}, q[|q| - 1], Before(q, source));
  }

  lemma WalkCons(net: Network, name: Name, source: Name, path: set<Name>, c: Name, s: Name)
    requires name in net && name !in path
    requires VisitedAny(net, net[name].destinations, name, path + {name}, c, s)
    ensures Visited(net, name, source, path, c, s)
  {
    var dests := net[name].destinations;
    var k :| 0 <= k < |dests| && Visited(net, dests[k], name, path + {name}, c, s);
    var rest :| Walk(net, dests[k], path + {name}, rest) && rest[|rest| - 1] == c && Before(rest, name) == s;
    var q := [name] + rest;
    assert q[1..] == rest;
    assert Walk(net, name, path, q);
    assert q[|q| - 1] == c && Before(q, source) == s;
  }

  /** A walk never starts at a name without a module or on the path. */
  lemma NotVisitedBlocked(net: Network, name: Name, source: Name, path: set<Name>, c: Name, s: Name)
    requires name !in net || name in path
    ensures !Visited(net, name, source, path, c, s)
  {
  }

  lemma VisitedAnySplit(net: Network, dests: seq<Name>, source: Name, path: set<Name>, c: Name, s: Name)
    requires dests != []
    ensures VisitedAny(net, dests, source, path, c, s)
            <==> Visited(net, dests[0], source, path, c, s) || VisitedAny(net, dests[1..], source, path, c, s)
  {
    if VisitedAny(net, dests, source, path, c, s) {
      var k :| 0 <= k < |dests| && Visited(net, dests[k], source, path, c, s);
      if k > 0 {
        assert dests[1..][k - 1] == dests[k];
      }
    }
    if VisitedAny(net, dests[1..], source, path, c, s) {
      var k :| 0 <= k < |dests[1..]| && Visited(net, dests[1..][k], source, path, c, s);
      assert dests[k + 1] == dests[1..][k];
    }
  }

  /**
   * What conjunction `c` remembers about sender `s` after registering
   * `visited` on top of `before`: `s` is a key afterwards exactly when it was
   * one before or it was visited, and a visited key holds low.
   */
  predicate Registered(before: Network, after: Network, c: Name, s: Name, visited: bool) {
    && ((c in after && after[c].Conjunction? && s in after[c].states)
        <==> (c in before && before[c].Conjunction? && (s in before[c].states || visited)))
    && (c in after && after[c].Conjunction? && s in after[c].states
        ==> after[c].states[s] == (!visited && before[c].states[s]))
  }

  /** `register_source` registers `s` on `c` exactly along the walks from `name` that avoid `path`. */
  lemma {:induction false} RegisterSourceSpec(name: Name, source: Name, net: Network, path: set<Name>, c: Name, s: Name)
    ensures Registered(net, RegisterSource(name, source, net, path), c, s, Visited(net, name, source, path, c, s))
    decreases |net.Keys - path|, 0
  {
    if name !in net || name in path {
      NotVisitedBlocked(net, name, source, path, c, s);
    } else {
      var dests := net[name].destinations;
      var net1 := net[name := RegisterInput(net[name], source)];
      assert net1.Keys == net.Keys;
      CardinalityShrinks(net.Keys, path, name);
      RegisterAllSpec(dests, name, net1, path + {name}, c, s);
      RegisterOne(net, name, source, c, s);
      VisitedAnyLayout(net, net1, dests, name, path + {name}, c, s);
      VisitedStep(net, name, source, path, c, s);
      RegisteredThen(net, net1, RegisterAll(dests, name, net1, path + {name}), c, s,
                     c == name && s == source, VisitedAny(net, dests, name, path + {name}, c, s));
    }
  }

  /** `register_input(source)` on module `name` alone. */
  lemma RegisterOne(net: Network, name: Name, source: Name, c: Name, s: Name)
    requires name in net
    ensures var net1 := net[name := RegisterInput(net[name], source)];
            && SameLayout(net, net1)
            && Registered(net, net1, c, s, c == name && s == source)
  {
  }

  /** Registering `v1` and then `v2` registers `v1 || v2`. */
  lemma RegisteredThen(a: Network, b: Network, d: Network, c: Name, s: Name, v1: bool, v2: bool)
    requires SameLayout(a, b)
    requires Registered(a, b, c, s, v1) && Registered(b, d, c, s, v2)
    ensures Registered(a, d, c, s, v1 || v2)
  {
    assert (c in a && a[c].Conjunction?) <==> (c in b && b[c].Conjunction?);
  }

  lemma {:induction false} RegisterAllSpec(dests: seq<Name>, source: Name, net: Network, path: set<Name>, c: Name, s: Name)
    ensures Registered(net, RegisterAll(dests, source, net, path), c, s, VisitedAny(net, dests, source, path, c, s))
    decreases |net.Keys - path|, 1, |dests|
  {
    if dests != [] {
      var net2 := RegisterSource(dests[0], source, net, path);
      RegisterSourceSpec(dests[0], source, net, path, c, s);
      RegisterAllSpec(dests[1..], source, net2, path, c, s);
      RegisterSourceLayout(dests[0], source, net, path);
      VisitedAnyLayout(net, net2, dests[1..], source, path, c, s);
      VisitedAnySplit(net, dests, source, path, c, s);
    }
  }

  /** `parse_machine` after the lines are parsed: build the map, then register from "broadcaster" with source "". */
  function ParseMachine(items: seq<ParsedItem>): (net: Network)
    ensures net.Keys == set i | 0 <= i < |items| :: items[i].name
  {
    RegisterSource("broadcaster", "", BuildModules(items), {})
  }

  /**
   * After `parse_machine`, conjunction `c` knows sender `s` exactly when some
   * walk from "broadcaster" that repeats no module ends at `c` right after
   * `s` (or is "broadcaster" alone, with `s` the empty source); every known
   * sender is recorded as low.
   */
  lemma ParseMachineInputs(items: seq<ParsedItem>, c: Name, s: Name)
    requires c in ParseMachine(items) && ParseMachine(items)[c].Conjunction?
    ensures s in ParseMachine(items)[c].states <==> Visited(BuildModules(items), "broadcaster", "", {}, c, s)
    ensures s in ParseMachine(items)[c].states ==> !ParseMachine(items)[c].states[s]
  {
    var net := BuildModules(items);
    RegisterSourceSpec("broadcaster", "", net, {}, c, s);
    RegisterSourceLayout("broadcaster", "", net, {});
    BuildModulesFresh(items, c);
  }

  /** `u` is a module with `c` among its destinations: a sender `c` will hear from. */
  predicate FeedsInto(net: Network, u: Name, c: Name) {
    u in net && c in net[u].destinations
  }

  /**
   * The declarations `items` that `parse_machine` registers from "broadcaster":
   * "a" feeds "c", and "b" feeds "c" but is reachable only through "c".
   */
  function CycleExample(): seq<ParsedItem> {
    [ ParsedItem("broadcaster", BroadcasterType, ["a"]),
      ParsedItem("a", FlipFlopType, ["c"]),
      ParsedItem("c", ConjunctionType, ["b"]),
      ParsedItem("b", FlipFlopType, ["c"]) ]
  }

  /**
   * As written, the walk reaches "b" only through "c", so when it comes back
   * from "b" to "c" the module "c" is on the path and is skipped: "c" never
   * learns its input "b", and the first high pulse from "b" hits the `unwrap`.
   */
  lemma CycleExampleMissesInput()
    ensures var net := ParseMachine(CycleExample());
            && "c" in net && net["c"].Conjunction?
            && FeedsInto(net, "b", "c")
            && "b" !in net["c"].states
  {
    var items := CycleExample();
    var built := BuildModules(items);
    BuildModulesLastWins(items, 0);
    BuildModulesLastWins(items, 1);
    BuildModulesLastWins(items, 2);
    BuildModulesLastWins(items, 3);
    assert built["c"] == Conjunction(map[], ["b"]);
    assert built["b"] == FlipFlop(false, false, ["c"]);
    assert forall m | m in built && "b" in built[m].destinations :: m == "c" by {
      forall m | m in built && "b" in built[m].destinations
        ensures m == "c"
      {
        var i :| 0 <= i < |items| && items[i].name == m;
      }
    }
    RegisterSourceLayout("broadcaster", "", built, {});
    ParseMachineInputs(items, "c", "b");
    OnlyFedByItselfNeverLearned(built, "broadcaster", "", {}, "c", "b");
  }

  /**
   * The defect in general: a module `u` whose only feeder is the conjunction
   * `c` is never registered on `c`, since every walk reaching `u` has already
   * passed through `c`.
   */
  lemma OnlyFedByItselfNeverLearned(net: Network, start: Name, source: Name, path: set<Name>, c: Name, u: Name)
    requires u != start && u != source
    requires forall m | m in net && u in net[m].destinations :: m == c
    ensures !Visited(net, start, source, path, c, u)
  {
    if Visited(net, start, source, path, c, u) {
      var q :| Walk(net, start, path, q) && q[|q| - 1] == c && Before(q, source) == u;
      WalkFeeder(net, start, source, path, q, u);
      assert false;
    }
  }

  /** On a walk ending in a registration of `u` (not the start, not the source), the module two steps before the end feeds `u`. */
  lemma WalkFeeder(net: Network, start: Name, source: Name, path: set<Name>, q: seq<Name>, u: Name)
    requires Walk(net, start, path, q) && Before(q, source) == u
    requires u != start && u != source
    ensures |q| >= 3 && u in net[q[|q| - 3]].destinations
  {
    var k := |q| - 1;
    assert k >= 1 && q[k - 1] == u;
    assert q[k - 1] in net[q[k - 2]].destinations;
  }

  /** Registering `source` on each name of `dests` that has a module. */
  function RegisterOnEach(dests: seq<Name>, source: Name, net: Network): (r: Network)
    ensures r.Keys == net.Keys
  {
    if dests == [] then net
    else
      var net1 := if dests[0] in net then net[dests[0] := RegisterInput(net[dests[0]], source)] else net;
      RegisterOnEach(dests[1..], source, net1)
  }

  /** The registration the solvers need: every module registers itself on each of its destinations. */
  function RegisterEdges(names: seq<Name>, net: Network): (r: Network)
    ensures r.Keys == net.Keys
  {
    if names == [] then net
    else
      var net1 := if names[0] in net then RegisterOnEach(net[names[0]].destinations, names[0], net) else net;
      RegisterEdges(names[1..], net1)
  }

  lemma {:induction false} RegisterOnEachSpec(dests: seq<Name>, source: Name, net: Network, c: Name, s: Name)
    ensures SameLayout(net, RegisterOnEach(dests, source, net))
    ensures Registered(net, RegisterOnEach(dests, source, net), c, s, c in dests && s == source)
  {
    if dests != [] {
      var d := dests[0];
      var net1 := if d in net then net[d := RegisterInput(net[d], source)] else net;
      if d in net {
        RegisterOne(net, d, source, c, s);
      }
      RegisterOnEachSpec(dests[1..], source, net1, c, s);
      RegisteredThen(net, net1, RegisterOnEach(dests, source, net), c, s, c == d && s == source && d in net,
                     c in dests[1..] && s == source);
      assert c in dests <==> c == d || c in dests[1..];
    }
  }

  lemma {:induction false} RegisterEdgesSpec(names: seq<Name>, net: Network, c: Name, s: Name)
    ensures SameLayout(net, RegisterEdges(names, net))
    ensures Registered(net, RegisterEdges(names, net), c, s, s in names && FeedsInto(net, s, c))
  {
    if names != [] {
      var n := names[0];
      var net1 := if n in net then RegisterOnEach(net[n].destinations, n, net) else net;
      if n in net {
        RegisterOnEachSpec(net[n].destinations, n, net, c, s);
      }
      RegisterEdgesSpec(names[1..], net1, c, s);
      assert FeedsInto(net1, s, c) == FeedsInto(net, s, c);
      RegisteredThen(net, net1, RegisterEdges(names, net), c, s, n in net && c in net[n].destinations && s == n,
                     s in names[1..] && FeedsInto(net, s, c));
      assert s in names <==> s == n || s in names[1..];
    }
  }

  /** The declared names, in order. */
  function NamesOf(items: seq<ParsedItem>): (names: seq<Name>)
    ensures |names| == |items|
    ensures forall i | 0 <= i < |items| :: names[i] == items[i].name
  {
    if items == [] then [] else [items[0].name] + NamesOf(items[1..])
  }

  /** `parse_machine` with the corrected registration. */
  function ParseMachineFixed(items: seq<ParsedItem>): (net: Network)
    ensures net.Keys == set i | 0 <= i < |items| :: items[i].name
  {
    RegisterEdges(NamesOf(items), BuildModules(items))
  }

  /**
   * With the corrected registration every conjunction knows exactly the
   * modules that feed into it, each recorded as low, and nothing else changes.
   */
  lemma ParseMachineFixedInputs(items: seq<ParsedItem>, c: Name, s: Name)
    requires c in ParseMachineFixed(items) && ParseMachineFixed(items)[c].Conjunction?
    ensures s in ParseMachineFixed(items)[c].states <==> FeedsInto(BuildModules(items), s, c)
    ensures s in ParseMachineFixed(items)[c].states ==> !ParseMachineFixed(items)[c].states[s]
    ensures SameLayout(BuildModules(items), ParseMachineFixed(items))
  {
    var net := BuildModules(items);
    RegisterEdgesSpec(NamesOf(items), net, c, s);
    BuildModulesFresh(items, c);
    if FeedsInto(net, s, c) {
      var i :| 0 <= i < |items| && items[i].name == s;
      assert NamesOf(items)[i] == s;
    }
  }
}

=== FILE: no_panic.dfy ===
/**
 * When the pulse solvers cannot panic. The only panic of a cascade is the
 * `unwrap` of a conjunction on a sender it does not know
 * (day20b/src/types.rs:106); a network in which every conjunction knows every
 * module that feeds into it never reaches it, whatever the module states and
 * however often the button is pressed. The corrected registration builds
 * exactly such a network.
 */
module PanicFreedom {
  import opened Wrappers
  import opened PulseModules
  import opened Propagation
  import PulseCount
  import opened MachineParser

  /** Every conjunction knows every module that has it among its destinations. */
  predicate KnowsPredecessors(net: Network) {
    forall u, n | u in net && n in net && n in net[u].destinations && net[n].Conjunction? :: u in net[n].states
  }

  /** Whether a network knows its predecessors depends only on its wiring. */
  lemma KnowsPredecessorsSameWiring(a: Network, b: Network)
    requires SameWiring(a, b)
    ensures KnowsPredecessors(a) <==> KnowsPredecessors(b)
  {
  }

  /** A module sending along its own edges in such a network is never rejected. */
  lemma OwnEdgesAccepted(net: Network, u: Name)
    requires KnowsPredecessors(net) && u in net
    ensures forall i | 0 <= i < |net[u].destinations| :: !Rejects(net, net[u].destinations[i], u)
  {
  }

  /**
   * A cascade whose own first pulses are accepted, in a network where every
   * conjunction knows its predecessors, never panics: it finishes or runs out
   * of fuel.
   */
  lemma {:induction false} CascadeNeverPanics(fuel: nat, sendTo: seq<Name>, net: Network, input: bool, sender: Name)
    requires KnowsPredecessors(net)
    requires forall i | 0 <= i < |sendTo| :: !Rejects(net, sendTo[i], sender)
    ensures !Cascade(fuel, sendTo, net, input, sender).Panicked?
    decreases fuel, 0
  {
    if fuel > 0 {
      UpdateAllSpec(sendTo, net, input, sender);
      var u := UpdateAll(sendTo, net, input, sender);
      UpdateAllKeepsWiring(sendTo, net, input, sender);
      KnowsPredecessorsSameWiring(net, u.net);
      CascadeEachNeverPanics(fuel - 1, u.responders, u.net);
    }
  }

  lemma {:induction false} CascadeEachNeverPanics(fuel: nat, rs: seq<Responder>, net: Network)
    requires forall i | 0 <= i < |rs| :: rs[i].name in net
    requires KnowsPredecessors(net)
    ensures !CascadeEach(fuel, rs, net).Panicked?
    decreases fuel, 1, |rs|
  {
    if rs != [] {
      var head := rs[0];
      var dests := net[head.name].destinations;
      OwnEdgesAccepted(net, head.name);
      CascadeNeverPanics(fuel, dests, net, head.level, head.name);
      var c := Cascade(fuel, dests, net, head.level, head.name);
      if c.Finished? {
        CascadeKeepsWiring(fuel, dests, net, head.level, head.name);
        KnowsPredecessorsSameWiring(net, c.net);
        CascadeEachNeverPanics(fuel, rs[1..], c.net);
      }
    }
  }

  /** The button pulse is accepted: "broadcaster" is not a conjunction that does not know itself. */
  predicate ButtonAccepted(net: Network) {
    !Rejects(net, "broadcaster", "broadcaster")
  }

  lemma ButtonAcceptedSameWiring(a: Network, b: Network)
    requires SameWiring(a, b)
    ensures ButtonAccepted(a) <==> ButtonAccepted(b)
  {
  }

  /** One press never panics, and a finished one keeps the wiring. */
  lemma PressNeverPanics(fuel: nat, net: Network)
    requires KnowsPredecessors(net) && ButtonAccepted(net)
    ensures !PulseCount.Press(fuel, net).Panicked?
    ensures PulseCount.Press(fuel, net).Finished? ==> SameWiring(net, PulseCount.Press(fuel, net).net)
  {
    PulseCount.ForwardSignalsCountsTrace(fuel, ["broadcaster"], net, false, "broadcaster");
    CascadeNeverPanics(fuel, ["broadcaster"], net, false, "broadcaster");
    if Cascade(fuel, ["broadcaster"], net, false, "broadcaster").Finished? {
      CascadeKeepsWiring(fuel, ["broadcaster"], net, false, "broadcaster");
    }
  }

  /**
   * Any number of presses on the persisting network never panics; when they
   * finish, the network still has the wiring it started with.
   */
  lemma {:induction false} PressesNeverPanic(fuel: nat, net: Network, k: nat)
    requires KnowsPredecessors(net) && ButtonAccepted(net)
    ensures !PulseCount.Presses(fuel, net, k).Panicked?
    ensures PulseCount.Presses(fuel, net, k).Finished? ==> SameWiring(net, PulseCount.Presses(fuel, net, k).net)
  {
    if k > 0 {
      PressesNeverPanic(fuel, net, k - 1);
      var p := PulseCount.Presses(fuel, net, k - 1);
      if p.Finished? {
        KnowsPredecessorsSameWiring(net, p.net);
        ButtonAcceptedSameWiring(net, p.net);
        PressNeverPanics(fuel, p.net);
        var q := PulseCount.Press(fuel, p.net);
        if q.Finished? {
          SameWiringTransitive(net, p.net, q.net);
        }
      }
    }
  }

  /** A name never declared a conjunction does not map to one. */
  lemma {:induction false} BuildModulesNotConjunction(items: seq<ParsedItem>, n: Name)
    requires n in BuildModules(items)
    requires forall i | 0 <= i < |items| && items[i].name == n :: items[i].parsedType != ConjunctionType
    ensures !BuildModules(items)[n].Conjunction?
  {
    var last := items[|items| - 1];
    if last.name != n {
      BuildModulesNotConjunction(items[..|items| - 1], n);
    }
  }

  /** The corrected registration leaves every conjunction knowing its predecessors. */
  lemma ParseMachineFixedKnows(items: seq<ParsedItem>)
    ensures KnowsPredecessors(ParseMachineFixed(items))
  {
    var net := ParseMachineFixed(items);
    var built := BuildModules(items);
    forall u, n | u in net && n in net && n in net[u].destinations && net[n].Conjunction?
      ensures u in net[n].states
    {
      ParseMachineFixedInputs(items, n, u);
    }
  }

  /** With "broadcaster" never declared a conjunction, the button pulse of the corrected network is accepted. */
  lemma ParseMachineFixedButton(items: seq<ParsedItem>)
    requires forall i | 0 <= i < |items| && items[i].name == "broadcaster" :: items[i].parsedType != ConjunctionType
    ensures ButtonAccepted(ParseMachineFixed(items))
  {
    var net := ParseMachineFixed(items);
    if "broadcaster" in net {
      BuildModulesNotConjunction(items, "broadcaster");
      RegisterEdgesSpec(MachineParser.NamesOf(items), BuildModules(items), "broadcaster", "broadcaster");
    }
  }

  /**
   * The pulse-counting solver on the corrected network: it answers unless the
   * fuel runs out, and never panics.
   */
  method Solve(fuel: nat, items: seq<ParsedItem>) returns (answer: Option<nat>)
    requires forall i | 0 <= i < |items| && items[i].name == "broadcaster" :: items[i].parsedType != ConjunctionType
    ensures answer.None? ==> PulseCount.Presses(fuel, ParseMachineFixed(items), 1000).OutOfFuel?
    ensures answer.Some? ==>
              && PulseCount.Presses(fuel, ParseMachineFixed(items), 1000).Finished?
              && var total := PulseCount.Presses(fuel, ParseMachineFixed(items), 1000).value;
              answer.value == total.high * total.low
  {
    var net := ParseMachineFixed(items);
    ParseMachineFixedKnows(items);
    ParseMachineFixedButton(items);
    PressesNeverPanic(fuel, net, 1000);
    answer := PulseCount.Run(fuel, net);
  }
}

=== FILE: part_ranges.dfy ===
/**
 * Sorting whole boxes of parts through the workflows (day19b): a range of
 * `u16` ratings is split by one comparison, a box of four ranges by one
 * rule, a box by a whole workflow into branches, and the branches are
 * refined round after round until every one is accepted. Each point of a box
 * is a day19a part, which ties the two solvers together.
 */
module PartRanges {
  import opened Wrappers
  import opened Workflows
  import opened PartRating

  newtype u16 = x: int | 0 <= x < 0x1_0000

  /** The ratings `start..=end` (`Range` of day19b). */
  datatype Range = Range(start: u16, end: u16)

  predicate Valid(r: Range) {
    r.start <= r.end
  }

  predicate InRange(r: Range, v: int) {
    r.start as int <= v <= r.end as int
  }

  predicate InPart(o: Option<Range>, v: int) {
    o.Some? && InRange(o.value, v)
  }

  /** The number of ratings in a range, counted without `u16` overflow. */
  function Permutation(r: Range): (n: nat)
    requires Valid(r)
    ensures 1 <= n <= 0x1_0000
    ensures InRange(r, r.start as int + n - 1) && !InRange(r, r.start as int + n)
  {
    r.end as int - r.start as int + 1
  }

  function PartSize(o: Option<Range>): nat
    requires o.Some? ==> Valid(o.value)
  {
    if o.Some? then Permutation(o.value) else 0
  }

  /**
   * `Range::split(value, condition)`: the ratings passing the comparison
   * (left) and those failing it (right); a part with no rating is `None`.
   * The `u16` arithmetic `value + 1` and `value - 1` cannot overflow.
   */
  function Split(r: Range, value: u16, condition: Condition): (parts: (Option<Range>, Option<Range>))
    requires Valid(r)
    ensures parts.0.Some? ==> Valid(parts.0.value)
    ensures parts.1.Some? ==> Valid(parts.1.value)
    ensures forall v | InRange(r, v) :: InPart(parts.0, v) <==> Holds(condition, v, value as int)
    ensures forall v | InRange(r, v) :: InPart(parts.1, v) <==> !Holds(condition, v, value as int)
    ensures forall v | InPart(parts.0, v) :: InRange(r, v)
    ensures forall v | InPart(parts.1, v) :: InRange(r, v)
    ensures PartSize(parts.0) + PartSize(parts.1) == Permutation(r)
  {
    match condition
    case Larger =>
      if r.start > value then (Some(r), None)
      else if r.end <= value then (None, Some(r))
      else (Some(Range(value + 1, r.end)), Some(Range(r.start, value)))
    case Lower =>
      if r.end < value then (Some(r), None)
      else if r.start >= value then (None, Some(r))
      else (Some(Range(r.start, value - 1)), Some(Range(value, r.end)))
  }

  /** The six splits of the unit tests of `Range::split`. */
  lemma SplitExamples()
    ensures Split(Range(1, 10), 5, Lower) == (Some(Range(1, 4)), Some(Range(5, 10)))
    ensures Split(Range(1, 10), 5, Larger) == (Some(Range(6, 10)), Some(Range(1, 5)))
    ensures Split(Range(1, 10), 11, Larger) == (None, Some(Range(1, 10)))
    ensures Split(Range(1, 10), 11, Lower) == (Some(Range(1, 10)), None)
    ensures Split(Range(11, 20), 8, Larger) == (Some(Range(11, 20)), None)
    ensures Split(Range(11, 20), 8, Lower) == (None, Some(Range(11, 20)))
  {
  }

  /** A box of parts: one range per category (`Entry` of day19b). */
  datatype Box = Box(x: Range, m: Range, a: Range, s: Range)

  /** `Index<Category>` */
  function Axis(b: Box, c: Category): Range {
    match c
    case X => b.x
    case M => b.m
    case A => b.a
    case S => b.s
  }

  /** `clone[category] = range` through `IndexMut<Category>`: only that axis changes. */
  function WithAxis(b: Box, c: Category, r: Range): (b': Box)
    ensures Axis(b', c) == r
    ensures forall c' | c' != c :: Axis(b', c') == Axis(b, c')
  {
    match c
    case X => b.(x := r)
    case M => b.(m := r)
    case A => b.(a := r)
    case S => b.(s := r)
  }

  predicate BoxValid(b: Box) {
    Valid(b.x) && Valid(b.m) && Valid(b.a) && Valid(b.s)
  }

  /** Part `p` lies in box `b`: every rating within that axis's range. */
  predicate Contains(b: Box, p: Part) {
    && InRange(Axis(b, X), Value(p, X))
    && InRange(Axis(b, M), Value(p, M))
    && InRange(Axis(b, A), Value(p, A))
    && InRange(Axis(b, S), Value(p, S))
  }

  predicate InBox(o: Option<Box>, p: Part) {
    o.Some? && Contains(o.value, p)
  }

  /** `Entry::permutation`: the fold of the four range sizes, in category order, from 1. */
  function EntryPermutation(b: Box): (n: nat)
    requires BoxValid(b)
    ensures n >= 1
  {
    1 * Permutation(b.x) * Permutation(b.m) * Permutation(b.a) * Permutation(b.s)
  }

  /** The unit test of `Entry::permutation`. */
  lemma EntryPermutationExample()
    ensures EntryPermutation(Box(Range(1, 1), Range(1, 5), Range(1, 1), Range(1, 10))) == 50
  {
  }

  function BoxSize(o: Option<Box>): nat
    requires o.Some? ==> BoxValid(o.value)
  {
    if o.Some? then EntryPermutation(o.value) else 0
  }

  /** The size of a box is the size of one axis times the sizes of the other three. */
  function Others(b: Box, c: Category): nat
    requires BoxValid(b)
  {
    var x, m, a, s := Permutation(b.x), Permutation(b.m), Permutation(b.a), Permutation(b.s);
    match c
    case X => Times(Times(m, a), s)
    case M => Times(Times(x, a), s)
    case A => Times(Times(x, m), s)
    case S => Times(Times(x, m), a)
  }

  function Times(p: nat, q: nat): nat {
    p * q
  }

  lemma EntryPermutationByAxis(b: Box, c: Category)
    requires BoxValid(b)
    ensures EntryPermutation(b) == Permutation(Axis(b, c)) * Others(b, c)
  {
    var x, m, a, s := Permutation(b.x), Permutation(b.m), Permutation(b.a), Permutation(b.s);
    match c
    case X =>
    case M => assert x * m * a * s == m * (x * a * s);
    case A => assert x * m * a * s == a * (x * m * s);
    case S => assert x * m * a * s == s * (x * m * a);
  }

  lemma OthersWithAxis(b: Box, c: Category, r: Range)
    requires BoxValid(b) && Valid(r)
    ensures BoxValid(WithAxis(b, c, r)) && Others(WithAxis(b, c, r), c) == Others(b, c)
  {
  }

  /** The rule's value must be a `u16`, as in day19b's `Rule`. */
  predicate RulesFit(rules: seq<Rule>) {
    forall i | 0 <= i < |rules| :: rules[i].value < 0x1_0000
  }

  predicate Fits(wfs: Workflows) {
    forall n | n in wfs :: RulesFit(wfs[n].rules)
  }

  /**
   * `Rule::split`: the box's parts that match the rule and those that do not,
   * each a copy of the box with only the rule's category axis narrowed.
   */
  function RuleSplit(rule: Rule, b: Box): (parts: (Option<Box>, Option<Box>))
    requires BoxValid(b) && rule.value < 0x1_0000
    ensures parts.0.Some? ==> BoxValid(parts.0.value)
    ensures parts.1.Some? ==> BoxValid(parts.1.value)
    ensures parts.0.Some? ==> forall c | c != rule.category :: Axis(parts.0.value, c) == Axis(b, c)
    ensures parts.1.Some? ==> forall c | c != rule.category :: Axis(parts.1.value, c) == Axis(b, c)
  {
    var (l, r) := Split(Axis(b, rule.category), rule.value as u16, rule.condition);
    (if l.Some? then Some(WithAxis(b, rule.category, l.value)) else None,
     if r.Some? then Some(WithAxis(b, rule.category, r.value)) else None)
  }

  /** Narrowing one axis keeps a part exactly when its rating on that axis stays in range. */
  lemma ContainsWithAxis(b: Box, c: Category, r: Range, p: Part)
    ensures Contains(WithAxis(b, c, r), p) <==> InRange(r, Value(p, c)) && ContainsExcept(b, c, p)
    ensures Contains(b, p) <==> InRange(Axis(b, c), Value(p, c)) && ContainsExcept(b, c, p)
  {
  }

  /** Part `p` lies within `b` on every axis except `c`. */
  predicate ContainsExcept(b: Box, c: Category, p: Part) {
    && (c == X || InRange(Axis(b, X), Value(p, X)))
    && (c == M || InRange(Axis(b, M), Value(p, M)))
    && (c == A || InRange(Axis(b, A), Value(p, A)))
    && (c == S || InRange(Axis(b, S), Value(p, S)))
  }

  /**
   * A part of the box lands in the left half exactly when day19a's
   * `Rule::evaluate` matches it, in the right half exactly when it does not;
   * a part outside the box lands in neither.
   */
  lemma RuleSplitPoints(rule: Rule, b: Box, p: Part)
    requires BoxValid(b) && rule.value < 0x1_0000
    ensures InBox(RuleSplit(rule, b).0, p) <==> Contains(b, p) && RuleEvaluate(rule, p).Some?
    ensures InBox(RuleSplit(rule, b).1, p) <==> Contains(b, p) && RuleEvaluate(rule, p).None?
  {
    var c := rule.category;
    var v := Value(p, c);
    var parts := Split(Axis(b, c), rule.value as u16, rule.condition);
    if parts.0.Some? {
      ContainsWithAxis(b, c, parts.0.value, p);
      assert InPart(parts.0, v) ==> InRange(Axis(b, c), v);
    }
    if parts.1.Some? {
      ContainsWithAxis(b, c, parts.1.value, p);
      assert InPart(parts.1, v) ==> InRange(Axis(b, c), v);
    }
    if Contains(b, p) {
      assert InRange(Axis(b, c), v);
    }
  }

  /** The two halves of a rule split have the sizes of the box between them. */
  lemma RuleSplitSizes(rule: Rule, b: Box)
    requires BoxValid(b) && rule.value < 0x1_0000
    ensures BoxSize(RuleSplit(rule, b).0) + BoxSize(RuleSplit(rule, b).1) == EntryPermutation(b)
  {
    var c := rule.category;
    var parts := Split(Axis(b, c), rule.value as u16, rule.condition);
    var o := Others(b, c);
    NarrowedSize(b, c, parts.0);
    NarrowedSize(b, c, parts.1);
    EntryPermutationByAxis(b, c);
    Distribute(PartSize(parts.0), PartSize(parts.1), o);
  }

  /** The box narrowed on axis `c` to the range part `o` has the size of `o` times the other axes. */
  lemma NarrowedSize(b: Box, c: Category, o: Option<Range>)
    requires BoxValid(b) && (o.Some? ==> Valid(o.value))
    ensures var n := if o.Some? then Some(WithAxis(b, c, o.value)) else None;
            (n.Some? ==> BoxValid(n.value)) && BoxSize(n) == PartSize(o) * Others(b, c)
  {
    if o.Some? {
      OthersWithAxis(b, c, o.value);
      EntryPermutationByAxis(WithAxis(b, c, o.value), c);
    }
  }

  lemma Distribute(x: nat, y: nat, o: nat)
    ensures x * o + y * o == (x + y) * o
  {
  }

  /**
   * For a single rating, day19a's `Rule::evaluate` matches exactly when
   * day19b's split of the one-rating range keeps it in the left part.
   */
  lemma SingleRatingSplit(rule: Rule, p: Part)
    requires rule.value < 0x1_0000 && Value(p, rule.category) < 0x1_0000
    ensures var v := Value(p, rule.category) as u16;
            Split(Range(v, v), rule.value as u16, rule.condition).0.Some? <==> RuleEvaluate(rule, p).Some?
  {
    var v := Value(p, rule.category) as u16;
    assert InRange(Range(v, v), v as int);
  }

  /** A box sent on to a destination. */
  datatype Branch = Branch(box: Box, dest: Destination)

  predicate AllValid(bs: seq<Branch>) {
    forall i | 0 <= i < |bs| :: BoxValid(bs[i].box)
  }

  /**
   * The `filter_map` of `create_branches` from the rule list `rules` on, with
   * `last` the part not matched so far: each rule splits it, a matching part
   * is emitted with the rule's destination, and what is left goes to the
   * default; once nothing is left, nothing more is emitted.
   */
  function BranchesFrom(rules: seq<Rule>, last: Option<Box>, default: Destination): (bs: seq<Branch>)
    requires last.Some? ==> BoxValid(last.value)
    requires RulesFit(rules)
    ensures AllValid(bs)
  {
    if last.None? then []
    else if rules == [] then [Branch(last.value, default)]
    else
      var parts := RuleSplit(rules[0], last.value);
      var rest := BranchesFrom(rules[1..], parts.1, default);
      if parts.0.Some? then [Branch(parts.0.value, rules[0].destination)] + rest else rest
  }

  /** `Workflow::create_branches` */
  function CreateBranches(w: Workflow, b: Box): (bs: seq<Branch>)
    requires BoxValid(b) && RulesFit(w.rules)
    ensures AllValid(bs)
  {
    BranchesFrom(w.rules, Some(b), w.default)
  }

  /** How many branches hold part `p`. */
  function Count(bs: seq<Branch>, p: Part): nat {
    if bs == [] then 0 else (if Contains(bs[0].box, p) then 1 else 0) + Count(bs[1..], p)
  }

  /** The destination of the first branch that holds `p`. */
  function Lookup(bs: seq<Branch>, p: Part): Option<Destination> {
    if bs == [] then None else if Contains(bs[0].box, p) then Some(bs[0].dest) else Lookup(bs[1..], p)
  }

  lemma {:induction false} CountAppend(a: seq<Branch>, b: seq<Branch>, p: Part)
    ensures Count(a + b, p) == Count(a, p) + Count(b, p)
    ensures Lookup(a + b, p) == if Lookup(a, p).Some? then Lookup(a, p) else Lookup(b, p)
  {
    if a == [] {
      assert a + b == b;
    } else {
      assert (a + b)[1..] == a[1..] + b;
      CountAppend(a[1..], b, p);
    }
  }

  lemma {:induction false} LookupCount(bs: seq<Branch>, p: Part)
    ensures Lookup(bs, p).Some? <==> Count(bs, p) >= 1
  {
    if bs != [] {
      LookupCount(bs[1..], p);
    }
  }

  /**
   * The branches of `create_branches` partition the box: a part of the box is
   * in exactly one branch, and that branch's destination is where day19a's
   * `Workflow::evaluate` sends the part; a part outside is in none.
   */
  lemma {:induction false} BranchesFromPoints(rules: seq<Rule>, last: Option<Box>, default: Destination, p: Part)
    requires last.Some? ==> BoxValid(last.value)
    requires RulesFit(rules)
    ensures Count(BranchesFrom(rules, last, default), p) == if InBox(last, p) then 1 else 0
    ensures InBox(last, p) ==> Lookup(BranchesFrom(rules, last, default), p) == Some(FirstMatch(rules, default, p))
  {
    if last.Some? && rules != [] {
      var parts := RuleSplit(rules[0], last.value);
      RuleSplitPoints(rules[0], last.value, p);
      BranchesFromPoints(rules[1..], parts.1, default, p);
      var rest := BranchesFrom(rules[1..], parts.1, default);
      if parts.0.Some? {
        CountAppend([Branch(parts.0.value, rules[0].destination)], rest, p);
      }
    }
  }

  /** The branches' sizes add up to the size of the box. */
  lemma {:induction false} BranchesFromSizes(rules: seq<Rule>, last: Option<Box>, default: Destination)
    requires last.Some? ==> BoxValid(last.value)
    requires RulesFit(rules)
    ensures SumSizes(BranchesFrom(rules, last, default)) == BoxSize(last)
  {
    if last.Some? && rules != [] {
      var parts := RuleSplit(rules[0], last.value);
      RuleSplitSizes(rules[0], last.value);
      BranchesFromSizes(rules[1..], parts.1, default);
      var rest := BranchesFrom(rules[1..], parts.1, default);
      if parts.0.Some? {
        SumSizesAppend([Branch(parts.0.value, rules[0].destination)], rest);
      }
    }
  }

  /** `calculate_permutation`: the sizes of the branches' boxes added up. */
  function SumSizes(bs: seq<Branch>): nat
    requires AllValid(bs)
  {
    if bs == [] then 0 else EntryPermutation(bs[0].box) + SumSizes(bs[1..])
  }

  lemma {:induction false} SumSizesAppend(a: seq<Branch>, b: seq<Branch>)
    requires AllValid(a) && AllValid(b)
    ensures AllValid(a + b) && SumSizes(a + b) == SumSizes(a) + SumSizes(b)
  {
    if a == [] {
      assert a + b == b;
    } else {
      assert (a + b)[1..] == a[1..] + b;
      SumSizesAppend(a[1..], b);
    }
  }

  /**
   * One branch in a round of `resolve_branches`: kept if accepted, dropped
   * if rejected, split by the named workflow if a reference; `None` for the
   * `expect` on a workflow that does not exist.
   */
  function Children(wfs: Workflows, b: Branch): (r: Option<seq<Branch>>)
    requires BoxValid(b.box) && Fits(wfs)
    ensures r.Some? ==> AllValid(r.value)
    ensures r.None? <==> b.dest.Ref? && b.dest.name !in wfs
  {
    match b.dest
    case Accepted => Some([b])
    case Rejected => Some([])
    case Ref(name) => if name in wfs then Some(CreateBranches(wfs[name], b.box)) else None
  }

  /** One pass of the `flat_map` over all branches. */
  function Round(wfs: Workflows, bs: seq<Branch>): (r: Option<seq<Branch>>)
    requires AllValid(bs) && Fits(wfs)
    ensures r.Some? ==> AllValid(r.value)
  {
    if bs == [] then Some([])
    else
      var head := Children(wfs, bs[0]);
      var rest := Round(wfs, bs[1..]);
      if head.None? || rest.None? then None
      else
        SumSizesAppend(head.value, rest.value);
        Some(head.value + rest.value)
  }

  /** No branch refers to a workflow: the `found_all` of a round. */
  predicate NoRef(bs: seq<Branch>) {
    forall i | 0 <= i < |bs| :: !bs[i].dest.Ref?
  }

  /** How the exploration ends: the final branches, a missing workflow, or more rounds than `fuel`. */
  datatype Search = Found(branches: seq<Branch>) | UnknownWorkflow | OutOfRounds

  /** The `while !found_all` loop: run rounds until one starts with no reference left. */
  function ResolveRounds(fuel: nat, wfs: Workflows, bs: seq<Branch>): (r: Search)
    requires AllValid(bs) && Fits(wfs)
    ensures r.Found? ==> AllValid(r.branches)
  {
    if fuel == 0 then OutOfRounds
    else
      match Round(wfs, bs)
      case None => UnknownWorkflow
      case Some(next) => if NoRef(bs) then Found(next) else ResolveRounds(fuel - 1, wfs, next)
  }

  /** The starting box: every rating from 1 to 4000. */
  function StartBox(): (b: Box)
    ensures BoxValid(b)
  {
    Box(Range(1, 4000), Range(1, 4000), Range(1, 4000), Range(1, 4000))
  }

  /** `resolve_branches(destination, workflows)`: the start box sent to `destination`. */
  function ResolveBranches(fuel: nat, wfs: Workflows, destination: Destination): (r: Search)
    requires Fits(wfs)
    ensures r.Found? ==> AllValid(r.branches)
  {
    ResolveRounds(fuel, wfs, [Branch(StartBox(), destination)])
  }

  /** A round that starts with no reference keeps exactly the accepted branches. */
  lemma {:induction false} RoundWithoutRefs(wfs: Workflows, bs: seq<Branch>)
    requires AllValid(bs) && Fits(wfs) && NoRef(bs)
    ensures Round(wfs, bs).Some?
    ensures forall i | 0 <= i < |Round(wfs, bs).value| :: Round(wfs, bs).value[i].dest == Accepted
  {
    if bs != [] {
      assert NoRef(bs[1..]) by {
        assert forall i | 1 <= i < |bs| :: bs[1..][i - 1] == bs[i];
      }
      RoundWithoutRefs(wfs, bs[1..]);
    }
  }

  /** Every branch `resolve_branches` returns is accepted. */
  lemma {:induction false} ResolveRoundsAccepted(fuel: nat, wfs: Workflows, bs: seq<Branch>)
    requires AllValid(bs) && Fits(wfs)
    requires ResolveRounds(fuel, wfs, bs).Found?
    ensures forall i | 0 <= i < |ResolveRounds(fuel, wfs, bs).branches| :: ResolveRounds(fuel, wfs, bs).branches[i].dest == Accepted
  {
    var next := Round(wfs, bs).value;
    if NoRef(bs) {
      RoundWithoutRefs(wfs, bs);
    } else {
      ResolveRoundsAccepted(fuel - 1, wfs, next);
    }
  }

  /** A round never adds to the total size: accepted boxes stay, rejected ones go, split ones keep their size. */
  lemma {:induction false} RoundSizes(wfs: Workflows, bs: seq<Branch>)
    requires AllValid(bs) && Fits(wfs)
    requires Round(wfs, bs).Some?
    ensures SumSizes(Round(wfs, bs).value) <= SumSizes(bs)
  {
    if bs != [] {
      var b := bs[0];
      var head := Children(wfs, b).value;
      RoundSizes(wfs, bs[1..]);
      SumSizesAppend(head, Round(wfs, bs[1..]).value);
      if b.dest.Ref? {
        BranchesFromSizes(wfs[b.dest.name].rules, Some(b.box), wfs[b.dest.name].default);
      }
    }
  }

  lemma {:induction false} ResolveRoundsSizes(fuel: nat, wfs: Workflows, bs: seq<Branch>)
    requires AllValid(bs) && Fits(wfs)
    requires ResolveRounds(fuel, wfs, bs).Found?
    ensures SumSizes(ResolveRounds(fuel, wfs, bs).branches) <= SumSizes(bs)
  {
    RoundSizes(wfs, bs);
    if !NoRef(bs) {
      ResolveRoundsSizes(fuel - 1, wfs, Round(wfs, bs).value);
    }
  }

  /** The answer of day19b never exceeds the 4000^4 parts of the start box. */
  lemma ResolveBranchesBound(fuel: nat, wfs: Workflows, destination: Destination)
    requires Fits(wfs)
    requires ResolveBranches(fuel, wfs, destination).Found?
    ensures SumSizes(ResolveBranches(fuel, wfs, destination).branches) <= 256_000_000_000_000
  {
    var start := [Branch(StartBox(), destination)];
    ResolveRoundsSizes(fuel, wfs, start);
    assert SumSizes(start) == 4000 * 4000 * 4000 * 4000;
  }

  /**
   * Where one branch's part goes in a round: a part of an accepted box stays
   * accepted, one of a rejected box is dropped, and one of a box sent to a
   * workflow lands in the branch of that workflow's verdict on the part.
   */
  lemma ChildrenPoints(wfs: Workflows, b: Branch, p: Part)
    requires BoxValid(b.box) && Fits(wfs)
    requires Children(wfs, b).Some?
    ensures Count(Children(wfs, b).value, p) == if Contains(b.box, p) && b.dest != Rejected then 1 else 0
    ensures Contains(b.box, p) && b.dest == Accepted ==> Lookup(Children(wfs, b).value, p) == Some(Accepted)
    ensures Contains(b.box, p) && b.dest.Ref? ==> Lookup(Children(wfs, b).value, p) == Some(Evaluate(wfs[b.dest.name], p))
  {
    if b.dest.Ref? {
      var w := wfs[b.dest.name];
      BranchesFromPoints(w.rules, Some(b.box), w.default, p);
    }
  }

  /** One step of day19a's search on a part, given where its branch points. */
  function StepOf(wfs: Workflows, d: Option<Destination>, p: Part): Option<Destination> {
    match d
    case None => None
    case Some(Accepted) => Some(Accepted)
    case Some(Rejected) => None
    case Some(Ref(name)) => if name in wfs then Some(Evaluate(wfs[name], p)) else None
  }

  /**
   * A round moves each part one step along day19a's search: when at most one
   * branch holds the part before the round, at most one holds it after, and
   * its destination is the next step from the old one.
   */
  lemma {:induction false} RoundPoints(wfs: Workflows, bs: seq<Branch>, p: Part)
    requires AllValid(bs) && Fits(wfs)
    requires Round(wfs, bs).Some?
    requires Count(bs, p) <= 1
    ensures Count(Round(wfs, bs).value, p) <= Count(bs, p)
    ensures Lookup(Round(wfs, bs).value, p) == StepOf(wfs, Lookup(bs, p), p)
  {
    if bs != [] {
      var b := bs[0];
      var head := Children(wfs, b).value;
      var rest := Round(wfs, bs[1..]).value;
      ChildrenPoints(wfs, b, p);
      RoundPoints(wfs, bs[1..], p);
      CountAppend(head, rest, p);
      LookupCount(head, p);
      LookupCount(rest, p);
      LookupCount(bs[1..], p);
    }
  }

  /**
   * After the rounds, the part is in at most one final branch, and it is in
   * one exactly when day19a's search, from where its branch pointed at the
   * start, accepts it with the same fuel.
   */
  lemma {:induction false} ResolveRoundsPoints(fuel: nat, wfs: Workflows, bs: seq<Branch>, p: Part)
    requires AllValid(bs) && Fits(wfs)
    requires ResolveRounds(fuel, wfs, bs).Found?
    requires Count(bs, p) <= 1
    ensures Count(ResolveRounds(fuel, wfs, bs).branches, p) <= 1
    ensures Count(ResolveRounds(fuel, wfs, bs).branches, p) == 1 <==>
            Lookup(bs, p).Some? && Resolve(fuel, wfs, Lookup(bs, p).value, p) == Resolved(true)
  {
    var next := Round(wfs, bs).value;
    RoundPoints(wfs, bs, p);
    LookupCount(next, p);
    if NoRef(bs) {
      if Lookup(bs, p).Some? {
        var _ := LookupDest(bs, p);
      }
    } else {
      ResolveRoundsPoints(fuel - 1, wfs, next, p);
      if Lookup(bs, p).Some? && Lookup(bs, p).value.Ref? {
        var name := Lookup(bs, p).value.name;
        var _ := LookupDest(bs, p);
        RoundKnowsRefs(wfs, bs, p);
      }
    }
  }

  /** The destination found for a part is the destination of some branch. */
  lemma {:induction false} LookupDest(bs: seq<Branch>, p: Part) returns (i: nat)
    requires Lookup(bs, p).Some?
    ensures i < |bs| && bs[i].dest == Lookup(bs, p).value
  {
    if Contains(bs[0].box, p) {
      i := 0;
    } else {
      var j := LookupDest(bs[1..], p);
      i := j + 1;
    }
  }

  /** A round that does not panic found every workflow its branches refer to. */
  lemma {:induction false} RoundKnowsRefs(wfs: Workflows, bs: seq<Branch>, p: Part)
    requires AllValid(bs) && Fits(wfs)
    requires Round(wfs, bs).Some?
    requires Lookup(bs, p).Some? && Lookup(bs, p).value.Ref?
    ensures Lookup(bs, p).value.name in wfs
  {
    if !Contains(bs[0].box, p) {
      RoundKnowsRefs(wfs, bs[1..], p);
    }
  }

  /**
   * The two solvers agree: a part with every rating in 1..=4000 is counted by
   * day19b (in exactly one accepted box) exactly when day19a's
   * `resolve_destination` accepts it with the same fuel; no part is counted
   * twice and no part outside the start box is counted.
   */
  lemma ResolveBranchesAgrees(fuel: nat, wfs: Workflows, destination: Destination, p: Part)
    requires Fits(wfs)
    requires ResolveBranches(fuel, wfs, destination).Found?
    ensures Count(ResolveBranches(fuel, wfs, destination).branches, p) <= 1
    ensures Count(ResolveBranches(fuel, wfs, destination).branches, p) == 1 <==>
            Contains(StartBox(), p) && Resolve(fuel, wfs, destination, p) == Resolved(true)
  {
    var start := [Branch(StartBox(), destination)];
    assert start[1..] == [];
    ResolveRoundsPoints(fuel, wfs, start, p);
  }

  /** `solution` after parsing: explore from "in" and add up the sizes of the accepted boxes. */
  method Solve(fuel: nat, wfs: Workflows) returns (answer: Option<nat>)
    requires Fits(wfs)
    ensures answer.Some? <==> ResolveBranches(fuel, wfs, Ref("in")).Found?
    ensures answer.Some? ==> answer.value == SumSizes(ResolveBranches(fuel, wfs, Ref("in")).branches)
    ensures answer.Some? ==> answer.value <= 256_000_000_000_000
  {
    var r := ResolveBranches(fuel, wfs, Ref("in"));
    if !r.Found? {
      return None;
    }
    ResolveBranchesBound(fuel, wfs, Ref("in"));
    var total := 0;
    var i := 0;
    while i < |r.branches|
      invariant 0 <= i <= |r.branches|
      invariant total + SumSizes(r.branches[i..]) == SumSizes(r.branches)
    {
      assert r.branches[i..][1..] == r.branches[i + 1..];
      total := total + EntryPermutation(r.branches[i].box);
      i := i + 1;
    }
    answer := Some(total);
  }

  /**
   * `Range::permutation` as written computes `end - start + 1` in `u16` and
   * only then widens it: `None` for the arithmetic panic (a range ending
   * before it starts, or one holding all 65536 ratings).
   */
  function PermutationAsWritten(r: Range): (n: Option<nat>)
    ensures n.Some? ==> Valid(r) && n.value == Permutation(r)
  {
    if r.end < r.start then None
    else
      var diff := r.end - r.start;
      if diff as int + 1 >= 0x1_0000 then None else Some((diff + 1) as nat)
  }

  /** The full range 0..=65535 holds 65536 ratings, but the as-written count overflows on it. */
  lemma PermutationAsWrittenOverflows()
    ensures Valid(Range(0, 65535)) && Permutation(Range(0, 65535)) == 65536
    ensures PermutationAsWritten(Range(0, 65535)).None?
  {
  }

  /** On every range that does not start at 0, as in every box the solver builds, both counts agree. */
  lemma PermutationAsWrittenAgrees(r: Range)
    requires Valid(r) && r.start >= 1
    ensures PermutationAsWritten(r) == Some(Permutation(r))
  {
  }

  /** The ratings `lo, lo + 1, ..., hi`, in order. */
  function Ratings(lo: int, hi: int): (vs: seq<int>)
    ensures |vs| == if lo <= hi then hi - lo + 1 else 0
    ensures forall i | 0 <= i < |vs| :: vs[i] == lo + i
    decreases hi - lo
  {
    if lo > hi then [] else [lo] + Ratings(lo + 1, hi)
  }

  /**
   * The corrected count is the number of ratings in the range: the range's
   * ratings listed once each, in order, number exactly `Permutation(r)`.
   */
  lemma PermutationCounts(r: Range)
    requires Valid(r)
    ensures var vs := Ratings(r.start as int, r.end as int);
            && |vs| == Permutation(r)
            && (forall v :: v in vs <==> InRange(r, v))
  {
    var vs := Ratings(r.start as int, r.end as int);
    forall v | InRange(r, v)
      ensures v in vs
    {
      assert vs[v - r.start as int] == v;
    }
  }
}

=== FILE: part_rating.dfy ===
/**
 * Sorting single parts through the workflows (day19a): a rule compares one
 * rating strictly against its threshold, a workflow sends a part to the
 * destination of its first matching rule, and a part is followed from
 * workflow "in" until it is accepted or rejected.
 */
module PartRating {
  import opened Wrappers
  import opened Workflows

  /** A part with its four ratings (the `Entry` of day19a). */
  datatype Part = Part(x: nat, m: nat, a: nat, s: nat)

  /** `Entry::get_value` */
  function Value(p: Part, c: Category): nat {
    match c
    case X => p.x
    case M => p.m
    case A => p.a
    case S => p.s
  }

  /** `Entry::sum` */
  function Sum(p: Part): nat {
    p.x + p.m + p.a + p.s
  }

  /** The sum of a part is the sum of its rating in each category. */
  lemma SumOfValues(p: Part)
    ensures Sum(p) == Value(p, X) + Value(p, M) + Value(p, A) + Value(p, S)
  {
  }

  /** `Rule::evaluate`: the rule's destination when its comparison holds, nothing otherwise. */
  function RuleEvaluate(rule: Rule, p: Part): (r: Option<Destination>)
    ensures r.Some? <==> Holds(rule.condition, Value(p, rule.category), rule.value)
    ensures r.Some? ==> r.value == rule.destination
  {
    var v := Value(p, rule.category);
    if (match rule.condition
        case Larger => v > rule.value
        case Lower => v < rule.value)
    then Some(rule.destination)
    else None
  }

  /** Rule `i` is the first of `rules` that matches `p`. */
  predicate FirstMatching(rules: seq<Rule>, p: Part, i: int) {
    && 0 <= i < |rules|
    && RuleEvaluate(rules[i], p).Some?
    && forall j | 0 <= j < i :: RuleEvaluate(rules[j], p).None?
  }

  /** The `find` over the rules' answers, falling back to `default`. */
  function FirstMatch(rules: seq<Rule>, default: Destination, p: Part): (d: Destination)
    ensures forall i | FirstMatching(rules, p, i) :: d == rules[i].destination
    ensures (forall i | 0 <= i < |rules| :: RuleEvaluate(rules[i], p).None?) ==> d == default
  {
    if rules == [] then default
    else
      match RuleEvaluate(rules[0], p)
      case Some(d) => d
      case None =>
        var rest := FirstMatch(rules[1..], default, p);
        assert forall i | FirstMatching(rules, p, i) :: FirstMatching(rules[1..], p, i - 1);
        rest
  }

  /** `Workflow::evaluate`: the destination of the first matching rule, else the default. */
  function Evaluate(w: Workflow, p: Part): (d: Destination)
    ensures forall i | FirstMatching(w.rules, p, i) :: d == w.rules[i].destination
    ensures (forall i | 0 <= i < |w.rules| :: RuleEvaluate(w.rules[i], p).None?) ==> d == w.default
  {
    FirstMatch(w.rules, w.default, p)
  }

  /**
   * How following a part ends: accepted or rejected, the `expect` on a
   * reference to a workflow that does not exist, or more workflow visits than
   * `fuel` allows (in the source, a loop without end).
   */
  datatype Verdict = Resolved(accepted: bool) | MissingWorkflow | OutOfSteps

  /** `resolve_destination` from `d`, with one unit of fuel per workflow visited. */
  function Resolve(fuel: nat, wfs: Workflows, d: Destination, p: Part): (v: Verdict)
    ensures d == Accepted ==> v == Resolved(true)
    ensures d == Rejected ==> v == Resolved(false)
    ensures d.Ref? && d.name !in wfs ==> v == MissingWorkflow
    ensures v.Resolved? && d.Ref? ==> fuel > 0
  {
    match d
    case Accepted => Resolved(true)
    case Rejected => Resolved(false)
    case Ref(name) =>
      if name !in wfs then MissingWorkflow
      else if fuel == 0 then OutOfSteps
      else Resolve(fuel - 1, wfs, Evaluate(wfs[name], p), p)
  }

  /** More fuel does not change a verdict already reached. */
  lemma {:induction false} ResolveFuelMonotone(fuel: nat, more: nat, wfs: Workflows, d: Destination, p: Part)
    requires fuel <= more
    requires Resolve(fuel, wfs, d, p) != OutOfSteps
    ensures Resolve(more, wfs, d, p) == Resolve(fuel, wfs, d, p)
  {
    if d.Ref? && d.name in wfs && fuel > 0 {
      ResolveFuelMonotone(fuel - 1, more - 1, wfs, Evaluate(wfs[d.name], p), p);
    }
  }

  /** A workflow whose rules all lead back to itself keeps a part forever: no fuel is enough. */
  lemma {:induction false} SelfReferenceNeverResolves(fuel: nat, wfs: Workflows, name: string, p: Part)
    requires name in wfs && wfs[name].default == Ref(name)
    requires forall i | 0 <= i < |wfs[name].rules| :: wfs[name].rules[i].destination == Ref(name)
    ensures Resolve(fuel, wfs, Ref(name), p) == OutOfSteps
  {
    var w := wfs[name];
    if fuel > 0 {
      var d := FirstMatch(w.rules, w.default, p);
      if forall i | 0 <= i < |w.rules| :: RuleEvaluate(w.rules[i], p).None? {
        assert d == Ref(name);
      } else {
        var i :| 0 <= i < |w.rules| && RuleEvaluate(w.rules[i], p).Some?;
        var k := FirstIndex(w.rules, p, i);
        assert d == Ref(name);
      }
      SelfReferenceNeverResolves(fuel - 1, wfs, name, p);
    }
  }

  /** Some rule matches, so a first one does. */
  lemma {:induction false} FirstIndex(rules: seq<Rule>, p: Part, i: nat) returns (k: nat)
    requires i < |rules| && RuleEvaluate(rules[i], p).Some?
    ensures k <= i && FirstMatching(rules, p, k)
  {
    if forall j | 0 <= j < i :: RuleEvaluate(rules[j], p).None? {
      k := i;
    } else {
      var j :| 0 <= j < i && RuleEvaluate(rules[j], p).Some?;
      k := FirstIndex(rules, p, j);
    }
  }

  /**
   * The `while let` loop of `resolve_destination`: follow references until a
   * verdict. The `panic!` arm after the loop is unreachable.
   */
  method ResolveDestination(fuel: nat, wfs: Workflows, start: Destination, p: Part) returns (v: Verdict)
    ensures v == Resolve(fuel, wfs, start, p)
  {
    var d := start;
    var steps := fuel;
    while d.Ref?
      invariant Resolve(steps, wfs, d, p) == Resolve(fuel, wfs, start, p)
      decreases steps
    {
      if d.name !in wfs {
        return MissingWorkflow;
      }
      if steps == 0 {
        return OutOfSteps;
      }
      d := Evaluate(wfs[d.name], p);
      steps := steps - 1;
    }
    match d {
      case Accepted => v := Resolved(true);
      case Rejected => v := Resolved(false);
    }
  }

  /** The ratings of all parts added up, accepted or not. */
  function TotalSum(parts: seq<Part>): nat {
    if parts == [] then 0 else TotalSum(parts[..|parts| - 1]) + Sum(parts[|parts| - 1])
  }

  /** The verdict for each part, following it from `start`. */
  function Verdicts(fuel: nat, wfs: Workflows, start: Destination, parts: seq<Part>): (vs: seq<Verdict>)
    ensures |vs| == |parts|
    ensures forall i | 0 <= i < |parts| :: vs[i] == Resolve(fuel, wfs, start, parts[i])
  {
    seq(|parts|, i requires 0 <= i < |parts| => Resolve(fuel, wfs, start, parts[i]))
  }

  /**
   * The sum of the ratings of the parts whose verdict is acceptance; `None`
   * when some part has no verdict (a panic, or no end).
   */
  function AcceptedTotal(parts: seq<Part>, vs: seq<Verdict>): (r: Option<nat>)
    requires |vs| == |parts|
    ensures r.Some? ==> r.value <= TotalSum(parts)
  {
    if parts == [] then Some(0)
    else
      var n := |parts| - 1;
      var before := AcceptedTotal(parts[..n], vs[..n]);
      if !vs[n].Resolved? || before.None? then None
      else Some(before.value + if vs[n].accepted then Sum(parts[n]) else 0)
  }

  /**
   * The answer of `solution`: every part is followed from `start` (the
   * solver passes "in"), and the sums of the accepted ones are added up.
   */
  function AcceptedSum(fuel: nat, wfs: Workflows, start: Destination, parts: seq<Part>): Option<nat> {
    AcceptedTotal(parts, Verdicts(fuel, wfs, start, parts))
  }

  /** There is an answer exactly when every part reaches a verdict. */
  lemma {:induction false} AcceptedTotalDefined(parts: seq<Part>, vs: seq<Verdict>)
    requires |vs| == |parts|
    ensures AcceptedTotal(parts, vs).Some? <==> forall i | 0 <= i < |vs| :: vs[i].Resolved?
  {
    if parts != [] {
      var n := |parts| - 1;
      AcceptedTotalDefined(parts[..n], vs[..n]);
      assert forall i | 0 <= i < n :: vs[..n][i] == vs[i];
    }
  }

  /**
   * Only accepted parts count: when every part is accepted the answer is the
   * sum of all ratings, when every part is rejected it is 0.
   */
  lemma {:induction false} AcceptedTotalExtremes(parts: seq<Part>, vs: seq<Verdict>)
    requires |vs| == |parts|
    ensures (forall i | 0 <= i < |vs| :: vs[i] == Resolved(true)) ==> AcceptedTotal(parts, vs) == Some(TotalSum(parts))
    ensures (forall i | 0 <= i < |vs| :: vs[i] == Resolved(false)) ==> AcceptedTotal(parts, vs) == Some(0)
  {
    if parts != [] {
      var n := |parts| - 1;
      assert forall i | 0 <= i < n :: vs[..n][i] == vs[i];
      AcceptedTotalExtremes(parts[..n], vs[..n]);
    }
  }

  /** `solution` after parsing: one pass over the parts, in order. */
  method Solution(fuel: nat, wfs: Workflows, start: Destination, parts: seq<Part>) returns (r: Option<nat>)
    ensures r == AcceptedSum(fuel, wfs, start, parts)
  {
    var vs := Verdicts(fuel, wfs, start, parts);
    var total := 0;
    var i := 0;
    while i < |parts|
      invariant 0 <= i <= |parts|
      invariant AcceptedTotal(parts[..i], vs[..i]) == Some(total)
    {
      var v := ResolveDestination(fuel, wfs, start, parts[i]);
      assert parts[..i + 1][..i] == parts[..i];
      assert vs[..i + 1][..i] == vs[..i];
      if !v.Resolved? {
        AcceptedTotalStops(parts, vs, i + 1);
        return None;
      }
      if v.accepted {
        total := total + Sum(parts[i]);
      }
      i := i + 1;
    }
    assert parts[..i] == parts;
    assert vs[..i] == vs;
    r := Some(total);
  }

  /** Once a prefix has no answer, neither has the whole list. */
  lemma {:induction false} AcceptedTotalStops(parts: seq<Part>, vs: seq<Verdict>, k: nat)
    requires |vs| == |parts| && k <= |parts|
    requires AcceptedTotal(parts[..k], vs[..k]).None?
    ensures AcceptedTotal(parts, vs).None?
    decreases |parts| - k
  {
    if k < |parts| {
      assert parts[..k + 1][..k] == parts[..k];
      assert vs[..k + 1][..k] == vs[..k];
      AcceptedTotalStops(parts, vs, k + 1);
    } else {
      assert parts[..k] == parts;
      assert vs[..k] == vs;
    }
  }
}

=== FILE: propagation.dfy ===
/**
 * What the two `forward_signals` functions (day20a/src/main.rs and
 * day20b/src/main.rs) have in common: the phase that delivers one level to
 * every destination of a list, in order, before anything is forwarded; the
 * outcome of a cascade; and, as the reference both are compared with, the
 * trace of every pulse a cascade sends.
 *
 * The source recurses without bound, so every cascade here takes a `fuel`
 * argument: one unit is spent per nested call, and `OutOfFuel` stands for a
 * recursion deeper than the fuel (in the source a stack overflow, or no end).
 */
module Propagation {
  import opened Wrappers
  import opened PulseModules

  /** The result of a cascade: the network it leaves behind and what it computed. */
  datatype Outcome<T> =
    | Finished(net: Network, value: T)
    | Panicked
    | OutOfFuel

  /** A destination whose `update_state` answered, with the level it answered. */
  datatype Responder = Responder(name: Name, level: bool)

  datatype UpdatePhase =
    | Updated(net: Network, responders: seq<Responder>)
    | UpdateFailed

  /** Delivering a pulse from `sender` to `n` panics: a conjunction that does not know `sender`. */
  predicate Rejects(net: Network, n: Name, sender: Name) {
    n in net && net[n].Conjunction? && sender !in net[n].states
  }

  /**
   * The names of `names` that answer a pulse of level `input`, in order: every
   * name with a module, except flip-flops when the pulse is high.
   */
  function Answering(names: seq<Name>, net: Network, input: bool): seq<Name> {
    if names == [] then []
    else
      var rest := Answering(names[1..], net, input);
      if names[0] in net && !(net[names[0]].FlipFlop? && input) then [names[0]] + rest else rest
  }

  function NamesOf(rs: seq<Responder>): seq<Name> {
    if rs == [] then [] else [rs[0].name] + NamesOf(rs[1..])
  }

  lemma AnsweringSameWiring(names: seq<Name>, a: Network, b: Network, input: bool)
    requires SameWiring(a, b)
    ensures Answering(names, a, input) == Answering(names, b, input)
  {
  }

  /**
   * The first half of `forward_signals`: `update_state` on every name of
   * `names` that has a module, in order (names without one are skipped), and
   * the list of those that answered.
   */
  function UpdateAll(names: seq<Name>, net: Network, input: bool, sender: Name): (r: UpdatePhase)
    ensures r.Updated? ==> r.net.Keys == net.Keys
    ensures r.Updated? ==> forall i | 0 <= i < |r.responders| :: r.responders[i].name in net
  {
    if names == [] then Updated(net, [])
    else if names[0] !in net then UpdateAll(names[1..], net, input, sender)
    else
      var d := UpdateState(net[names[0]], input, sender);
      if d.UnregisteredSender? then UpdateFailed
      else
        var r := UpdateAll(names[1..], net[names[0] := d.next], input, sender);
        if r.UpdateFailed? || d.output.None? then r
        else Updated(r.net, [Responder(names[0], d.output.value)] + r.responders)
  }

  /**
   * The update phase panics exactly when some destination is a conjunction
   * that does not know the sender; otherwise the responders are, in order, the
   * destinations with a module except flip-flops receiving a high pulse.
   */
  lemma {:induction false} UpdateAllSpec(names: seq<Name>, net: Network, input: bool, sender: Name)
    ensures var r := UpdateAll(names, net, input, sender);
      && (r.UpdateFailed? <==> exists i | 0 <= i < |names| :: Rejects(net, names[i], sender))
      && (r.Updated? ==> NamesOf(r.responders) == Answering(names, net, input))
  {
    if names != [] {
      var n := names[0];
      assert forall i | 1 <= i < |names| :: names[i] == names[1..][i - 1];
      if n !in net {
        UpdateAllSpec(names[1..], net, input, sender);
      } else {
        var d := UpdateState(net[n], input, sender);
        UpdateStateSpec(net[n], input, sender);
        if d.Delivered? {
          var net1 := net[n := d.next];
          UpdateAllSpec(names[1..], net1, input, sender);
          AnsweringSameWiring(names[1..], net, net1, input);
          assert forall k :: Rejects(net1, k, sender) == Rejects(net, k, sender);
          var r := UpdateAll(names[1..], net1, input, sender);
          if r.Updated? && d.output.Some? {
            assert ([Responder(n, d.output.value)] + r.responders)[1..] == r.responders;
          }
        }
      }
    }
  }

  /** The update phase changes only the levels modules remember. */
  lemma {:induction false} UpdateAllKeepsWiring(names: seq<Name>, net: Network, input: bool, sender: Name)
    requires UpdateAll(names, net, input, sender).Updated?
    ensures SameWiring(net, UpdateAll(names, net, input, sender).net)
  {
    if names != [] {
      if names[0] !in net {
        UpdateAllKeepsWiring(names[1..], net, input, sender);
      } else {
        var d := UpdateState(net[names[0]], input, sender);
        var net1 := net[names[0] := d.next];
        UpdateAllKeepsWiring(names[1..], net1, input, sender);
        SameWiringTransitive(net, net1, UpdateAll(names, net, input, sender).net);
      }
    }
  }

  /** One pulse of a cascade: who sent it, to whom, and whether it was high. */
  datatype Pulse = Pulse(from: Name, to: Name, high: bool)

  /** The pulses of one call: `sender` sends `input` to each name of `sendTo`, in order. */
  function Sent(sender: Name, sendTo: seq<Name>, input: bool): (ps: seq<Pulse>)
    ensures |ps| == |sendTo|
    ensures forall i | 0 <= i < |ps| :: ps[i] == Pulse(sender, sendTo[i], input)
  {
    if sendTo == [] then [] else [Pulse(sender, sendTo[0], input)] + Sent(sender, sendTo[1..], input)
  }

  /** A pulse that a module of `net` sends along one of its own edges. */
  predicate AlongEdge(net: Network, p: Pulse) {
    p.from in net && p.to in net[p.from].destinations
  }

  /** `o` with the pulses `ps` sent before it. */
  function Prefixed(ps: seq<Pulse>, o: Outcome<seq<Pulse>>): Outcome<seq<Pulse>> {
    if o.Finished? then Finished(o.net, ps + o.value) else o
  }

  /**
   * The reference semantics of a cascade: the list of every pulse sent, in the
   * order the recursion of `forward_signals` sends them.
   */
  function Cascade(fuel: nat, sendTo: seq<Name>, net: Network, input: bool, sender: Name): (r: Outcome<seq<Pulse>>)
    decreases fuel, 0
    ensures r.Finished? ==> r.net.Keys == net.Keys
  {
    if fuel == 0 then OutOfFuel
    else
      var u := UpdateAll(sendTo, net, input, sender);
      if u.UpdateFailed? then Panicked
      else Prefixed(Sent(sender, sendTo, input), CascadeEach(fuel - 1, u.responders, u.net))
  }

  /** The cascades of the responders, one after the other, each on the network the previous left. */
  function CascadeEach(fuel: nat, rs: seq<Responder>, net: Network): (r: Outcome<seq<Pulse>>)
    requires forall i | 0 <= i < |rs| :: rs[i].name in net
    decreases fuel, 1, |rs|
    ensures r.Finished? ==> r.net.Keys == net.Keys
  {
    if rs == [] then Finished(net, [])
    else
      var c := Cascade(fuel, net[rs[0].name].destinations, net, rs[0].level, rs[0].name);
      if !c.Finished? then c
      else
        var r := Prefixed(c.value, CascadeEach(fuel, rs[1..], c.net));
        r
  }

  /** More fuel never changes a cascade that already finished. */
  lemma {:induction false} CascadeFuelMonotone(fuel: nat, more: nat, sendTo: seq<Name>, net: Network, input: bool, sender: Name)
    requires fuel <= more
    requires Cascade(fuel, sendTo, net, input, sender).Finished?
    ensures Cascade(more, sendTo, net, input, sender) == Cascade(fuel, sendTo, net, input, sender)
    decreases fuel, 0
  {
    var u := UpdateAll(sendTo, net, input, sender);
    CascadeEachFuelMonotone(fuel - 1, more - 1, u.responders, u.net);
  }

  lemma {:induction false} CascadeEachFuelMonotone(fuel: nat, more: nat, rs: seq<Responder>, net: Network)
    requires fuel <= more
    requires forall i | 0 <= i < |rs| :: rs[i].name in net
    requires CascadeEach(fuel, rs, net).Finished?
    ensures CascadeEach(more, rs, net) == CascadeEach(fuel, rs, net)
    decreases fuel, 1, |rs|
  {
    if rs != [] {
      var c := Cascade(fuel, net[rs[0].name].destinations, net, rs[0].level, rs[0].name);
      CascadeFuelMonotone(fuel, more, net[rs[0].name].destinations, net, rs[0].level, rs[0].name);
      CascadeEachFuelMonotone(fuel, more, rs[1..], c.net);
    }
  }

  /**
   * No cascade changes a module's name, kind or destinations, nor the senders
   * a conjunction knows.
   */
  lemma {:induction false} CascadeKeepsWiring(fuel: nat, sendTo: seq<Name>, net: Network, input: bool, sender: Name)
    requires Cascade(fuel, sendTo, net, input, sender).Finished?
    ensures SameWiring(net, Cascade(fuel, sendTo, net, input, sender).net)
    decreases fuel, 0
  {
    var u := UpdateAll(sendTo, net, input, sender);
    UpdateAllKeepsWiring(sendTo, net, input, sender);
    CascadeEachKeepsWiring(fuel - 1, u.responders, u.net);
    SameWiringTransitive(net, u.net, Cascade(fuel, sendTo, net, input, sender).net);
  }

  lemma {:induction false} CascadeEachKeepsWiring(fuel: nat, rs: seq<Responder>, net: Network)
    requires forall i | 0 <= i < |rs| :: rs[i].name in net
    requires CascadeEach(fuel, rs, net).Finished?
    ensures SameWiring(net, CascadeEach(fuel, rs, net).net)
    decreases fuel, 1, |rs|
  {
    if rs != [] {
      var c := Cascade(fuel, net[rs[0].name].destinations, net, rs[0].level, rs[0].name);
      CascadeKeepsWiring(fuel, net[rs[0].name].destinations, net, rs[0].level, rs[0].name);
      CascadeEachKeepsWiring(fuel, rs[1..], c.net);
      SameWiringTransitive(net, c.net, CascadeEach(fuel, rs, net).net);
    }
  }

  lemma AlongEdgeSameWiring(a: Network, b: Network, p: Pulse)
    requires SameWiring(a, b)
    ensures AlongEdge(a, p) == AlongEdge(b, p)
  {
  }

  /**
   * The trace of a cascade starts with the pulses of the call itself, `sender`
   * to each name of `sendTo` in order; every later pulse is sent by a module of
   * the network along one of its own edges.
   */
  lemma {:induction false} CascadeTraceShape(fuel: nat, sendTo: seq<Name>, net: Network, input: bool, sender: Name)
    requires Cascade(fuel, sendTo, net, input, sender).Finished?
    ensures var ps := Cascade(fuel, sendTo, net, input, sender).value;
      && |ps| >= |sendTo|
      && ps[..|sendTo|] == Sent(sender, sendTo, input)
      && forall i | |sendTo| <= i < |ps| :: AlongEdge(net, ps[i])
    decreases fuel, 0
  {
    var u := UpdateAll(sendTo, net, input, sender);
    UpdateAllKeepsWiring(sendTo, net, input, sender);
    var e := CascadeEach(fuel - 1, u.responders, u.net);
    CascadeEachTraceShape(fuel - 1, u.responders, u.net);
    var ps := Sent(sender, sendTo, input) + e.value;
    assert ps[..|sendTo|] == Sent(sender, sendTo, input);
    forall i | |sendTo| <= i < |ps|
      ensures AlongEdge(net, ps[i])
    {
      assert ps[i] == e.value[i - |sendTo|];
      AlongEdgeSameWiring(net, u.net, ps[i]);
    }
  }

  lemma {:induction false} CascadeEachTraceShape(fuel: nat, rs: seq<Responder>, net: Network)
    requires forall i | 0 <= i < |rs| :: rs[i].name in net
    requires CascadeEach(fuel, rs, net).Finished?
    ensures forall i | 0 <= i < |CascadeEach(fuel, rs, net).value| :: AlongEdge(net, CascadeEach(fuel, rs, net).value[i])
    decreases fuel, 1, |rs|
  {
    if rs != [] {
      var head := rs[0];
      var dests := net[head.name].destinations;
      var c := Cascade(fuel, dests, net, head.level, head.name);
      CascadeTraceShape(fuel, dests, net, head.level, head.name);
      CascadeKeepsWiring(fuel, dests, net, head.level, head.name);
      var e := CascadeEach(fuel, rs[1..], c.net);
      CascadeEachTraceShape(fuel, rs[1..], c.net);
      var ps := c.value + e.value;
      forall i | 0 <= i < |ps|
        ensures AlongEdge(net, ps[i])
      {
        if i < |dests| {
          assert ps[i] == c.value[..|dests|][i];
        } else if i < |c.value| {
          assert ps[i] == c.value[i];
        } else {
          assert ps[i] == e.value[i - |c.value|];
          AlongEdgeSameWiring(net, c.net, ps[i]);
        }
      }
    }
  }
}

=== FILE: pulse_count.dfy ===
/**
 * The pulse-counting solver (day20a/src/main.rs): `forward_signals` tallies
 * the high and low pulses of a depth-first cascade, and `run` presses the
 * button 1000 times on one persisting network.
 */
module PulseCount {
  import opened Wrappers
  import opened PulseModules
  import opened Propagation

  /** Pulses counted by level. */
  datatype Tally = Tally(high: nat, low: nat) {
    function Plus(other: Tally): Tally {
      Tally(high + other.high, low + other.low)
    }
  }

  function Highs(ps: seq<Pulse>): nat {
    if ps == [] then 0 else (if ps[0].high then 1 else 0) + Highs(ps[1..])
  }

  function Lows(ps: seq<Pulse>): nat {
    if ps == [] then 0 else (if ps[0].high then 0 else 1) + Lows(ps[1..])
  }

  function TallyOf(ps: seq<Pulse>): Tally {
    Tally(Highs(ps), Lows(ps))
  }

  lemma {:induction false} TallyOfAppend(a: seq<Pulse>, b: seq<Pulse>)
    ensures TallyOf(a + b) == TallyOf(a).Plus(TallyOf(b))
  {
    if a != [] {
      assert (a + b)[1..] == a[1..] + b;
      TallyOfAppend(a[1..], b);
    } else {
      assert a + b == b;
    }
  }

  lemma {:induction false} TallyOfSent(sender: Name, sendTo: seq<Name>, input: bool)
    ensures TallyOf(Sent(sender, sendTo, input)) == if input then Tally(|sendTo|, 0) else Tally(0, |sendTo|)
  {
    if sendTo != [] {
      TallyOfSent(sender, sendTo[1..], input);
    }
  }

  /**
   * `forward_signals(send_to, modules, input, sender)`: count one pulse of
   * level `input` per name of `sendTo` (modules or not), update every
   * destination that has a module, then let each responder in turn forward its
   * answer to its own destinations, and add up the tallies.
   */
  function ForwardSignals(fuel: nat, sendTo: seq<Name>, net: Network, input: bool, sender: Name): (r: Outcome<Tally>)
    decreases fuel, 0
    ensures r.Finished? ==> r.net.Keys == net.Keys
    ensures r.Finished? ==> r.value.high >= (if input then |sendTo| else 0)
    ensures r.Finished? ==> r.value.low >= (if input then 0 else |sendTo|)
  {
    if fuel == 0 then OutOfFuel
    else
      var count := if input then Tally(|sendTo|, 0) else Tally(0, |sendTo|);
      var u := UpdateAll(sendTo, net, input, sender);
      if u.UpdateFailed? then Panicked
      else ForwardEach(fuel - 1, u.responders, u.net, count)
  }

  /** The `for_each` over the responders: each one's cascade runs to the end before the next starts. */
  function ForwardEach(fuel: nat, rs: seq<Responder>, net: Network, count: Tally): (r: Outcome<Tally>)
    requires forall i | 0 <= i < |rs| :: rs[i].name in net
    decreases fuel, 1, |rs|
    ensures r.Finished? ==> r.net.Keys == net.Keys
    ensures r.Finished? ==> r.value.high >= count.high && r.value.low >= count.low
  {
    if rs == [] then Finished(net, count)
    else
      var c := ForwardSignals(fuel, net[rs[0].name].destinations, net, rs[0].level, rs[0].name);
      if !c.Finished? then c
      else ForwardEach(fuel, rs[1..], c.net, count.Plus(c.value))
  }

  /**
   * `o` and the cascade trace `c` end the same way, and when they finish they
   * leave the same network and `o` counts `base` plus the pulses of `c` by level.
   */
  predicate CountsTraceFrom(o: Outcome<Tally>, c: Outcome<seq<Pulse>>, base: Tally) {
    && (o.Finished? <==> c.Finished?)
    && (o.Panicked? <==> c.Panicked?)
    && (o.Finished? ==> o.net == c.net && o.value == base.Plus(TallyOf(c.value)))
  }

  /** `CountsTraceFrom` with nothing counted beforehand. */
  predicate CountsTrace(o: Outcome<Tally>, c: Outcome<seq<Pulse>>) {
    && (o.Finished? <==> c.Finished?)
    && (o.Panicked? <==> c.Panicked?)
    && (o.Finished? ==> o.net == c.net && o.value == TallyOf(c.value))
  }

  /**
   * The tally is exactly the number of high and of low pulses in the trace of
   * the cascade, and the network left behind is the same.
   */
  lemma {:induction false} ForwardSignalsCountsTrace(fuel: nat, sendTo: seq<Name>, net: Network, input: bool, sender: Name)
    ensures CountsTrace(ForwardSignals(fuel, sendTo, net, input, sender), Cascade(fuel, sendTo, net, input, sender))
    decreases fuel, 0
  {
    if fuel > 0 {
      var count := if input then Tally(|sendTo|, 0) else Tally(0, |sendTo|);
      var u := UpdateAll(sendTo, net, input, sender);
      if u.Updated? {
        ForwardEachCountsTrace(fuel - 1, u.responders, u.net, count);
        var e := CascadeEach(fuel - 1, u.responders, u.net);
        if e.Finished? {
          TallyOfAppend(Sent(sender, sendTo, input), e.value);
          TallyOfSent(sender, sendTo, input);
        }
      }
    }
  }

  lemma {:induction false} ForwardEachCountsTrace(fuel: nat, rs: seq<Responder>, net: Network, count: Tally)
    requires forall i | 0 <= i < |rs| :: rs[i].name in net
    ensures CountsTraceFrom(ForwardEach(fuel, rs, net, count), CascadeEach(fuel, rs, net), count)
    decreases fuel, 1, |rs|
  {
    if rs != [] {
      var dests := net[rs[0].name].destinations;
      ForwardSignalsCountsTrace(fuel, dests, net, rs[0].level, rs[0].name);
      var c := Cascade(fuel, dests, net, rs[0].level, rs[0].name);
      if c.Finished? {
        var t := TallyOf(c.value);
        ForwardEachCountsTrace(fuel, rs[1..], c.net, count.Plus(t));
        var e := CascadeEach(fuel, rs[1..], c.net);
        if e.Finished? {
          BothCountedFinishes(fuel, rs, net, count);
          BothCountedNet(fuel, rs, net, count);
          BothCountedTally(fuel, rs, net, count);
        }
      }
    }
  }

  /**
   * The case of `ForwardEachCountsTrace` where the first responder's cascade
   * and the cascades of the rest all finish, each already known to be counted.
   */
  predicate BothCounted(fuel: nat, rs: seq<Responder>, net: Network, count: Tally)
    requires rs != []
    requires forall i | 0 <= i < |rs| :: rs[i].name in net
  {
    var dests := net[rs[0].name].destinations;
    var c := Cascade(fuel, dests, net, rs[0].level, rs[0].name);
    && c.Finished?
    && ForwardSignals(fuel, dests, net, rs[0].level, rs[0].name) == Finished(c.net, TallyOf(c.value))
    && var e := CascadeEach(fuel, rs[1..], c.net);
    && e.Finished?
    && ForwardEach(fuel, rs[1..], c.net, count.Plus(TallyOf(c.value))) == Finished(e.net, count.Plus(TallyOf(c.value)).Plus(TallyOf(e.value)))
  }

  lemma BothCountedFinishes(fuel: nat, rs: seq<Responder>, net: Network, count: Tally)
    requires rs != []
    requires forall i | 0 <= i < |rs| :: rs[i].name in net
    requires BothCounted(fuel, rs, net, count)
    ensures ForwardEach(fuel, rs, net, count).Finished? && CascadeEach(fuel, rs, net).Finished?
  {
  }

  lemma BothCountedNet(fuel: nat, rs: seq<Responder>, net: Network, count: Tally)
    requires rs != []
    requires forall i | 0 <= i < |rs| :: rs[i].name in net
    requires BothCounted(fuel, rs, net, count)
    ensures ForwardEach(fuel, rs, net, count).net == CascadeEach(fuel, rs, net).net
  {
  }

  lemma BothCountedTally(fuel: nat, rs: seq<Responder>, net: Network, count: Tally)
    requires rs != []
    requires forall i | 0 <= i < |rs| :: rs[i].name in net
    requires BothCounted(fuel, rs, net, count)
    ensures ForwardEach(fuel, rs, net, count).value == count.Plus(TallyOf(CascadeEach(fuel, rs, net).value))
  {
    var dests := net[rs[0].name].destinations;
    var c := Cascade(fuel, dests, net, rs[0].level, rs[0].name);
    var e := CascadeEach(fuel, rs[1..], c.net);
    BothCountedSum(fuel, rs, net, count);
    CascadeEachJoins(fuel, rs, net);
    TallyOfAppend(c.value, e.value);
    PlusAssociative(count, TallyOf(c.value), TallyOf(e.value));
  }

  lemma PlusAssociative(a: Tally, b: Tally, c: Tally)
    ensures a.Plus(b).Plus(c) == a.Plus(b.Plus(c))
  {
  }

  /** Under `BothCounted`, the tally of the whole list is the two tallies added to `count`. */
  lemma BothCountedSum(fuel: nat, rs: seq<Responder>, net: Network, count: Tally)
    requires rs != []
    requires forall i | 0 <= i < |rs| :: rs[i].name in net
    requires BothCounted(fuel, rs, net, count)
    ensures var c := Cascade(fuel, net[rs[0].name].destinations, net, rs[0].level, rs[0].name);
            ForwardEach(fuel, rs, net, count).value
              == count.Plus(TallyOf(c.value)).Plus(TallyOf(CascadeEach(fuel, rs[1..], c.net).value))
  {
  }

  /** A list of cascades that finishes sends the first one's pulses, then the rest's. */
  lemma CascadeEachJoins(fuel: nat, rs: seq<Responder>, net: Network)
    requires rs != []
    requires forall i | 0 <= i < |rs| :: rs[i].name in net
    requires CascadeEach(fuel, rs, net).Finished?
    ensures var c := Cascade(fuel, net[rs[0].name].destinations, net, rs[0].level, rs[0].name);
            && c.Finished?
            && CascadeEach(fuel, rs, net).value == c.value + CascadeEach(fuel, rs[1..], c.net).value
  {
  }

  /** One button press: a low pulse from "broadcaster" to "broadcaster". */
  function Press(fuel: nat, net: Network): (r: Outcome<Tally>)
    ensures r.Finished? ==> r.net.Keys == net.Keys && r.value.low >= 1
  {
    ForwardSignals(fuel, ["broadcaster"], net, false, "broadcaster")
  }

  /** A finished cascade is the pulses sent, followed by the finished cascades of the answering modules. */
  lemma CascadeSplits(fuel: nat, sendTo: seq<Name>, net: Network, input: bool, sender: Name)
    requires Cascade(fuel, sendTo, net, input, sender).Finished?
    ensures fuel >= 1
    ensures var u := UpdateAll(sendTo, net, input, sender);
            && u.Updated?
            && CascadeEach(fuel - 1, u.responders, u.net).Finished?
            && Cascade(fuel, sendTo, net, input, sender).value
               == Sent(sender, sendTo, input) + CascadeEach(fuel - 1, u.responders, u.net).value
  {
  }

  /**
   * The press pulse itself is counted once: a finished press counts exactly
   * one low pulse, the button's, on top of the pulses of the answering
   * modules' cascades.
   */
  lemma PressCountsButton(fuel: nat, net: Network)
    requires Press(fuel, net).Finished?
    ensures fuel >= 1
    ensures var u := UpdateAll(["broadcaster"], net, false, "broadcaster");
            && u.Updated?
            && CascadeEach(fuel - 1, u.responders, u.net).Finished?
            && Press(fuel, net).value == Tally(0, 1).Plus(TallyOf(CascadeEach(fuel - 1, u.responders, u.net).value))
  {
    var sendTo := ["broadcaster"];
    ForwardSignalsCountsTrace(fuel, sendTo, net, false, "broadcaster");
    CascadeSplits(fuel, sendTo, net, false, "broadcaster");
    var u := UpdateAll(sendTo, net, false, "broadcaster");
    var sent := Sent("broadcaster", sendTo, false);
    var e := CascadeEach(fuel - 1, u.responders, u.net);
    TallyOfAppend(sent, e.value);
    TallyOfSent("broadcaster", sendTo, false);
  }

  /** `k` presses in a row on the persisting network, with their tallies added up. */
  function Presses(fuel: nat, net: Network, k: nat): (r: Outcome<Tally>)
    ensures r.Finished? ==> r.value.low >= k
  {
    if k == 0 then Finished(net, Tally(0, 0))
    else
      match Presses(fuel, net, k - 1)
      case Finished(net1, total) =>
        (match Press(fuel, net1)
         case Finished(net2, t) => Finished(net2, total.Plus(t))
         case Panicked => Panicked
         case OutOfFuel => OutOfFuel)
      case Panicked => Panicked
      case OutOfFuel => OutOfFuel
  }

  /**
   * `run`: 1000 presses on the same network; the answer is total high times
   * total low. `None` when a press panics or runs out of fuel.
   */
  method Run(fuel: nat, net: Network) returns (answer: Option<nat>)
    ensures Presses(fuel, net, 1000).Finished? <==> answer.Some?
    ensures answer.Some? ==>
              var total := Presses(fuel, net, 1000).value;
              answer.value == total.high * total.low && total.low >= 1000
  {
    var current := net;
    var sum := Tally(0, 0);
    var i := 0;
    while i < 1000
      invariant 0 <= i <= 1000
      invariant Presses(fuel, net, i) == Finished(current, sum)
    {
      var result := Press(fuel, current);
      if !result.Finished? {
        assert forall k: nat | k >= i + 1 :: !Presses(fuel, net, k).Finished? by {
          forall k: nat | k >= i + 1
            ensures !Presses(fuel, net, k).Finished?
          {
            PressesStopAfterFailure(fuel, net, i, k);
          }
        }
        return None;
      }
      current := result.net;
      sum := sum.Plus(result.value);
      i := i + 1;
    }
    return Some(sum.high * sum.low);
  }

  lemma {:induction false} PressesStopAfterFailure(fuel: nat, net: Network, i: nat, k: nat)
    requires Presses(fuel, net, i).Finished?
    requires !Press(fuel, Presses(fuel, net, i).net).Finished?
    requires k > i
    ensures !Presses(fuel, net, k).Finished?
  {
    if k > i + 1 {
      PressesStopAfterFailure(fuel, net, i, k - 1);
    }
  }
}

=== FILE: pulse_modules.dfy ===
/**
 * The three kinds of pulse module of the network solver (day20b/src/types.rs):
 * a Broadcaster, a FlipFlop with an `on` bit, and a Conjunction that remembers
 * the last level received from each registered sender. A pulse level is a
 * `bool`: `true` is a high pulse, `false` a low one.
 */
module PulseModules {
  import opened Wrappers

  type Name = string

  datatype Module =
    | Broadcaster(destinations: seq<Name>)
    | FlipFlop(input: bool, on: bool, destinations: seq<Name>)
    | Conjunction(states: map<Name, bool>, destinations: seq<Name>)

  /** The network: every declared module under its name. */
  type Network = map<Name, Module>

  /**
   * What delivering one pulse does: either the module's next state and the
   * level it answers with (`None` when it stays silent), or the panic of the
   * `unwrap` on a Conjunction that does not know the sender.
   */
  datatype Delivery =
    | Delivered(next: Module, output: Option<bool>)
    | UnregisteredSender

  predicate SameKind(a: Module, b: Module) {
    && (a.Broadcaster? <==> b.Broadcaster?)
    && (a.FlipFlop? <==> b.FlipFlop?)
    && (a.Conjunction? <==> b.Conjunction?)
  }

  /**
   * Same names, and every module keeps its kind, its destination list and,
   * for a conjunction, the set of senders it knows. Delivering pulses changes
   * only the levels a module remembers.
   */
  predicate SameWiring(a: Network, b: Network) {
    && a.Keys == b.Keys
    && forall n | n in a ::
         && SameKind(a[n], b[n])
         && a[n].destinations == b[n].destinations
         && (a[n].Conjunction? ==> a[n].states.Keys == b[n].states.Keys)
  }

  lemma SameWiringTransitive(a: Network, b: Network, c: Network)
    requires SameWiring(a, b) && SameWiring(b, c)
    ensures SameWiring(a, c)
  {
  }

  /** `Broadcaster::from` */
  function NewBroadcaster(destinations: seq<Name>): (m: Module)
    ensures m.Broadcaster? && m.destinations == destinations
  {
    Broadcaster(destinations)
  }

  /** `FlipFlop::from`: a new flip-flop is off and remembers a low input. */
  function NewFlipFlop(destinations: seq<Name>): (m: Module)
    ensures m.FlipFlop? && !m.on && !m.input && m.destinations == destinations
  {
    FlipFlop(false, false, destinations)
  }

  /** `Conjunction::from`: a new conjunction knows no sender yet. */
  function NewConjunction(destinations: seq<Name>): (m: Module)
    ensures m.Conjunction? && m.states == map[] && m.destinations == destinations
  {
    Conjunction(map[], destinations)
  }

  /** Every recorded input of a conjunction is high (vacuously so for none). */
  predicate AllHigh(states: map<Name, bool>) {
    forall k | k in states :: states[k]
  }

  /** `Module::update_state(input, sender)` for the three kinds. */
  function UpdateState(m: Module, input: bool, sender: Name): (d: Delivery)
    ensures d.Delivered? ==> SameKind(d.next, m) && d.next.destinations == m.destinations
    ensures d.Delivered? && m.Conjunction? ==> d.next.states.Keys == m.states.Keys
  {
    match m
    case Broadcaster(_) => Delivered(m, Some(false))
    case FlipFlop(_, on, dests) =>
      var on' := if !input then !on else on;
      Delivered(FlipFlop(input, on', dests), if !input then Some(on') else None)
    case Conjunction(states, dests) =>
      if sender !in states then UnregisteredSender
      else
        var states' := states[sender := input];
        Delivered(Conjunction(states', dests), Some(!AllHigh(states')))
  }

  /**
   * What each kind does with a pulse: a broadcaster answers low and keeps its
   * state; a flip-flop records the level, ignores a high pulse and toggles and
   * answers with its new state on a low one; a conjunction panics on an unknown
   * sender, and otherwise overwrites only that sender's entry and answers low
   * exactly when every recorded input is now high.
   */
  lemma UpdateStateSpec(m: Module, input: bool, sender: Name)
    ensures var d := UpdateState(m, input, sender);
      && (d.UnregisteredSender? <==> m.Conjunction? && sender !in m.states)
      && (m.Broadcaster? ==> d == Delivered(m, Some(false)))
      && (m.FlipFlop? ==>
            && d.Delivered?
            && d.next.input == input
            && (input ==> d.next.on == m.on && d.output == None)
            && (!input ==> d.next.on == !m.on && d.output == Some(d.next.on)))
      && (m.Conjunction? && sender in m.states ==>
            && d.Delivered?
            && d.next.states[sender] == input
            && (forall k | k in m.states && k != sender :: d.next.states[k] == m.states[k])
            && d.output.Some?
            && (d.output.value == false <==> AllHigh(d.next.states)))
  {
  }

  /** `Module::register_input(input)`: only a conjunction records the sender, as low. */
  function RegisterInput(m: Module, input: Name): (r: Module)
    ensures SameKind(r, m) && r.destinations == m.destinations
    ensures !m.Conjunction? ==> r == m
    ensures m.Conjunction? ==>
              && r.states.Keys == m.states.Keys + {input}
              && r.states[input] == false
              && forall k | k in m.states && k != input :: r.states[k] == m.states[k]
  {
    match m
    case Conjunction(states, dests) => Conjunction(states[input := false], dests)
    case _ => m
  }

  /** Registering the same sender twice is the same as registering it once. */
  lemma RegisterInputIdempotent(m: Module, input: Name)
    ensures RegisterInput(RegisterInput(m, input), input) == RegisterInput(m, input)
  {
  }

  /** From off, two low pulses make a flip-flop emit high then low and end off again. */
  lemma FlipFlopTwoLows(dests: seq<Name>, s1: Name, s2: Name)
    ensures
      var d1 := UpdateState(NewFlipFlop(dests), false, s1);
      && d1.Delivered? && d1.output == Some(true)
      && var d2 := UpdateState(d1.next, false, s2);
         && d2.Delivered? && d2.output == Some(false)
         && d2.next == NewFlipFlop(dests)
  {
  }

  /**
   * A conjunction answers low exactly when, after recording this pulse, all its
   * recorded inputs are high; so it answers low only to a high pulse.
   */
  lemma ConjunctionLowNeedsHighInput(m: Module, input: bool, sender: Name)
    requires m.Conjunction? && sender in m.states
    ensures UpdateState(m, input, sender).output == Some(false) ==> input
  {
    var d := UpdateState(m, input, sender);
    if d.output == Some(false) {
      assert d.next.states[sender];
    }
  }
}

=== FILE: pulse_rx.dfy ===
/**
 * The rx-watching solver (day20b/src/main.rs): `forward_signals` reports
 * whether a low pulse was sent to "rx" anywhere in the cascade, and `run`
 * counts the presses made before the first press that does so.
 */
module PulseRx {
  import opened Wrappers
  import opened PulseModules
  import opened Propagation
  import PulseCount

  /** The output the puzzle waits for: a low pulse addressed to "rx". */
  predicate LowToRx(p: Pulse) {
    p.to == "rx" && !p.high
  }

  /** Some pulse of `ps` is a low pulse to "rx". */
  predicate AnyLowToRx(ps: seq<Pulse>) {
    exists i | 0 <= i < |ps| :: LowToRx(ps[i])
  }

  lemma AnyLowToRxAppend(a: seq<Pulse>, b: seq<Pulse>)
    ensures AnyLowToRx(a + b) <==> AnyLowToRx(a) || AnyLowToRx(b)
  {
    if AnyLowToRx(a + b) {
      var i :| 0 <= i < |a + b| && LowToRx((a + b)[i]);
      if i >= |a| {
        assert b[i - |a|] == (a + b)[i];
      }
    }
    if AnyLowToRx(a) {
      var i :| 0 <= i < |a| && LowToRx(a[i]);
      assert (a + b)[i] == a[i];
    }
    if AnyLowToRx(b) {
      var i :| 0 <= i < |b| && LowToRx(b[i]);
      assert (a + b)[|a| + i] == b[i];
    }
  }

  /** The pulses of one call reach "rx" low exactly when "rx" is addressed and the level is low. */
  lemma AnyLowToRxSent(sender: Name, sendTo: seq<Name>, input: bool)
    ensures AnyLowToRx(Sent(sender, sendTo, input)) <==> "rx" in sendTo && !input
  {
    var ps := Sent(sender, sendTo, input);
    if "rx" in sendTo && !input {
      var i :| 0 <= i < |sendTo| && sendTo[i] == "rx";
      assert LowToRx(ps[i]);
    }
  }

  /**
   * `forward_signals(count, send_to, modules, input, sender)`: the flag starts
   * as "rx is addressed and the level is low" (whether or not "rx" is a
   * module), every destination with a module is updated, and then every
   * responder forwards in turn; any forward that reports true sets the flag.
   * The `count` argument is only printed and is not modelled.
   */
  function ForwardSignals(fuel: nat, sendTo: seq<Name>, net: Network, input: bool, sender: Name): (r: Outcome<bool>)
    decreases fuel, 0
    ensures r.Finished? ==> r.net.Keys == net.Keys
    ensures r.Finished? && "rx" in sendTo && !input ==> r.value
  {
    if fuel == 0 then OutOfFuel
    else
      var u := UpdateAll(sendTo, net, input, sender);
      if u.UpdateFailed? then Panicked
      else ForwardEach(fuel - 1, u.responders, u.net, "rx" in sendTo && !input)
  }

  /** The `for_each` over the responders; it does not stop early once the flag is set. */
  function ForwardEach(fuel: nat, rs: seq<Responder>, net: Network, triggered: bool): (r: Outcome<bool>)
    requires forall i | 0 <= i < |rs| :: rs[i].name in net
    decreases fuel, 1, |rs|
    ensures r.Finished? ==> r.net.Keys == net.Keys
    ensures r.Finished? && triggered ==> r.value
  {
    if rs == [] then Finished(net, triggered)
    else
      var c := ForwardSignals(fuel, net[rs[0].name].destinations, net, rs[0].level, rs[0].name);
      if !c.Finished? then c
      else ForwardEach(fuel, rs[1..], c.net, triggered || c.value)
  }

  /**
   * `o` and the cascade trace `c` end the same way, and when they finish they
   * leave the same network and `o` is `base` or "some pulse of `c` is low to rx".
   */
  predicate DetectsTraceFrom(o: Outcome<bool>, c: Outcome<seq<Pulse>>, base: bool) {
    && (o.Finished? <==> c.Finished?)
    && (o.Panicked? <==> c.Panicked?)
    && (o.Finished? ==> o.net == c.net && (o.value <==> base || AnyLowToRx(c.value)))
  }

  /** `DetectsTraceFrom` with the flag not yet set. */
  predicate DetectsTrace(o: Outcome<bool>, c: Outcome<seq<Pulse>>) {
    && (o.Finished? <==> c.Finished?)
    && (o.Panicked? <==> c.Panicked?)
    && (o.Finished? ==> o.net == c.net && (o.value <==> AnyLowToRx(c.value)))
  }

  /**
   * The flag is true exactly when the cascade sends a low pulse to "rx"
   * somewhere, and the network left behind is the cascade's.
   */
  lemma {:induction false} ForwardSignalsDetectsTrace(fuel: nat, sendTo: seq<Name>, net: Network, input: bool, sender: Name)
    ensures DetectsTrace(ForwardSignals(fuel, sendTo, net, input, sender), Cascade(fuel, sendTo, net, input, sender))
    decreases fuel, 0
  {
    if fuel > 0 {
      var u := UpdateAll(sendTo, net, input, sender);
      if u.Updated? {
        ForwardEachDetectsTrace(fuel - 1, u.responders, u.net, "rx" in sendTo && !input);
        var e := CascadeEach(fuel - 1, u.responders, u.net);
        if e.Finished? {
          AnyLowToRxAppend(Sent(sender, sendTo, input), e.value);
          AnyLowToRxSent(sender, sendTo, input);
        }
      }
    }
  }

  lemma {:induction false} ForwardEachDetectsTrace(fuel: nat, rs: seq<Responder>, net: Network, triggered: bool)
    requires forall i | 0 <= i < |rs| :: rs[i].name in net
    ensures DetectsTraceFrom(ForwardEach(fuel, rs, net, triggered), CascadeEach(fuel, rs, net), triggered)
    decreases fuel, 1, |rs|
  {
    if rs != [] {
      var dests := net[rs[0].name].destinations;
      ForwardSignalsDetectsTrace(fuel, dests, net, rs[0].level, rs[0].name);
      var c := Cascade(fuel, dests, net, rs[0].level, rs[0].name);
      if c.Finished? {
        var t := AnyLowToRx(c.value);
        ForwardEachDetectsTrace(fuel, rs[1..], c.net, triggered || t);
        var e := CascadeEach(fuel, rs[1..], c.net);
        if e.Finished? {
          BothDetectedFinishes(fuel, rs, net, triggered);
          BothDetectedNet(fuel, rs, net, triggered);
          BothDetectedFlag(fuel, rs, net, triggered);
        }
      }
    }
  }

  /**
   * The case of `ForwardEachDetectsTrace` where the first responder's cascade
   * and the cascades of the rest all finish, each already known to be detected.
   */
  predicate BothDetected(fuel: nat, rs: seq<Responder>, net: Network, triggered: bool)
    requires rs != []
    requires forall i | 0 <= i < |rs| :: rs[i].name in net
  {
    var dests := net[rs[0].name].destinations;
    var c := Cascade(fuel, dests, net, rs[0].level, rs[0].name);
    && c.Finished?
    && ForwardSignals(fuel, dests, net, rs[0].level, rs[0].name) == Finished(c.net, AnyLowToRx(c.value))
    && var e := CascadeEach(fuel, rs[1..], c.net);
    && e.Finished?
    && ForwardEach(fuel, rs[1..], c.net, triggered || AnyLowToRx(c.value))
       == Finished(e.net, triggered || AnyLowToRx(c.value) || AnyLowToRx(e.value))
  }

  lemma BothDetectedFinishes(fuel: nat, rs: seq<Responder>, net: Network, triggered: bool)
    requires rs != []
    requires forall i | 0 <= i < |rs| :: rs[i].name in net
    requires BothDetected(fuel, rs, net, triggered)
    ensures ForwardEach(fuel, rs, net, triggered).Finished? && CascadeEach(fuel, rs, net).Finished?
  {
  }

  lemma BothDetectedNet(fuel: nat, rs: seq<Responder>, net: Network, triggered: bool)
    requires rs != []
    requires forall i | 0 <= i < |rs| :: rs[i].name in net
    requires BothDetected(fuel, rs, net, triggered)
    ensures ForwardEach(fuel, rs, net, triggered).net == CascadeEach(fuel, rs, net).net
  {
  }

  lemma BothDetectedFlag(fuel: nat, rs: seq<Responder>, net: Network, triggered: bool)
    requires rs != []
    requires forall i | 0 <= i < |rs| :: rs[i].name in net
    requires BothDetected(fuel, rs, net, triggered)
    ensures ForwardEach(fuel, rs, net, triggered).value <==> triggered || AnyLowToRx(CascadeEach(fuel, rs, net).value)
  {
    var dests := net[rs[0].name].destinations;
    var c := Cascade(fuel, dests, net, rs[0].level, rs[0].name);
    var e := CascadeEach(fuel, rs[1..], c.net);
    AnyLowToRxAppend(c.value, e.value);
  }

  /**
   * Both solvers drive the modules identically: the tally and the rx flag come
   * from cascades that end the same way and leave the same network.
   */
  lemma SameRunAsTally(fuel: nat, sendTo: seq<Name>, net: Network, input: bool, sender: Name)
    ensures var o := ForwardSignals(fuel, sendTo, net, input, sender);
            var t := PulseCount.ForwardSignals(fuel, sendTo, net, input, sender);
            && (o.Finished? <==> t.Finished?)
            && (o.Panicked? <==> t.Panicked?)
            && (o.Finished? ==> o.net == t.net)
  {
    ForwardSignalsDetectsTrace(fuel, sendTo, net, input, sender);
    PulseCount.ForwardSignalsCountsTrace(fuel, sendTo, net, input, sender);
  }

  /** One button press: a low pulse from "broadcaster" to "broadcaster". */
  function Press(fuel: nat, net: Network): (r: Outcome<bool>)
    ensures r.Finished? ==> r.net.Keys == net.Keys
  {
    ForwardSignals(fuel, ["broadcaster"], net, false, "broadcaster")
  }

  /** The network after `k` presses, if all of them finished. */
  function NetAfter(fuel: nat, net: Network, k: nat): (r: Option<Network>)
    ensures r.Some? ==> r.value.Keys == net.Keys
  {
    if k == 0 then Some(net)
    else
      var before := NetAfter(fuel, net, k - 1);
      if before.None? then None
      else
        var p := Press(fuel, before.value);
        if p.Finished? then Some(p.net) else None
  }

  /** Press number `k` (counting from 0) happens, finishes, and sends a low pulse to "rx". */
  predicate Fires(fuel: nat, net: Network, k: nat) {
    && NetAfter(fuel, net, k).Some?
    && var p := Press(fuel, NetAfter(fuel, net, k).value);
    && p.Finished?
    && p.value
  }

  /** A press fires exactly when its cascade contains a low pulse to "rx". */
  lemma FiresIffTraceReachesRx(fuel: nat, net: Network, k: nat)
    requires NetAfter(fuel, net, k).Some?
    ensures var c := Cascade(fuel, ["broadcaster"], NetAfter(fuel, net, k).value, false, "broadcaster");
            Fires(fuel, net, k) <==> c.Finished? && AnyLowToRx(c.value)
  {
    ForwardSignalsDetectsTrace(fuel, ["broadcaster"], NetAfter(fuel, net, k).value, false, "broadcaster");
  }

  /** Once a press fails to finish, no later press happens. */
  lemma {:induction false} NetAfterStops(fuel: nat, net: Network, i: nat, k: nat)
    requires NetAfter(fuel, net, i).Some?
    requires !Press(fuel, NetAfter(fuel, net, i).value).Finished?
    requires k > i
    ensures NetAfter(fuel, net, k).None?
  {
    if k > i + 1 {
      NetAfterStops(fuel, net, i, k - 1);
    }
  }

  /** How `run`, bounded by a number of presses, ends. */
  datatype RunEnd =
    | Fired(press: nat)   // press `press` sends a low pulse to "rx"
    | Failed(press: nat)  // press `press` panics or runs out of fuel
    | Exhausted           // every press below the bound finishes without firing

  /**
   * `run`, bounded by `limit` presses: the number of presses before the first
   * one that sends a low pulse to "rx", told apart from a press that fails
   * first and from reaching the bound.
   */
  method Run(fuel: nat, net: Network, limit: nat) returns (r: RunEnd)
    ensures r.Fired? ==> r.press < limit && Fires(fuel, net, r.press)
    ensures r.Failed? ==> r.press < limit && NetAfter(fuel, net, r.press).Some?
                          && !Press(fuel, NetAfter(fuel, net, r.press).value).Finished?
    ensures r.Fired? || r.Failed? ==> forall k: nat | k < r.press :: !Fires(fuel, net, k)
    ensures r.Failed? ==> forall k: nat | r.press < k :: !Fires(fuel, net, k)
    ensures r.Exhausted? ==> NetAfter(fuel, net, limit).Some? && forall k: nat | k < limit :: !Fires(fuel, net, k)
  {
    var current := net;
    var count := 0;
    while count < limit
      invariant count <= limit
      invariant NetAfter(fuel, net, count) == Some(current)
      invariant forall k: nat | k < count :: !Fires(fuel, net, k)
    {
      var p := Press(fuel, current);
      if !p.Finished? {
        forall k: nat | count < k
          ensures !Fires(fuel, net, k)
        {
          NetAfterStops(fuel, net, count, k);
        }
        return Failed(count);
      }
      if p.value {
        return Fired(count);
      }
      current := p.net;
      count := count + 1;
    }
    return Exhausted;
  }
}

=== FILE: window.dfy ===
/**
 * The three-line window of day3a/src/lib.rs: every line of the input is
 * handed to a line handler together with the line before it and the line
 * after it, and the handler's results are summed. Items that are read
 * errors are skipped. The handler is a parameter, as in the source.
 */
module Window {
  import opened Wrappers

  /** One item of the line stream: a line, or a read error. */
  datatype Item = Ok(line: string) | Err

  /** `handle_line(current, previous, next)`. */
  type Handler = (string, Option<string>, Option<string>) -> nat

  /** Every item of the stream is a line. */
  predicate NoErrors(items: seq<Item>) {
    forall k | 0 <= k < |items| :: items[k].Ok?
  }

  /** The lines of the stream, read errors left out. */
  function Lines(items: seq<Item>): (ls: seq<string>)
    ensures |ls| <= |items|
    ensures NoErrors(items) ==> |ls| == |items| && forall k | 0 <= k < |items| :: ls[k] == items[k].line
  {
    if items == [] then []
    else
      var n := |items| - 1;
      Lines(items[..n]) + if items[n].Ok? then [items[n].line] else []
  }

  /** The line before line `j`, if any. */
  function Previous(ls: seq<string>, j: nat): (p: Option<string>)
    requires j < |ls|
    ensures p.Some? <==> j > 0
    ensures p.Some? ==> p.value == ls[j - 1]
  {
    if j == 0 then None else Some(ls[j - 1])
  }

  /** The line after line `j`, if any. */
  function Next(ls: seq<string>, j: nat): (n: Option<string>)
    requires j < |ls|
    ensures n.Some? <==> j + 1 < |ls|
    ensures n.Some? ==> n.value == ls[j + 1]
  {
    if j + 1 < |ls| then Some(ls[j + 1]) else None
  }

  /** What the handler makes of line `j` in its window. */
  function HandleAt(ls: seq<string>, j: nat, handle: Handler): nat
    requires j < |ls|
  {
    handle(ls[j], Previous(ls, j), Next(ls, j))
  }

  /** The handler's results for the first `k` lines, each in its window. */
  function Handled(ls: seq<string>, k: nat, handle: Handler): nat
    requires k <= |ls|
  {
    if k == 0 then 0 else Handled(ls, k - 1, handle) + HandleAt(ls, k - 1, handle)
  }

  /** The sum `general_solution` is meant to give: every line handled once, in its window. */
  function WindowSum(ls: seq<string>, handle: Handler): nat {
    Handled(ls, |ls|, handle)
  }

  /**
   * A line that arrives after line `k - 1` changes nothing for the lines
   * before it: their windows stay the same.
   */
  lemma {:induction false} HandledExtend(ls: seq<string>, x: string, k: nat, handle: Handler)
    requires k < |ls|
    ensures Handled(ls + [x], k, handle) == Handled(ls, k, handle)
  {
    if k > 0 {
      HandledExtend(ls, x, k - 1, handle);
      var ext := ls + [x];
      assert ext[k - 1] == ls[k - 1] && ext[k] == ls[k];
      assert Previous(ext, k - 1) == Previous(ls, k - 1);
    }
  }

  /**
   * `general_solution`: the window slides over the lines as they arrive, and
   * each line is handled once the line after it is known; the last line is
   * handled after the stream ends. `None` for the `unwrap` when there is no
   * line at all.
   */
  method GeneralSolution(items: seq<Item>, handle: Handler) returns (r: Option<nat>)
    ensures r.None? <==> Lines(items) == []
    ensures r.Some? ==> r.value == WindowSum(Lines(items), handle)
  {
    var previousLine: Option<string> := None;
    var currentLine: Option<string> := None;
    var nextLine: Option<string> := None;
    var sum := 0;
    var i := 0;
    while i < |items|
      invariant 0 <= i <= |items|
      invariant var ls := Lines(items[..i]);
                && nextLine == (if |ls| == 0 then None else Some(ls[|ls| - 1]))
                && currentLine == (if |ls| < 2 then None else Some(ls[|ls| - 2]))
                && sum == (if |ls| == 0 then 0 else Handled(ls, |ls| - 1, handle))
    {
      var ls := Lines(items[..i]);
      assert items[..i + 1][..i] == items[..i];
      if items[i].Ok? {
        var line := items[i].line;
        var ext := ls + [line];
        assert Lines(items[..i + 1]) == ext;
        previousLine := currentLine;
        currentLine := nextLine;
        nextLine := Some(line);
        if currentLine.Some? {
          var n := |ls|;
          HandledExtend(ls, line, n - 1, handle);
          assert Previous(ext, n - 1) == previousLine;
          assert Next(ext, n - 1) == nextLine;
          sum := sum + handle(currentLine.value, previousLine, nextLine);
        }
      } else {
        assert Lines(items[..i + 1]) == ls;
      }
      i := i + 1;
    }
    assert items[..i] == items;
    if nextLine.None? {
      return None;
    }
    var ls := Lines(items);
    assert Previous(ls, |ls| - 1) == currentLine;
    sum := sum + handle(nextLine.value, currentLine, None);
    r := Some(sum);
  }

  /** A stream of one line hands it to the handler once, with no neighbours. */
  lemma SingleLine(line: string, handle: Handler)
    ensures WindowSum([line], handle) == handle(line, None, None)
  {
    assert Handled([line], 0, handle) == 0;
  }

  /** Read errors do not shift the window: dropping them changes nothing. */
  lemma {:induction false} LinesSkipErrors(items: seq<Item>, k: nat)
    requires k <= |items|
    ensures Lines(items[..k] + [Err] + items[k..]) == Lines(items)
    decreases |items| - k
  {
    var withErr := items[..k] + [Err] + items[k..];
    if k == |items| {
      assert withErr[..|withErr| - 1] == items;
      assert items[..k] == items;
    } else {
      var n := |items| - 1;
      assert withErr[..|withErr| - 1] == items[..n][..k] + [Err] + items[..n][k..];
      assert withErr[|withErr| - 1] == items[n];
      LinesSkipErrors(items[..n], k);
      assert items[..n + 1] == items;
    }
  }
}

=== FILE: workflows.dfy ===
/**
 * The workflow vocabulary shared by both part-sorting solvers
 * (day19a/src/types.rs and day19b/src/types.rs): the four rating categories,
 * the two comparisons a rule can make, where a rule sends a part, and a
 * workflow as an ordered list of rules with a default.
 */
module Workflows {
  datatype Category = X | M | A | S

  datatype Condition = Larger | Lower

  datatype Destination = Accepted | Rejected | Ref(name: string)

  /** `category condition value: destination`, as in `x>10:one`. */
  datatype Rule = Rule(category: Category, condition: Condition, value: nat, destination: Destination)

  datatype Workflow = Workflow(rules: seq<Rule>, default: Destination)

  /** The workflows by name. */
  type Workflows = map<string, Workflow>

  /** Whether a rating `v` passes the strict comparison `condition` against `threshold`. */
  predicate Holds(condition: Condition, v: int, threshold: int) {
    match condition
    case Larger => v > threshold
    case Lower => v < threshold
  }

  /** `Destination::is_done`: the search stops at a verdict and goes on at a reference. */
  function IsDone(d: Destination): (done: bool)
    ensures done <==> d == Accepted || d == Rejected
  {
    match d
    case Accepted => true
    case Rejected => true
    case Ref(_) => false
  }
}

=== FILE: wrappers.dfy ===
/** Failure-aware values shared by every module of the model. */
module Wrappers {

  /** Rust's `Option<T>`. */
  datatype Option<+T> = None | Some(value: T)

  /** The sum of a list of answers, as a fold panicking on the first missing one would see it: `None` when one is missing. */
  function OptionSum(ps: seq<Option<nat>>): Option<nat> {
    if ps == [] then Some(0)
    else
      var n := |ps| - 1;
      var before := OptionSum(ps[..n]);
      if before.None? || ps[n].None? then None else Some(before.value + ps[n].value)
  }

  lemma {:induction false} OptionSumDefined(ps: seq<Option<nat>>)
    ensures OptionSum(ps).Some? <==> forall k | 0 <= k < |ps| :: ps[k].Some?
  {
    if ps != [] {
      var n := |ps| - 1;
      assert forall k | 0 <= k < n :: ps[..n][k] == ps[k];
      OptionSumDefined(ps[..n]);
    }
  }
}
